=== FILE: README.md ===
# News ingestion service, modelled in Dafny

This project models the logic core of a news-ingestion service for six West and East
African countries. The service does four things:

- it scrapes publisher search pages for articles about the head of state;
- it asks a language model to summarise each stored post into an "activity" with categories;
- it serves posts, sources, categories, presidents, activities and votes over a CRUD API backed by a document store with soft deletion;
- it lets signed-in users up- or down-vote activities.

Network access, HTML selection, the language model and the database driver are
outside the model. What each of them returns becomes a parameter: the listing's
link attributes, the settled fetch of each page, the model's reply text, and the
store as a value.

The modules follow the program's layout:

| module | models |
|---|---|
| `Wrappers`, `JsString`, `Ordering` | `Result`/`Option`; the JavaScript string operations the code uses (`trim`, `split`, `indexOf`, `replaceAll`, `toLowerCase`, `String(n)`, truthiness); a total order on sort keys with insertion sort |
| `Constants` | countries, default categories and their emojis, the six publisher registries |
| `Misc` | `toTitleCase`, `sanitizeText`, `isWithinTimeframe`, `getNewsSource` |
| `Models` | the Mongoose schemas: required fields, enums, defaults, unique category names and user e-mails, and the store `Db` (one map per collection and a counter for fresh ids, so ascending id is insertion order) |
| `Store`, `Search` | Mongo filters and their evaluation, `find`/`findOne`, sort, `(page - 1) * limit` paging, `updateMany`, `insertMany`; the search regular expression the services build |
| `PostService`, `SourceService`, `CategoryService`, `PresidentService`, `VoteService`, `ActivityService`, `UserService` | the services of the same names |
| `VoteController`, `AuthController` | the vote toggle of `handleVoteActivity` and the user upsert of `handleLogin` |
| `Scraper`, `Ingestion` | the per-publisher adapters (search query, keyword test, URL prefix) and the acceptance pipeline of `scraperWrapper`/`jsScraperWrapper`; the Wikipedia leader-line parser |
| `Prompts`, `ActivityReply`, `ActivityGenerator` | the prompt text, the parse of the reply, and `generateActivities` |
| `Port` | `normalizePort(PORT \|\| '5001')` over `parseInt` as section 19.2.5 of ECMA-262 defines it |

Instants are integers, in milliseconds. A date that failed to parse is `None`, except for the date options of `getPosts`, where an absent, blank or unparsable date is told apart (`PostService.DateArg`), and of its `src` option, where an absent, well-formed or malformed id string is told apart (`PostService.SrcArg`).
Africa/Lagos is modelled as a fixed UTC+1, since it observes no daylight saving.
A regular-expression match is a function parameter (`Regex`). For the one pattern
shape the services build, `Search` gives that match a precise meaning.

## Model

| member | source | states |
|---|---|---|
| Constants.Countries | src/api/lib/constants.ts:7-32 | six countries with pairwise-distinct two-letter codes, exactly NG, GH, LR, GM, KE and SL |
| Constants.DefaultCategories | src/api/lib/constants.ts:34-50 | fifteen default category names, all different |
| Constants.CategoryEmojis | src/api/lib/constants.ts:52-68 | the emoji table has exactly the default categories as keys, each with a non-empty emoji |
| Constants.Lookup | src/api/lib/constants.ts:70-101 | a registry lookup finds an entry exactly when one carries the key, and returns that entry |
| Constants.NigerianNewsSources | src/api/lib/constants.ts:70-101 | seven Nigerian publishers; every home URL starts with `https://` and has no trailing slash, and every name equals its key |
| Constants.GambiaNewsSources | src/api/lib/constants.ts:102-112 | two Gambian publishers; every home URL starts with `https://` and has no trailing slash; every name equals its key except "The Standard", whose name is "Standard" |
| Constants.GhanaNewsSources | src/api/lib/constants.ts:113-127 | three Ghanaian publishers; every home URL starts with `https://` and has no trailing slash, and every name equals its key |
| Constants.KenyaNewsSources | src/api/lib/constants.ts:128-146 | four Kenyan publishers; every home URL starts with `https://` and has no trailing slash, and every name equals its key |
| Constants.LiberianNewsSources | src/api/lib/constants.ts:147-157 | two Liberian publishers; every home URL starts with `https://` and has no trailing slash, and every name equals its key |
| Constants.SierraLeoneNewsSources | src/api/lib/constants.ts:158-171 | three Sierra Leonean publishers; every home URL starts with `https://` and has no trailing slash, and every name equals its key |
| Constants.RegistryKeysDistinct | src/api/lib/constants.ts:70-171 | within each country's registry no two publishers share a key, so a lookup by key is unambiguous |
| Constants.RegistryTidy | src/api/lib/constants.ts:70-171 | in every country's registry each home URL uses https with no trailing slash, and each publisher is named by its key, Gambia's "The Standard" being the one exception |
| Misc.StateIsInWord | src/api/resources/utils/misc.ts:18-22 | the left-to-right scan's "inside a word" state at position i is exactly "some earlier run of non-space characters started at a word character and reaches i", which is what the `\w\S*` matches cover |
| Misc.TitleCaseAt | src/api/resources/utils/misc.ts:18-22 | `toTitleCase` keeps the length; a character that starts a match is upper-cased, one inside a match is lower-cased, any other is kept |
| Misc.TitleCaseIdempotent | src/api/resources/utils/misc.ts:18-22 | title-casing twice is title-casing once |
| Misc.StripIsFilter | src/api/resources/utils/misc.ts:25 | removing `\r\n`, `\n` and `\r` matches is the same as dropping every line-break character and keeping all others in order |
| Misc.SanitizeText | src/api/resources/utils/misc.ts:24-26 | the result has no line break and no surrounding white space, and is the line-break-free text with only white space cut from its two ends |
| Misc.SanitizeIdempotent | src/api/resources/utils/misc.ts:24-26 | sanitising twice is sanitising once |
| Misc.IsWithinTimeframe | src/api/resources/utils/misc.ts:28-38 | for separately built moments the identity shortcut never fires and the answer is the strict `start < date < end`; an identical object is always inside |
| Misc.TimeframeExcludesBounds | src/api/resources/utils/misc.ts:28-38 | a separately built date at the same instant as the start or the end is not inside, nor is an invalid date compared with an invalid bound |
| Misc.GetNewsSource | src/api/resources/utils/misc.ts:40-84 | the country code is that of the named country, or "NG" when the tag is unknown; url and name are both present or both absent |
| Misc.NewsSourceFound | src/api/resources/utils/misc.ts:47-77 | for a well-formed source the registry entry exists and its url and name are returned |
| Misc.UnknownCountryIsNigeria | src/api/resources/utils/misc.ts:78-82 | an unrecognised country tag behaves exactly as "Nigeria" |
| Ordering.SortBy | src/api/resources/services/post.svc.ts:58 | the sort returns a permutation of its input, ordered by the key in the requested direction |
| Store.Select | src/api/resources/services/post.svc.ts:54 | `find` returns exactly the stored ids below the next id whose record matches the filter, in increasing id order |
| Store.First | src/api/resources/services/post.svc.ts:68-72 | `findOne` returns the lowest matching id, or nothing when no record matches |
| Store.FirstUnique | src/api/resources/services/post.svc.ts:68-72 | when exactly one record matches, `findOne` returns it |
| Store.Page | src/api/resources/services/post.svc.ts:56-57 | a negative skip is an error; otherwise the page is the window starting at `(page - 1) * limit`, of at most `limit` items, or all the rest when the limit is 0 |
| Store.PagesAdjacent | src/api/resources/services/post.svc.ts:56-57 | with a positive limit, page p followed by page p + 1 is one contiguous window of the sorted result |
| Store.FindListing | src/api/resources/services/post.svc.ts:54-62 | the listing is exactly the window of the sorted matches that starts at `(page - 1) * limit` (or at the end, when fewer match), `limit` long or all the rest when the limit is 0, cut short only by the end; `count` is the number of all matches |
| Store.FindPageAll | src/api/resources/services/post.svc.ts:54-58 | page 1 with limit 0 lists every match, so its length is the count |
| Store.MissingFieldImposesNoOrder | src/api/resources/services/post.svc.ts:58 | a sort on a field no record has imposes no order: every arrangement of the matches counts as sorted, so the database may return them in any order |
| Store.CountIsMatching | src/api/resources/services/post.svc.ts:54 | `count` is the number of stored records below the next id that match the filter |
| Store.PutIf | src/api/resources/services/post.svc.ts:33-50 | a conditional filter entry is added exactly when its value is given, and nothing else in the filter changes |
| Store.UpdateWhere | src/api/resources/services/post.svc.ts:97-100 | `updateMany` changes exactly the matching records, by the given change, and keeps the key set |
| Store.InsertAll | src/api/resources/services/post.svc.ts:81-84 | `insertMany` stores the items under consecutive fresh ids after the existing ones and leaves stored records unchanged |
| Store.CountOneChange | src/api/resources/controllers/vote.ctrl.ts:60-62 | changing one record changes a count by at most that record's own match |
| Search.SearchPattern | src/api/resources/services/post.svc.ts:36 | the corrected pattern `.*term.*`: empty for a blank term, otherwise the term wrapped in `.*` on both sides |
| Search.IntendedIsSubstring | src/api/resources/services/post.svc.ts:36 | with the `i` flag, the corrected pattern matches a text exactly when the text contains the term, ignoring case |
| Search.PatternAsWritten | src/api/resources/services/post.svc.ts:36 | the pattern as the code writes it, `.*term*.`, ending in `*.` |
| Search.AsWrittenDropsLastChar | src/api/resources/services/post.svc.ts:36 | the pattern as written matches a text that has the term with its last character replaced by any other |
| Search.AsWrittenOverMatches | src/api/resources/services/post.svc.ts:36 | "bolt" matches the pattern as written for "bola" although it does not contain "bola" |
| Search.SearchLits | src/api/resources/services/post.svc.ts:36 | a literal run followed by `.*` matches somewhere in a text exactly when the text contains the run, ignoring case |
| Models.ParseStatus | src/db/models/Post.model.ts:21-25 | a post status is exactly "pending" or "approved" |
| Models.StatusName | src/db/models/Post.model.ts:21-25 | every status is written as a string that reads back as itself |
| Models.ParseVoteType | src/db/models/Vote.model.ts:8-13 | a vote type is exactly "downvote" or "upvote" |
| Models.VoteTypeName | src/db/models/Vote.model.ts:8-13 | every vote type is written as a string that reads back as itself |
| Models.ParseRole | src/db/models/User.model.ts:25-29 | a role is exactly "admin" or "user" |
| Models.RoleName | src/db/models/User.model.ts:25-29 | every role is written as a string that reads back as itself |
| Models.NewPost | src/db/models/Post.model.ts:8-38 | a post is rejected exactly when its title is empty; otherwise it is pending, unprocessed and undeleted, the country defaults to "NG" and the publish time to now, and the given fields are kept |
| Models.NewCategory | src/db/models/Category.model.ts:7-19 | a category is rejected exactly when its name is empty; otherwise it keeps name and emoji and starts undeleted |
| Models.NewActivity | src/db/models/Activity.model.ts:8-41 | an activity is rejected exactly when its title or summary is empty; otherwise it is unpublished and undeleted with the given post, ordered categories, date and country |
| Models.NewUser | src/db/models/User.model.ts:9-33 | a user is rejected exactly when first name, last name or e-mail is missing or empty; otherwise it keeps them, with role and country defaulting to "user" and "NG" |
| Models.BuildAll | src/api/resources/services/post.svc.ts:81-84 | an ordered batch builds exactly when every item builds, one record per item |
| Models.AddCategory | src/db/models/Category.model.ts:7-11 | storing a category fails exactly when the name is empty or already taken by any stored category, deleted or not |
| Models.AddUser | src/db/models/User.model.ts:20-24 | storing a user fails exactly when the e-mail is already taken |
| Models.IdInMatches | src/api/resources/services/post.svc.ts:102-105 | the filter `{_id: {$in: ids}}` matches exactly the listed ids |
| Models.IdIsMatches | src/api/resources/services/post.svc.ts:68-72 | the filter `{_id: id}` matches exactly that id |
| Models.NotDeletedLast | src/api/resources/services/post.svc.ts:51 | a record matching a filter with `isDeleted: false` spread last is not deleted, whatever the caller's filter says |
| PostService.DefaultPostsQuery | src/api/resources/services/post.svc.ts:11-15 | without options: page 1, limit 10, no filters, and a descending sort on the misspelt field `publisedAt` |
| PostService.Derived | src/api/resources/services/post.svc.ts:33-50 | each derived condition (title search with the pattern as written, inclusive date range, country, status, source) is present exactly when its option is given, with the given value; the date range is present when either date option is truthy, even a blank one, and only dates that parse become bounds |
| PostService.QueryOverridesDerived | src/api/resources/services/post.svc.ts:33-52 | the caller's query overrides the derived conditions, and `isDeleted: false` overrides both |
| PostService.GetPosts | src/api/resources/services/post.svc.ts:10-65 | the driver's error (500) when the `src` option is a truthy string `new ObjectId` cannot read; else a store cast error (500) when a date option is unparsable or every truthy date option is blank; otherwise exactly the window of the non-deleted matching posts, sorted by the requested field, that starts at `(page - 1) * limit`, `limit` long or all the rest when the limit is 0, cut short only by the end; and the count of all matches |
| PostService.CountIsFullListing | src/api/resources/services/post.svc.ts:54-58 | with limit 0 the listing succeeds unless the `src` option is malformed or the dates are rejected, and then the page holds every match, so its length equals the count |
| PostService.DefaultSortNewestFirst | src/api/resources/services/post.svc.ts:15 | with the corrected sort field, a listing runs from the newest publish time to the oldest |
| PostService.SortAsWrittenImposesNoOrder | src/api/resources/services/post.svc.ts:15 | the misspelt sort field `publisedAt` is absent from every post, so the default sort imposes no order: any arrangement of the posts counts as sorted, whatever their publish dates |
| PostService.OlderFirstNotSorted | src/api/resources/services/post.svc.ts:15 | an older post ahead of a newer one is out of order under the intended sort, yet in order under the sort as written |
| PostService.GetPost | src/api/resources/services/post.svc.ts:67-73 | some non-deleted post matching the query, or none exactly when no non-deleted post matches |
| PostService.CreateMultiplePosts | src/api/resources/services/post.svc.ts:81-84 | the batch fails whole exactly when a draft has no title; otherwise each draft becomes a new post under consecutive fresh ids and every stored post is unchanged |
| PostService.CreatedPostFound | src/api/resources/services/post.svc.ts:67-84 | a post just created is what `getPost({_id})` returns |
| PostService.UpdatePost | src/api/resources/services/post.svc.ts:86-95 | "not found" (404) when no non-deleted post matches; otherwise only the status of the post `getPost` returns may change, and only when a status is supplied |
| PostService.ApplyPatch | src/api/resources/services/post.svc.ts:97-100 | a patch overwrites exactly the fields it supplies |
| PostService.UpdatePosts | src/api/resources/services/post.svc.ts:97-100 | every matching non-deleted post is patched, deleted posts and non-matching posts are unchanged |
| PostService.DeletePosts | src/api/resources/services/post.svc.ts:102-105 | the listed posts are flagged deleted and nothing else changes |
| PostService.CountPosts | src/api/resources/services/post.svc.ts:107-110 | the count is the number of non-deleted posts matching the query, and is zero exactly when `getPost` finds nothing |
| PostService.DeletedPostNotFound | src/api/resources/services/post.svc.ts:67-73 | a deleted post is no longer found by id |
| SourceService.DefaultSourcesQuery | src/api/resources/services/source.svc.ts:10-42 | without options: page 1, limit 10, by name ascending, no filters |
| SourceService.SourcesFilter | src/api/resources/services/source.svc.ts:10-42 | the name search (with the pattern as written) and exact country conditions are present exactly when given, and the caller's query overrides them |
| SourceService.GetSources | src/api/resources/services/source.svc.ts:10-42 | exactly the window of the matching sources, sorted by the requested field, that starts at `(page - 1) * limit`, `limit` long or all the rest when the limit is 0, cut short only by the end; and the count of all matches; deleted sources are not excluded |
| SourceService.GetSource | src/api/resources/services/source.svc.ts:44-47 | some source matching the query, deleted or not, or none exactly when no source matches |
| SourceService.SourceKeyFinds | src/api/resources/services/source.svc.ts:50-54 | the existence check finds a source exactly when one has the same name and, when a country is given, the same country |
| SourceService.LegacySourceMatches | src/api/resources/services/source.svc.ts:96-98 | the filter `{source: name}` matches exactly the posts whose legacy source string is that name |
| SourceService.ReplaceSource | src/api/resources/services/source.svc.ts:96-98 | exactly the posts whose legacy source string is the name get the new source id; other posts are unchanged |
| SourceService.CreateSource | src/api/resources/services/source.svc.ts:49-62 | 400 "source exists" exactly when a source with the name (and country) exists; otherwise a new source under a fresh id, and the legacy posts repointed to it |
| SourceService.CreateSourceTwiceRejected | src/api/resources/services/source.svc.ts:49-62 | creating the same source twice fails the second time |
| SourceService.ApplySourcePatch | src/api/resources/services/source.svc.ts:69-84 | a patch overwrites exactly the fields it supplies |
| SourceService.UpdateSource | src/api/resources/services/source.svc.ts:69-84 | 404 exactly when no source matches; otherwise the source `getSource` returns is patched and nothing else changes |
| SourceService.DeleteSources | src/api/resources/services/source.svc.ts:86-89 | the listed sources are flagged deleted and nothing else changes |
| SourceService.CountSources | src/api/resources/services/source.svc.ts:91-94 | the count is the number of sources matching the query, deleted ones included, and is zero exactly when `getSource` finds nothing |
| SourceService.DeletedSourceStillFound | src/api/resources/services/source.svc.ts:86-94 | a deleted source is still found by id and still counted |
| CategoryService.DefaultCategoriesQuery | src/api/resources/services/category.svc.ts:10-14 | without options: page 1, limit 10, by name ascending |
| CategoryService.CategoriesFilter | src/api/resources/services/category.svc.ts:22-30 | `isDeleted: false` is always present and cannot be overridden; the name search, with the pattern as written, is present exactly when given |
| CategoryService.GetCategories | src/api/resources/services/category.svc.ts:9-39 | exactly the window of the non-deleted matching categories, sorted by the requested field, that starts at `(page - 1) * limit`, `limit` long or all the rest when the limit is 0, cut short only by the end; and the count of all matches |
| CategoryService.GetCategory | src/api/resources/services/category.svc.ts:41-44 | some non-deleted category matching the query, or none exactly when no non-deleted category matches |
| CategoryService.CreateCategory | src/api/resources/services/category.svc.ts:46-50 | creation fails exactly when the name is missing or already used by any stored category, deleted ones included; otherwise the new category gets a fresh id |
| CategoryService.CreatedCategoryFound | src/api/resources/services/category.svc.ts:41-50 | a category just created is found by its name |
| CategoryService.ApplyCategoryPatch | src/api/resources/services/category.svc.ts:57-72 | a patch overwrites exactly the fields it supplies |
| CategoryService.UpdateCategory | src/api/resources/services/category.svc.ts:57-72 | 404 when no non-deleted category matches; a renaming onto a taken name is rejected; otherwise the category `getCategory` returns is patched and nothing else changes |
| CategoryService.DeleteCategories | src/api/resources/services/category.svc.ts:74-77 | the listed categories are flagged deleted, nothing else changes, and names stay unique |
| CategoryService.CountCategories | src/api/resources/services/category.svc.ts:79-82 | the count is the number of non-deleted categories matching the query, and is zero exactly when `getCategory` finds nothing |
| CategoryService.DeletedCategoryHidden | src/api/resources/services/category.svc.ts:41-50 | a deleted category is no longer found, yet its name still blocks a new category of that name |
| PresidentService.DefaultPresidentsQuery | src/api/resources/services/president.svc.ts:9-23 | without options: page 1, limit 10, by name ascending, no filters |
| PresidentService.PresidentsFilter | src/api/resources/services/president.svc.ts:24-39 | the search becomes an `$or` over name and country with the pattern as written, and the country an exact condition, each present exactly when given; the caller's query overrides both |
| PresidentService.SearchNameOrCountry | src/api/resources/services/president.svc.ts:24-39 | the search condition holds exactly when the pattern as written, `.*term*.`, matches the name or the country |
| PresidentService.GetPresidents | src/api/resources/services/president.svc.ts:9-48 | exactly the window of the matching presidents, sorted by the requested field, that starts at `(page - 1) * limit`, `limit` long or all the rest when the limit is 0, cut short only by the end; and the count of all matches |
| PresidentService.GetPresident | src/api/resources/services/president.svc.ts:50-53 | some president matching the query, deleted or not, or none exactly when no president matches |
| PresidentService.ApplyPresidentPatch | src/api/resources/services/president.svc.ts:76-79 | name, country, bio and duration take the supplied value only when it is truthy; image and url never change |
| PresidentService.EmptyPatchChangesNothing | src/api/resources/services/president.svc.ts:76-79 | a patch of only empty or absent values leaves the president as it was |
| PresidentService.PatchIdempotent | src/api/resources/services/president.svc.ts:76-79 | applying the same patch twice is applying it once |
| PresidentService.UpdatePresident | src/api/resources/services/president.svc.ts:66-84 | 404 exactly when no president matches; otherwise only the president `getPresident` returns changes |
| PresidentService.DeletePresidents | src/api/resources/services/president.svc.ts:99-102 | the listed presidents are flagged deleted and nothing else changes |
| PresidentService.CountPresidents | src/api/resources/services/president.svc.ts:104-107 | the count is the number of presidents matching the query, deleted ones included, and is zero exactly when `getPresident` finds nothing |
| PresidentService.DeletedPresidentStillFound | src/api/resources/services/president.svc.ts:50-53 | a deleted president is still found by id and still counted |
| VoteService.GetVote | src/api/resources/services/vote.svc.ts:5-8 | some vote matching the query, or none exactly when no vote matches |
| VoteService.CreateVote | src/api/resources/services/vote.svc.ts:10-14 | creation fails exactly when the type is not a vote type; otherwise a vote with exactly the given type, activity, creator and country under a fresh id |
| VoteService.CountVotes | src/api/resources/services/vote.svc.ts:16-19 | the count is the number of votes matching the query, with no soft-delete filter, and is zero exactly when `getVote` finds nothing |
| VoteService.PatchVote | src/api/resources/services/vote.svc.ts:21-27 | a patch overwrites exactly the supplied fields, and fails exactly when the supplied type is not a vote type |
| VoteService.UpdateVote | src/api/resources/services/vote.svc.ts:21-27 | 404 "No vote with that id exists." when nothing matches; otherwise only the vote `getVote` returns is patched |
| VoteService.DeleteVote | src/api/resources/services/vote.svc.ts:29-33 | 404 exactly when nothing matches; otherwise exactly the vote `getVote` returns is removed |
| VoteService.DeletedVoteGone | src/api/resources/services/vote.svc.ts:29-33 | after deleting a vote by id, it is no longer found |
| VoteController.PriorVote | src/api/resources/controllers/vote.ctrl.ts:43 | the user's existing vote on the activity, or none when the user has none there |
| VoteController.SwitchVote | src/api/resources/controllers/vote.ctrl.ts:48-49 | switching a vote changes only its type |
| VoteController.Message | src/api/resources/controllers/vote.ctrl.ts:66-70 | "Vote removed successfully" exactly when the prior vote had the same type; otherwise the upvoted or downvoted message |
| VoteController.HandleVoteActivity | src/api/resources/controllers/vote.ctrl.ts:34-73 | an unknown user is 404 "User not found" with no change; otherwise the toggle (create, remove on the same type, switch on the other), then the aggregate and the message |
| VoteController.ToggleKeepsOneVoteEach | src/api/resources/controllers/vote.ctrl.ts:43-58 | run one after another, the toggle keeps at most one vote per user and activity |
| VoteController.AggregateDelta | src/api/resources/controllers/vote.ctrl.ts:43-62 | the aggregate (upvotes minus downvotes) moves by the new vote's weight on a create, back by it on a removal, and by twice the new weight on a switch |
| VoteController.AggregateAfterCreate | src/api/resources/controllers/vote.ctrl.ts:51-62 | a created vote moves the aggregate of its activity by its weight |
| VoteController.AggregateAfterRemove | src/api/resources/controllers/vote.ctrl.ts:45-47 | a removed vote moves the aggregate back by its weight |
| VoteController.AggregateAfterSwitch | src/api/resources/controllers/vote.ctrl.ts:48-49 | a switched vote moves the aggregate by the difference of the two weights |
| UserService.FindUser | src/api/resources/controllers/auth.ctrl.ts:86 | the user stored under the e-mail, or none when no user has it |
| UserService.FindUserByEmail | src/api/resources/controllers/auth.ctrl.ts:86 | a stored user is found by their own e-mail |
| AuthController.CountryOrDefault | src/api/resources/controllers/auth.ctrl.ts:95-99 | the request country when it is given and non-empty, otherwise "NG" |
| AuthController.Refresh | src/api/resources/controllers/auth.ctrl.ts:95-99 | the overwrite takes names and image from the token and the request country, keeps e-mail and role, and fails when a required name is missing |
| AuthController.HandleLogin | src/api/resources/controllers/auth.ctrl.ts:81-112 | a stored user is kept when names and image match the token and overwritten otherwise; a new e-mail creates a user with role "user"; users stay unique by e-mail |
| AuthController.LoginIdempotent | src/api/resources/controllers/auth.ctrl.ts:86-101 | logging in again with the same token changes nothing, whatever country the request gives |
| AuthController.LoginReusesStoredUser | src/api/resources/controllers/auth.ctrl.ts:86-101 | a login with the e-mail of a stored user returns that user, never a duplicate |
| ActivityService.FindActivity | src/api/resources/services/activity.svc.ts:305-306 | some non-deleted activity matching the query, or none exactly when no non-deleted activity matches |
| ActivityService.CreateMultipleActivities | src/api/resources/services/activity.svc.ts:293-296 | the batch fails whole exactly when a draft has no title or summary; otherwise each draft becomes a new activity under consecutive fresh ids and every stored activity is unchanged |
| ActivityService.ApplyActivityPatch | src/api/resources/services/activity.svc.ts:298-313 | a patch overwrites exactly the fields it supplies |
| ActivityService.EmptyActivityPatch | src/api/resources/services/activity.svc.ts:298-313 | an empty patch leaves the activity as it was |
| ActivityService.UpdateActivity | src/api/resources/services/activity.svc.ts:298-313 | 404 when no non-deleted activity matches; otherwise only the activity the lookup returns is patched |
| ActivityService.DeleteActivities | src/api/resources/services/activity.svc.ts:315-318 | the listed activities are flagged deleted and nothing else changes |
| ActivityService.CountActivities | src/api/resources/services/activity.svc.ts:320-323 | the count is the number of non-deleted activities matching the query, and is zero exactly when none matches |
| ActivityService.DeletedActivityNotUpdated | src/api/resources/services/activity.svc.ts:305-306 | updating a deleted activity is 404 |
| ActivityReply.AfterTag | src/api/resources/services/activity.svc.ts:356-360 | the text after the first occurrence of a tag, or nothing when the segment or the tag is missing |
| ActivityReply.ParseReply | src/api/resources/services/activity.svc.ts:356-364 | the summary is sanitised, the names are trimmed, and a reply without `|` gives an empty summary and no names |
| ActivityReply.ParseFormatted | src/api/resources/services/activity.svc.ts:356-364 | a reply in the requested form `\|Summary: s\|Categories: a, b\|` reads back as exactly its summary and names |
| Prompts.Bullets | src/utils/promptsGenerators.ts:13-15 | each category is rendered as "- " followed by its name, in input order |
| Prompts.ActivitiesPrompt | src/utils/promptsGenerators.ts:1-19 | the prompt starts with the title and content header, then the lead with the instruction, then the bulleted options, then "Other (Please specify)" right after them, a line of four spaces and the required output-format line, and nothing else |
| Prompts.OptionListReadsBack | src/utils/promptsGenerators.ts:13-15 | splitting the option list at "," gives back the bullets, one per category |
| ActivityGenerator.FindKnown | src/api/resources/services/activity.svc.ts:367-369 | the lookup is an exact, case-sensitive name match in the accumulator, and finds nothing exactly when no entry has the name |
| ActivityGenerator.FindKnownAppend | src/api/resources/services/activity.svc.ts:378 | appending an entry does not change the answer for a name found before, and answers a new name with the new entry |
| ActivityGenerator.EmojiFor | src/api/resources/services/activity.svc.ts:373-376 | a default category gets its emoji, any other name the empty emoji |
| ActivityGenerator.ResolveName | src/api/resources/services/activity.svc.ts:367-379 | a known name resolves to its id; an unknown one creates one category and appends it to the accumulator |
| ActivityGenerator.ResolveNames | src/api/resources/services/activity.svc.ts:363-382 | the ids follow the names in order, duplicates kept, each naming a category of that name; a category is created only for a listed name the accumulator did not know, and afterwards exactly the same names resolve |
| ActivityGenerator.CreatedStaysResolvable | src/api/resources/services/activity.svc.ts:371-379 | creating and recording a category does not change which names can be resolved |
| ActivityGenerator.Answer | src/api/resources/services/activity.svc.ts:355 | an empty or absent reply yields no answer, any other reply yields one, however malformed |
| ActivityGenerator.DraftOne | src/api/resources/services/activity.svc.ts:354-393 | one post's activity draft copies title, post id, date and country from the post and carries the resolved categories |
| ActivityGenerator.Draft | src/api/resources/services/activity.svc.ts:354-393 | drafts for the whole batch, one per answered post, in post order, sharing one accumulator |
| ActivityGenerator.Seed | src/api/resources/services/activity.svc.ts:348-351 | the accumulator starts with at most 100 non-deleted stored categories, those of the first page |
| ActivityGenerator.GenerateActivities | src/api/resources/services/activity.svc.ts:325-401 | a category that cannot be created stops the run before any post is marked; otherwise every listed, non-deleted post is marked processed even when the insert then fails; the run succeeds exactly when every answered post has a title and a summary, and the k-th new activity comes from the k-th answered post |
| ActivityGenerator.MarkedPosts | src/api/resources/services/activity.svc.ts:395-398 | the listed non-deleted posts are marked processed, and no other post changes |
| ActivityGenerator.KeptSavable | src/api/resources/services/activity.svc.ts:384-399 | when every answered post has a title and a summary, every activity draft can be stored |
| ActivityGenerator.InsertedFrom | src/api/resources/services/activity.svc.ts:384-399 | the stored activities are the answered posts' drafts, in order, under fresh ids |
| ActivityGenerator.MalformedReplySinksRun | src/api/resources/services/activity.svc.ts:356-399 | a non-empty reply without a summary gives an activity without one, and the batch insert then fails whole |
| Scraper.UrlPrefix | src/api/resources/services/scraper.svc.ts:786-827 | only Kenyans.co.ke and the Liberian Observer prefix their article links |
| Scraper.AdapterRegistered | src/api/resources/services/scraper.svc.ts:287-983 | every adapter names a registry entry of its own country |
| Scraper.EncodedTermHasNoSpace | src/api/resources/services/scraper.svc.ts:979-983 | the search term in a query has no space left: each became "+" ("%20" for the Sierra Leone Telegraph), and a term without spaces is unchanged |
| Scraper.PageOnlyWhenGiven | src/api/resources/services/scraper.svc.ts:291-294 | a page segment appears only when a page is given and the adapter pages |
| Scraper.TemplateWithPage | src/api/resources/services/scraper.svc.ts:291-294 | with a page, the query is the page segment followed by the query without one |
| Scraper.TrailingBrace | src/api/resources/services/scraper.svc.ts:817-820 | the Liberian Observer and Executive Mansion queries end in a literal "}" |
| Scraper.KeywordsLowerCase | src/api/resources/services/scraper.svc.ts:357-359 | every keyword of a title test is in lower case, so the test is case-insensitive |
| Scraper.MentionPasses | src/api/resources/services/scraper.svc.ts:357-359 | a title mentioning any of an adapter's keywords, as the code lists them, passes its test |
| Scraper.MisspeltKeywordMissesGeorge | src/api/resources/services/scraper.svc.ts:823-826 | with the misspelt keyword "goeroge", a Liberian Observer title "George" fails the test, and passes it with the keyword "george" |
| Scraper.CorrectedKeywordsPass | src/api/resources/services/scraper.svc.ts:823-826 | with the corrected keywords, a Liberian Observer title mentioning any of them, "george" included, passes the test |
| Scraper.WithoutParens | src/api/resources/services/scraper.svc.ts:42-44 | the result has no parenthesis left |
| Scraper.DurationOf | src/api/resources/services/scraper.svc.ts:40-44 | the duration is a single word without parentheses, empty when there is no comma |
| Scraper.ParseLeaderLine | src/api/resources/services/scraper.svc.ts:35-44 | the name is sanitised, the duration one word without parentheses; a line without the separator gives empty name and duration |
| Scraper.ParseLeaderRoundTrip | src/api/resources/services/scraper.svc.ts:35-44 | a line "head – name, text (years)" reads back as exactly that name and those years |
| Scraper.UnwrapParens | src/api/resources/services/scraper.svc.ts:42-44 | removing the parentheses of "(years)" gives back the years |
| Ingestion.LagosDayStart | src/api/resources/services/scraper.svc.ts:154-156 | the start of the current Lagos day: midnight in UTC+1, no later than now and less than a day before it |
| Ingestion.LagosDayEnd | src/api/resources/services/scraper.svc.ts:157-159 | the last millisecond of the current Lagos day |
| Ingestion.InWindow | src/api/resources/services/scraper.svc.ts:166 | an article is inside exactly when its instant and both bounds parsed and it lies strictly between them |
| Ingestion.DefaultWindowIsToday | src/api/resources/services/scraper.svc.ts:154-159 | without bounds, an article is kept exactly when it lies inside today's Lagos day, except its first and last millisecond |
| Ingestion.TruthyHrefs | src/api/resources/services/scraper.svc.ts:113-119 | only truthy link attributes are kept, in listing order |
| Ingestion.TruthyHrefsAppend | src/api/resources/services/scraper.svc.ts:113-119 | link extraction distributes over concatenation of listings |
| Ingestion.AllTruthyKept | src/api/resources/services/scraper.svc.ts:113-119 | when every link is present, all are kept unchanged |
| Ingestion.ListingUrls | src/api/resources/services/scraper.svc.ts:113-119 | the server-rendered path keeps only truthy links; the browser path keeps them all |
| Ingestion.Fulfilled | src/api/resources/services/scraper.svc.ts:139-143 | the corrected pairing: each fetched page with the URL it was fetched from |
| Ingestion.SameArticles | src/api/resources/services/scraper.svc.ts:139-143 | both pairings hand on the same articles in the same order |
| Ingestion.NoFailureNoShift | src/api/resources/services/scraper.svc.ts:139-171 | when no fetch fails, the pairing as written and the corrected one agree |
| Ingestion.AllFetched | src/api/resources/services/scraper.svc.ts:139-143 | when no fetch fails, every URL is paired with its own page |
| Ingestion.FulfilledAsWritten | src/api/resources/services/scraper.svc.ts:139-171 | the pairing as written keeps one entry per fetched page |
| Ingestion.FailedFetchShiftsUrls | src/api/resources/services/scraper.svc.ts:139-171 | with the first fetch failed, the code pairs the second page with the first URL |
| Ingestion.DraftOf | src/api/resources/services/scraper.svc.ts:168-172 | a draft carries the article, the run's source id, and the link with the adapter's prefix when there is one |
| Ingestion.KnownTitlesAre | src/api/resources/services/scraper.svc.ts:160-163 | a title counts as known for the run exactly when `getPost({title, src})` finds a non-deleted post of the source with it |
| Ingestion.AcceptAdmitted | src/api/resources/services/scraper.svc.ts:151-174 | every accepted draft was unknown for the source, inside the window and passed the adapter's test, and carries the source id and a link |
| Ingestion.AcceptAppend | src/api/resources/services/scraper.svc.ts:151-174 | acceptance distributes over concatenation of pages, keeping the page order |
| Ingestion.AcceptKeepsEvery | src/api/resources/services/scraper.svc.ts:151-174 | every article that is unknown, inside the window and passes the test is accepted |
| Ingestion.SameTitleKeptTwice | src/api/resources/services/scraper.svc.ts:161-176 | duplicate titles within one run are both kept, since only the stored posts are consulted |
| Ingestion.ResolveSource | src/api/resources/services/scraper.svc.ts:82-93 | the adapter's source is looked up by name and country and created only when absent, before any page is handled |
| Ingestion.Registered | src/api/resources/utils/misc.ts:40-84 | the source information of an adapter is its registry entry's url and name with its country's code |
| Ingestion.Ingest | src/api/resources/services/scraper.svc.ts:57-182 | a successful run pairs pages with URLs as the code does, applies each adapter's keywords as written, and stores exactly the accepted drafts as new pending posts of the run's source under fresh ids, changing no earlier post |
| Ingestion.FinishFailsOnUntitled | src/api/resources/services/scraper.svc.ts:176 | a run fails exactly when an accepted article has no title, and then the store keeps only the registered source |
| Ingestion.InsertedKept | src/api/resources/services/scraper.svc.ts:166-176 | each stored post is pending, unprocessed, of the run's source and carries its draft's title, link and instant |
| Port.ParseInt | src/index.ts:17 | `parseInt` gives NaN exactly when no digit follows the white space and the optional sign |
| Port.NormalizePort | src/index.ts:16-19 | a non-negative number is kept, NaN becomes 9999, a negative number 0 |
| Port.PortSetting | src/index.ts:46 | an unset or empty variable gives 5001; otherwise the normalised parse of its value |
| Port.DefaultPortValue | src/index.ts:46 | the default text "5001" reads as 5001 |
| Port.ParseNumeral | src/index.ts:17 | `parseInt` reads back a decimal numeral, ignoring leading white space and any non-digit text after it |
| Port.ParseNegative | src/index.ts:17 | the same with a minus sign gives the negated number |
| Port.NumeralIsPort | src/index.ts:16-19 | a port written in decimal is the port used |
| Port.NegativeIsZero | src/index.ts:16-19 | a negative port gives port 0 |
| Port.NoDigitsIs9999 | src/index.ts:16-19 | a value with no digits after the white space and the sign gives port 9999 |

## Left out

- `src/api/resources/services/user.svc.ts` and `src/api/resources/utils/validation.ts` are not part of this model. The login reads users through `UserService.FindUser`. `isEmpty` is modelled as "blank after trimming".
- Fetching, rendered pages and HTML selection (axios, puppeteer, cheerio) are left out: the listing's link attributes and each page's settled fetch are inputs.
- Date parsing with moment format strings is left out: an instant is an integer and a failed parse is `None`.
- Each page of the loop reads the clock anew; the model uses one `now` for the whole run.
- `Promise.allSettled` is modelled as a sequence of settled results in URL order. Concurrency, and the check-then-insert races it allows, are left out.
- The TLS agent with `rejectUnauthorized: false` and the unprefixed first fetch are transport details, and are left out.
- The OpenAI call is left out: its reply text is an input.
- Regular-expression matching is a parameter of the store. Only the search pattern the services build is given a meaning, in `Search`.
- The `$lookup` aggregations of `getActivities`/`getActivity` and the statistics controller are left out.
- Undefined keys that the driver strips from a query are not modelled: an absent option adds no condition, which is the effect of that stripping.
- Mongoose strict mode is not modelled. It drops the update path `isDeleted: true` that `deleteSources` and `deletePresidents` send (source.svc.ts:87, president.svc.ts:100), because the Source and President schemas have no such field; in the program those calls store nothing, while the model sets the flag. Where strict queries are on, it also strips the filter key `source` of `replaceSource` (source.svc.ts:97), which the Post schema lacks, so the update would reach every post; the model matches the key against the posts' legacy field.
- SourceService.ReplaceSource: takes the new source's id as an `Id`; a `newSourceId` string from the request that `new ObjectId` cannot read (source.svc.ts:97, answered with 500 by the controller) is not modelled, whereas `getPosts` models the same error for its `src` option (`PostService.SrcArg`).
- `createMultipleSources`, `createPresident`, `createMultiplePresidents`, `updatePresidents` and the remaining controllers, routes, validators, jobs, JWT checks, the Telegram webhook and `decryptData` are outside the modelled core.
- Port.ParseInt: numbers beyond 2^53 lose precision in JavaScript; the model keeps the exact integer.
- JsString.ToLower: case mapping is ASCII-only: letters outside A-Z and a-z are left as they are. JavaScript's `toLowerCase`/`toLocaleLowerCase`/`toUpperCase` map the full Unicode range (U+212A KELVIN SIGN lowers to "k", U+0130 to "i" with a combining dot), and the `i` flag of the search pattern folds Unicode case too. This affects `toTitleCase`, the adapters' keyword tests and the search.
- Ordering.SortBy: the database sort is modelled as an insertion sort by the sort key, which keeps records with equal keys in input order, that is, ascending id. The database promises no order among equal keys, so the listings' exact order of ties (including the whole default post listing, whose sort field no post has) is the model's choice, not a promise of the store.

## Findings

| source | as written | input that shows it | evidently intended | confidence | as-written member | corrected member |
|---|---|---|---|---|---|---|
| src/api/resources/services/post.svc.ts:36 | the search pattern is `.*${search}*.`, where `*` repeats only the last character of the term and a final `.` must match some character | search "bola": the title "bolt" matches although it does not contain "bola" | `.*${search}.*`, a case-insensitive substring test | not executed | Search.AsWrittenOverMatches | Search.IntendedIsSubstring |
| src/api/resources/services/post.svc.ts:15 | the default sort field is `publisedAt`, which no post has, so the order of a default listing is unspecified, not newest first | posts published at times 1 and 2: the older-first order satisfies the sort as written but not the intended one | newest `publishedAt` first | not executed | PostService.SortAsWrittenImposesNoOrder | PostService.DefaultSortNewestFirst |
| src/api/resources/services/scraper.svc.ts:139-143, 171 | after filtering to fulfilled responses, index `i` of the filtered list picks `urls[i]` of the full list | URLs ["a", "b"], the fetch of "a" fails: the page fetched from "b" is stored with URL "a" | each page stored with the URL it came from | not executed | Ingestion.FailedFetchShiftsUrls | Ingestion.NoFailureNoShift |
| src/api/resources/services/scraper.svc.ts:823-826 | the Liberian Observer keyword list spells "goeroge" | the title "George" fails the test | the keyword "george" | not executed | Scraper.MisspeltKeywordMissesGeorge | Scraper.CorrectedKeywordsPass |

=== FILE: activity_generator.dfy ===
/**
 * `generateActivities` without the language-model call: each post's reply (an input
 * here) is parsed, its category names are resolved against an accumulator seeded with
 * stored categories, unknown names are created once each, every input post is marked
 * processed, and the drafts are inserted all or nothing.
 */
module ActivityGenerator {
  import opened Wrappers
  import opened Store
  import opened Models
  import opened Constants
  import opened Ordering
  import opened CategoryService
  import opened PostService
  import opened ActivityService
  import opened ActivityReply
  import opened JsString

  // ---------------------------------------------------------------------------
  // The category accumulator
  // ---------------------------------------------------------------------------

  /** A category the generator knows about: its id and name. */
  datatype Known = Known(id: Id, name: string)

  /** `categories.find(c => c.name === name)`: an exact, case-sensitive match. */
  function FindKnown(known: seq<Known>, name: string): (r: Option<Id>)
    ensures r.Some? ==> Known(r.value, name) in known
    ensures r.None? <==> forall k :: 0 <= k < |known| ==> known[k].name != name
  {
    if known == [] then None
    else if known[0].name == name then Some(known[0].id)
    else FindKnown(known[1..], name)
  }

  /** Looking a name up after appending an entry: earlier entries still win. */
  lemma {:induction false} FindKnownAppend(known: seq<Known>, e: Known, name: string)
    ensures FindKnown(known + [e], name)
            == if FindKnown(known, name).Some? then FindKnown(known, name) else if e.name == name then Some(e.id) else None
  {
    if known != [] {
      assert (known + [e])[1..] == known[1..] + [e];
      FindKnownAppend(known[1..], e, name);
    }
  }

  /** Every accumulated entry is a stored, non-deleted category of that name. */
  predicate KnownOk(db: Db, known: seq<Known>) {
    forall k :: 0 <= k < |known| ==>
      known[k].id in db.categories && db.categories[known[k].id].name == known[k].name
      && !db.categories[known[k].id].isDeleted
  }

  /** `db2` only adds categories to `db`. */
  predicate Grows(db: Db, db2: Db) {
    && db2 == db.(categories := db2.categories, next := db2.next)
    && db.next <= db2.next
    && forall id :: id in db.categories ==> id in db2.categories && db2.categories[id] == db.categories[id]
  }

  lemma GrowsTrans(a: Db, b: Db, c: Db)
    requires Grows(a, b) && Grows(b, c)
    ensures Grows(a, c)
  {
  }

  lemma KnownOkGrows(db: Db, db2: Db, known: seq<Known>)
    requires KnownOk(db, known) && Grows(db, db2)
    ensures KnownOk(db2, known)
  {
  }

  /** A name resolves when the accumulator has it, or when creating it can succeed: it
      is not empty and no stored category, deleted or not, has it. */
  predicate Resolvable(db: Db, known: seq<Known>, name: string) {
    FindKnown(known, name).Some? || (name != "" && forall id :: id in db.categories ==> db.categories[id].name != name)
  }

  /** `categoryEmojis[name] || ''`. */
  function EmojiFor(name: string): (e: string)
    ensures name in CategoryEmojis() ==> e == CategoryEmojis()[name] && e != ""
    ensures name !in CategoryEmojis() ==> e == ""
  {
    if name in CategoryEmojis() then CategoryEmojis()[name] else ""
  }

  /** The state after resolving names: the store, the accumulator, and the ids or the
      error that stopped the batch (categories created before it stay created). */
  datatype Resolution = Resolution(db: Db, known: seq<Known>, ids: Result<seq<Id>>)

  /** `known2` is `known` with entries appended. */
  predicate Extends(known: seq<Known>, known2: seq<Known>) {
    |known| <= |known2| && known2[..|known|] == known
  }

  /** What resolving `names` against `db` and `known` achieves:
      - the store stays valid, the accumulator stays truthful, categories are only added;
      - it succeeds exactly when every name resolves;
      - on success the ids follow the names, each naming a category of that name, and
        exactly the same names resolve afterwards;
      - a category is created only for a listed name the accumulator did not know. */
  ghost predicate Resolves(db: Db, known: seq<Known>, names: seq<string>, r: Resolution) {
    && Valid(r.db) && KnownOk(r.db, r.known) && Grows(db, r.db) && Extends(known, r.known)
    && (r.ids.Ok? <==> forall j :: 0 <= j < |names| ==> Resolvable(db, known, names[j]))
    && (r.ids.Ok? ==> |r.ids.value| == |names|
                      && forall j :: 0 <= j < |names| ==>
                           r.ids.value[j] in r.db.categories && r.db.categories[r.ids.value[j]].name == names[j])
    && (r.ids.Ok? ==> forall m :: Resolvable(r.db, r.known, m) <==> Resolvable(db, known, m))
    && (forall id :: id in r.db.categories && id !in db.categories ==>
          r.db.categories[id].name in names && FindKnown(known, r.db.categories[id].name).None?)
  }

  /** One name: found in the accumulator, or created and appended to it. */
  function ResolveName(db: Db, known: seq<Known>, name: string): (r: Resolution)
    requires Valid(db) && KnownOk(db, known)
    ensures Resolves(db, known, [name], r)
  {
    assert [name][0] == name;
    match FindKnown(known, name)
    case Some(id) =>
      assert known[IndexOfKnown(known, Known(id, name))] == Known(id, name);
      Resolution(db, known, Ok([id]))
    case None =>
      match CreateCategory(db, Some(name), Some(EmojiFor(name)))
      case Err(e) =>
        assert !Resolvable(db, known, name);
        assert known[..|known|] == known;
        Resolution(db, known, Err(e))
      case Ok((db2, id)) =>
        var known2 := known + [Known(id, name)];
        CreatedStaysResolvable(db, db2, known, id, name);
        CreatedKnownOk(db, db2, known, id, name);
        assert known2[..|known|] == known;
        Resolution(db2, known2, Ok([id]))
  }

  /** Where an entry sits in the accumulator. */
  function IndexOfKnown(known: seq<Known>, e: Known): (k: nat)
    requires e in known
    ensures k < |known| && known[k] == e
  {
    if known[0] == e then 0 else 1 + IndexOfKnown(known[1..], e)
  }

  /** After creating `name` and appending it, exactly the same names resolve. */
  lemma CreatedStaysResolvable(db: Db, db2: Db, known: seq<Known>, id: Id, name: string)
    requires FindKnown(known, name).None? && id !in db.categories
    requires name != "" && forall k :: k in db.categories ==> db.categories[k].name != name
    requires db2.categories == db.categories[id := Category(name, Some(EmojiFor(name)), false)]
    ensures forall m :: Resolvable(db2, known + [Known(id, name)], m) <==> Resolvable(db, known, m)
  {
    forall m
      ensures Resolvable(db2, known + [Known(id, name)], m) <==> Resolvable(db, known, m)
    {
      FindKnownAppend(known, Known(id, name), m);
      if m != name {
        assert (forall k :: k in db2.categories ==> db2.categories[k].name != m)
               <==> (forall k :: k in db.categories ==> db.categories[k].name != m) by {
          assert db2.categories[id].name == name;
          assert forall k :: k in db.categories ==> db2.categories[k] == db.categories[k];
        }
      }
    }
  }

  lemma CreatedKnownOk(db: Db, db2: Db, known: seq<Known>, id: Id, name: string)
    requires KnownOk(db, known) && id !in db.categories
    requires db2.categories == db.categories[id := Category(name, Some(EmojiFor(name)), false)]
    ensures KnownOk(db2, known + [Known(id, name)])
  {
  }

  /** The names of one reply, in order: ids follow the names, repetitions kept. */
  function ResolveNames(db: Db, known: seq<Known>, names: seq<string>): (r: Resolution)
    requires Valid(db) && KnownOk(db, known)
    ensures Resolves(db, known, names, r)
    decreases |names|
  {
    if names == [] then
      assert known[..|known|] == known;
      Resolution(db, known, Ok([]))
    else
      var first := ResolveName(db, known, names[0]);
      if first.ids.Err? then
        ResolveStopped(db, known, names, first);
        Resolution(first.db, first.known, first.ids)
      else
        var rest := ResolveNames(first.db, first.known, names[1..]);
        var r := Resolution(rest.db, rest.known, if rest.ids.Ok? then Ok(first.ids.value + rest.ids.value) else rest.ids);
        ResolveChained(db, known, names, first, rest, r);
        r
  }

  /** A first name that does not resolve stops the batch. */
  lemma ResolveStopped(db: Db, known: seq<Known>, names: seq<string>, first: Resolution)
    requires names != [] && Resolves(db, known, [names[0]], first) && first.ids.Err?
    ensures Resolves(db, known, names, Resolution(first.db, first.known, first.ids))
  {
    assert names[0] == [names[0]][0];
    forall id | id in first.db.categories && id !in db.categories
      ensures first.db.categories[id].name in names
    {
      assert first.db.categories[id].name in [names[0]];
    }
  }

  /** Resolving the first name and then the rest resolves all of them. */
  lemma ResolveChained(db: Db, known: seq<Known>, names: seq<string>, first: Resolution, rest: Resolution, r: Resolution)
    requires names != [] && Resolves(db, known, [names[0]], first) && first.ids.Ok?
    requires Resolves(first.db, first.known, names[1..], rest)
    requires r == Resolution(rest.db, rest.known, if rest.ids.Ok? then Ok(first.ids.value + rest.ids.value) else rest.ids)
    ensures Resolves(db, known, names, r)
  {
    GrowsTrans(db, first.db, rest.db);
    assert rest.known[..|known|] == known by {
      assert rest.known[..|first.known|] == first.known;
    }
    ChainedOk(db, known, names, first);
    if r.ids.Ok? {
      ChainedIds(names, first, rest, r);
    }
    ChainedCreations(db, known, names, first, rest);
  }

  lemma ChainedOk(db: Db, known: seq<Known>, names: seq<string>, first: Resolution)
    requires names != [] && first.ids.Ok?
    requires forall j :: 0 <= j < |[names[0]]| ==> Resolvable(db, known, [names[0]][j])
    requires forall m :: Resolvable(first.db, first.known, m) <==> Resolvable(db, known, m)
    ensures (forall j :: 0 <= j < |names| ==> Resolvable(db, known, names[j]))
            <==> (forall j :: 0 <= j < |names[1..]| ==> Resolvable(first.db, first.known, names[1..][j]))
  {
    assert Resolvable(db, known, names[0]) by { assert [names[0]][0] == names[0]; }
    if forall j :: 0 <= j < |names[1..]| ==> Resolvable(first.db, first.known, names[1..][j]) {
      forall j | 0 <= j < |names|
        ensures Resolvable(db, known, names[j])
      {
        if j > 0 {
          assert names[1..][j - 1] == names[j];
        }
      }
    }
  }

  lemma ChainedIds(names: seq<string>, first: Resolution, rest: Resolution, r: Resolution)
    requires names != [] && first.ids.Ok? && rest.ids.Ok? && r.ids == Ok(first.ids.value + rest.ids.value) && r.db == rest.db
    requires |first.ids.value| == 1 && first.ids.value[0] in first.db.categories
             && first.db.categories[first.ids.value[0]].name == names[0]
    requires Grows(first.db, rest.db)
    requires |rest.ids.value| == |names| - 1
    requires forall j :: 0 <= j < |names| - 1 ==>
               rest.ids.value[j] in rest.db.categories && rest.db.categories[rest.ids.value[j]].name == names[1..][j]
    ensures |r.ids.value| == |names|
    ensures forall j :: 0 <= j < |names| ==> r.ids.value[j] in r.db.categories && r.db.categories[r.ids.value[j]].name == names[j]
  {
    forall j | 0 <= j < |names|
      ensures r.ids.value[j] in r.db.categories && r.db.categories[r.ids.value[j]].name == names[j]
    {
      if j > 0 {
        assert r.ids.value[j] == rest.ids.value[j - 1];
        assert names[1..][j - 1] == names[j];
      }
    }
  }

  lemma ChainedCreations(db: Db, known: seq<Known>, names: seq<string>, first: Resolution, rest: Resolution)
    requires names != [] && Resolves(db, known, [names[0]], first) && first.ids.Ok?
    requires Resolves(first.db, first.known, names[1..], rest)
    ensures forall id :: id in rest.db.categories && id !in db.categories ==>
              rest.db.categories[id].name in names && FindKnown(known, rest.db.categories[id].name).None?
  {
    forall id | id in rest.db.categories && id !in db.categories
      ensures rest.db.categories[id].name in names && FindKnown(known, rest.db.categories[id].name).None?
    {
      var m := rest.db.categories[id].name;
      if id in first.db.categories {
        assert first.db.categories[id] == rest.db.categories[id];
        assert m in [names[0]];
      } else {
        assert m in names[1..];
        ExtendsKeepsUnknown(known, first.known, m);
      }
    }
  }

  /** A name unknown to an extended accumulator was unknown before. */
  lemma ExtendsKeepsUnknown(known: seq<Known>, known2: seq<Known>, m: string)
    requires Extends(known, known2) && FindKnown(known2, m).None?
    ensures FindKnown(known, m).None?
  {
    forall k | 0 <= k < |known|
      ensures known[k].name != m
    {
      assert known[k] == known2[k];
    }
  }

  // ---------------------------------------------------------------------------
  // Drafting one activity per answered post
  // ---------------------------------------------------------------------------

  /** `ids` names, in order, categories of the given names. */
  predicate NamedAs(db: Db, ids: seq<Id>, names: seq<string>) {
    |ids| == |names| && forall j :: 0 <= j < |names| ==> ids[j] in db.categories && db.categories[ids[j]].name == names[j]
  }

  /** Every name resolves. */
  predicate AllResolvable(db: Db, known: seq<Known>, names: seq<string>) {
    forall j :: 0 <= j < |names| ==> Resolvable(db, known, names[j])
  }

  /** A post's parsed reply, or nothing when the model answered nothing or an empty
      string; the loop skips such posts. */
  function Answer(reply: Option<string>): (a: Option<Reply>)
    ensures a.Some? <==> reply.Some? && reply.value != ""
  {
    if Truthy(reply) then Some(ParseReply(reply.value)) else None
  }

  /** What the loop makes of post `id` (stored as `p`) and its parsed reply: nothing
      without one; otherwise a draft with the post's title, date and country, the
      parsed summary, and the ids of the parsed category names. */
  predicate DraftFits(db: Db, id: Id, p: Post, answer: Option<Reply>, d: Option<ActivityDraft>) {
    && (d.Some? <==> answer.Some?)
    && (d.Some? ==> && d.value.title == p.title && d.value.summary == answer.value.summary
                    && d.value.post == Some(id) && d.value.date == p.publishedAt && d.value.country == p.country
                    && NamedAs(db, d.value.categories, answer.value.names))
  }

  /** The state after the drafting loop: the store, the accumulator, and one optional
      draft per post or the error that stopped the loop. */
  datatype Batch = Batch(db: Db, known: seq<Known>, drafts: Result<seq<Option<ActivityDraft>>>)

  /** What drafting `posts` with their parsed replies achieves:
      - the store stays valid, the accumulator truthful, categories are only added;
      - it succeeds exactly when every category name of every answered post resolves;
      - on success there is one fitting draft per post and the same names resolve. */
  ghost predicate Drafts(db: Db, known: seq<Known>, posts: seq<Id>, answers: seq<Option<Reply>>, b: Batch)
    requires |posts| == |answers| && forall i :: 0 <= i < |posts| ==> posts[i] in db.posts
  {
    && Valid(b.db) && KnownOk(b.db, b.known) && Grows(db, b.db) && Extends(known, b.known)
    && (b.drafts.Ok? <==> forall i :: 0 <= i < |posts| && answers[i].Some? ==> AllResolvable(db, known, answers[i].value.names))
    && (b.drafts.Ok? ==> |b.drafts.value| == |posts|
                         && forall i :: 0 <= i < |posts| ==>
                              DraftFits(b.db, posts[i], db.posts[posts[i]], answers[i], b.drafts.value[i]))
    && (b.drafts.Ok? ==> forall m :: Resolvable(b.db, b.known, m) <==> Resolvable(db, known, m))
  }

  /** One post of the loop. */
  function DraftOne(db: Db, known: seq<Known>, id: Id, answer: Option<Reply>): (b: Batch)
    requires Valid(db) && KnownOk(db, known) && id in db.posts
    ensures Drafts(db, known, [id], [answer], b)
  {
    if answer.None? then
      assert known[..|known|] == known;
      Batch(db, known, Ok([None]))
    else
      var res := ResolveNames(db, known, answer.value.names);
      var b := DraftFrom(db.posts[id], id, answer.value, res);
      DraftOneResolved(db, known, id, answer, res);
      b
  }

  /** The batch of one answered post once its names are resolved. */
  function DraftFrom(p: Post, id: Id, parsed: Reply, res: Resolution): (b: Batch)
    ensures b.db == res.db && b.known == res.known && (b.drafts.Ok? <==> res.ids.Ok?)
    ensures b.drafts.Ok? ==> b.drafts.value == [Some(ActivityDraft(p.title, parsed.summary, Some(id), res.ids.value, p.publishedAt, p.country))]
  {
    match res.ids
    case Err(e) => Batch(res.db, res.known, Err(e))
    case Ok(cats) => Batch(res.db, res.known, Ok([Some(ActivityDraft(p.title, parsed.summary, Some(id), cats, p.publishedAt, p.country))]))
  }

  lemma DraftOneResolved(db: Db, known: seq<Known>, id: Id, answer: Option<Reply>, res: Resolution)
    requires id in db.posts && answer.Some?
    requires Resolves(db, known, answer.value.names, res)
    ensures Drafts(db, known, [id], [answer], DraftFrom(db.posts[id], id, answer.value, res))
  {
    var b := DraftFrom(db.posts[id], id, answer.value, res);
    assert [answer][0] == answer && [id][0] == id;
    if b.drafts.Ok? {
      assert NamedAs(b.db, res.ids.value, answer.value.names);
    }
  }

  /** The loop over all posts; a name that cannot be created stops it. */
  function Draft(db: Db, known: seq<Known>, posts: seq<Id>, answers: seq<Option<Reply>>): (b: Batch)
    requires Valid(db) && KnownOk(db, known) && |posts| == |answers|
    requires forall i :: 0 <= i < |posts| ==> posts[i] in db.posts
    ensures Drafts(db, known, posts, answers, b)
    decreases |posts|
  {
    if posts == [] then
      assert known[..|known|] == known;
      Batch(db, known, Ok([]))
    else
      var first := DraftOne(db, known, posts[0], answers[0]);
      if first.drafts.Err? then
        DraftStopped(db, known, posts, answers, first);
        first
      else
        var rest := Draft(first.db, first.known, posts[1..], answers[1..]);
        var b := Batch(rest.db, rest.known, if rest.drafts.Ok? then Ok(first.drafts.value + rest.drafts.value) else rest.drafts);
        DraftChained(db, known, posts, answers, first, rest, b);
        b
  }

  lemma DraftStopped(db: Db, known: seq<Known>, posts: seq<Id>, answers: seq<Option<Reply>>, first: Batch)
    requires posts != [] && |posts| == |answers| && forall i :: 0 <= i < |posts| ==> posts[i] in db.posts
    requires Drafts(db, known, [posts[0]], [answers[0]], first) && first.drafts.Err?
    ensures Drafts(db, known, posts, answers, first)
  {
    assert [answers[0]][0] == answers[0];
  }

  lemma DraftChained(db: Db, known: seq<Known>, posts: seq<Id>, answers: seq<Option<Reply>>,
                     first: Batch, rest: Batch, b: Batch)
    requires posts != [] && |posts| == |answers| && forall i :: 0 <= i < |posts| ==> posts[i] in db.posts
    requires Drafts(db, known, [posts[0]], [answers[0]], first) && first.drafts.Ok?
    requires first.db.posts == db.posts
    requires Drafts(first.db, first.known, posts[1..], answers[1..], rest)
    requires b == Batch(rest.db, rest.known, if rest.drafts.Ok? then Ok(first.drafts.value + rest.drafts.value) else rest.drafts)
    ensures Drafts(db, known, posts, answers, b)
  {
    GrowsTrans(db, first.db, rest.db);
    assert rest.known[..|known|] == known by {
      assert rest.known[..|first.known|] == first.known;
    }
    DraftChainedOk(db, known, posts, answers, first);
    if b.drafts.Ok? {
      DraftChainedFits(db, posts, answers, first, rest, b);
      SameResolvable(db, known, first.db, first.known, rest.db, rest.known);
    }
  }

  lemma SameResolvable(db: Db, known: seq<Known>, db1: Db, known1: seq<Known>, db2: Db, known2: seq<Known>)
    requires forall m :: Resolvable(db1, known1, m) <==> Resolvable(db, known, m)
    requires forall m :: Resolvable(db2, known2, m) <==> Resolvable(db1, known1, m)
    ensures forall m :: Resolvable(db2, known2, m) <==> Resolvable(db, known, m)
  {
  }

  lemma DraftChainedOk(db: Db, known: seq<Known>, posts: seq<Id>, answers: seq<Option<Reply>>, first: Batch)
    requires posts != [] && |posts| == |answers|
    requires [answers[0]][0].Some? ==> AllResolvable(db, known, [answers[0]][0].value.names)
    requires forall m :: Resolvable(first.db, first.known, m) <==> Resolvable(db, known, m)
    ensures (forall i :: 0 <= i < |posts| && answers[i].Some? ==> AllResolvable(db, known, answers[i].value.names))
            <==> (forall i :: 0 <= i < |posts[1..]| && answers[1..][i].Some? ==> AllResolvable(first.db, first.known, answers[1..][i].value.names))
  {
    assert [answers[0]][0] == answers[0];
    forall i | 1 <= i < |posts| && answers[i].Some?
      ensures AllResolvable(db, known, answers[i].value.names) <==> AllResolvable(first.db, first.known, answers[1..][i - 1].value.names)
    {
      assert answers[1..][i - 1] == answers[i];
    }
  }

  lemma DraftChainedFits(db: Db, posts: seq<Id>, answers: seq<Option<Reply>>, first: Batch, rest: Batch, b: Batch)
    requires posts != [] && |posts| == |answers| && forall i :: 0 <= i < |posts| ==> posts[i] in db.posts
    requires first.drafts.Ok? && rest.drafts.Ok? && b.drafts == Ok(first.drafts.value + rest.drafts.value) && b.db == rest.db
    requires |first.drafts.value| == 1 && DraftFits(first.db, posts[0], db.posts[posts[0]], answers[0], first.drafts.value[0])
    requires Grows(first.db, rest.db) && first.db.posts == db.posts
    requires |rest.drafts.value| == |posts| - 1
    requires forall i :: 0 <= i < |posts| - 1 ==>
               DraftFits(rest.db, posts[1..][i], first.db.posts[posts[1..][i]], answers[1..][i], rest.drafts.value[i])
    ensures |b.drafts.value| == |posts|
    ensures forall i :: 0 <= i < |posts| ==> DraftFits(b.db, posts[i], db.posts[posts[i]], answers[i], b.drafts.value[i])
  {
    forall i | 0 <= i < |posts|
      ensures DraftFits(b.db, posts[i], db.posts[posts[i]], answers[i], b.drafts.value[i])
    {
      if i == 0 {
        DraftFitsGrows(first.db, rest.db, posts[0], db.posts[posts[0]], answers[0], first.drafts.value[0]);
      } else {
        assert b.drafts.value[i] == rest.drafts.value[i - 1];
        assert posts[1..][i - 1] == posts[i] && answers[1..][i - 1] == answers[i];
      }
    }
  }

  /** A fitting draft still fits once more categories exist. */
  lemma DraftFitsGrows(db: Db, db2: Db, id: Id, p: Post, answer: Option<Reply>, d: Option<ActivityDraft>)
    requires DraftFits(db, id, p, answer, d) && Grows(db, db2)
    ensures DraftFits(db2, id, p, answer, d)
  {
  }

  // ---------------------------------------------------------------------------
  // The whole run
  // ---------------------------------------------------------------------------

  /** The positions of the present entries, in increasing order. */
  function Present<T>(xs: seq<Option<T>>): (r: seq<nat>)
    ensures forall k :: 0 <= k < |r| ==> r[k] < |xs| && xs[r[k]].Some?
    ensures forall k, l :: 0 <= k < l < |r| ==> r[k] < r[l]
    ensures forall i :: 0 <= i < |xs| && xs[i].Some? ==> i in r
    decreases |xs|
  {
    if xs == [] then []
    else
      var init := Present(xs[..|xs| - 1]);
      assert forall i :: 0 <= i < |xs| - 1 ==> xs[..|xs| - 1][i] == xs[i];
      if xs[|xs| - 1].Some? then init + [|xs| - 1] else init
  }

  /** The present entries in order: the drafts `insertMany` receives. */
  function Kept<T>(xs: seq<Option<T>>): seq<T>
    decreases |xs|
  {
    if xs == [] then []
    else if xs[|xs| - 1].Some? then Kept(xs[..|xs| - 1]) + [xs[|xs| - 1].value]
    else Kept(xs[..|xs| - 1])
  }

  /** The k-th kept entry is the entry at the k-th present position. */
  lemma {:induction false} KeptAt<T>(xs: seq<Option<T>>)
    ensures |Kept(xs)| == |Present(xs)|
    ensures forall k :: 0 <= k < |Kept(xs)| ==> Some(Kept(xs)[k]) == xs[Present(xs)[k]]
    decreases |xs|
  {
    if xs != [] {
      var init := xs[..|xs| - 1];
      KeptAt(init);
      assert forall i :: 0 <= i < |init| ==> init[i] == xs[i];
    }
  }

  /** Two sequences present at the same positions have the same present positions. */
  lemma {:induction false} PresentAlike<T, U>(xs: seq<Option<T>>, ys: seq<Option<U>>)
    requires |xs| == |ys| && forall i :: 0 <= i < |xs| ==> (xs[i].Some? <==> ys[i].Some?)
    ensures Present(xs) == Present(ys)
    decreases |xs|
  {
    if xs != [] {
      PresentAlike(xs[..|xs| - 1], ys[..|ys| - 1]);
    }
  }

  /** The parsed replies. */
  function Answers(replies: seq<Option<string>>): (r: seq<Option<Reply>>)
    ensures |r| == |replies| && forall i :: 0 <= i < |replies| ==> r[i] == Answer(replies[i])
  {
    seq(|replies|, i requires 0 <= i < |replies| => Answer(replies[i]))
  }

  /** How many categories the run starts from. */
  const SeedLimit := 100

  /** `getCategories({limit: 100})`: the first page of 100 non-deleted categories by name. */
  function SeedQuery(): CategoriesQuery {
    CategoriesQuery(SeedLimit, 1, map[], "", NameAscending)
  }

  /** The accumulator the run starts from: the seed page, each with its stored name. */
  function Seed(db: Db): (known: seq<Known>)
    ensures KnownOk(db, known) && |known| <= SeedLimit
    ensures GetCategories(db, SeedQuery(), NoRegex()).Ok?
    ensures |known| == |GetCategories(db, SeedQuery(), NoRegex()).value.ids|
  {
    var page := GetCategories(db, SeedQuery(), NoRegex()).value.ids;
    seq(|page|, k requires 0 <= k < |page| => Known(page[k], db.categories[page[k]].name))
  }

  /** Every category name of every answered post resolves against the seed. */
  predicate Resolved(db: Db, replies: seq<Option<string>>) {
    var answers := Answers(replies);
    forall i :: 0 <= i < |answers| && answers[i].Some? ==> AllResolvable(db, Seed(db), answers[i].value.names)
  }

  /** Every answered post gives a draft the schema accepts: a title and a summary. */
  predicate Savable(db: Db, posts: seq<Id>, replies: seq<Option<string>>)
    requires |posts| == |replies| && forall i :: 0 <= i < |posts| ==> posts[i] in db.posts
  {
    var answers := Answers(replies);
    forall i :: 0 <= i < |posts| && answers[i].Some? ==> db.posts[posts[i]].title != "" && answers[i].value.summary != ""
  }

  /** Activity `a` was made from post `id` (stored as `p`) and its parsed reply. */
  predicate ActivityFrom(db: Db, a: Activity, id: Id, p: Post, answer: Reply) {
    && a.title == p.title && a.summary == answer.summary && a.post == Some(id)
    && NamedAs(db, a.categories, answer.names) && a.date == p.publishedAt && a.country == p.country
    && !a.isPublished && !a.isDeleted
  }

  /** `{isProcessed: true}`. */
  function MarkProcessed(): PostPatch {
    PostPatch(None, None, None, None, None, Some(true), None)
  }

  /** The store after a run and the ids of the inserted activities, or the error that
      ended it. */
  datatype Generation = Generation(db: Db, activities: Result<seq<Id>>)

  /** What a run over `posts` with `replies[i]` the model's answer for `posts[i]` achieves:
      - only categories are added, posts are marked and activities inserted; nothing
        else changes and the store stays valid;
      - a category name that cannot be created ends the run before any post is marked;
      - otherwise every listed, non-deleted post is marked processed, even when the
        insert then fails;
      - the run succeeds exactly when every name resolves and every answered post has a
        title and a non-empty parsed summary;
      - on success the k-th new activity comes from the k-th answered post. */
  predicate Generates(db: Db, posts: seq<Id>, replies: seq<Option<string>>, r: Generation)
    requires |posts| == |replies| && forall i :: 0 <= i < |posts| ==> posts[i] in db.posts
  {
    && Valid(r.db)
    && r.db.sources == db.sources && r.db.votes == db.votes && r.db.users == db.users && r.db.presidents == db.presidents
    && (forall id :: id in db.categories ==> id in r.db.categories && r.db.categories[id] == db.categories[id])
    && r.db.posts.Keys == db.posts.Keys
    && (!Resolved(db, replies) ==> r.activities.Err? && r.db.posts == db.posts)
    && (Resolved(db, replies) ==> forall id :: id in db.posts ==>
          r.db.posts[id] == if id in posts && !db.posts[id].isDeleted then db.posts[id].(isProcessed := true) else db.posts[id])
    && (r.activities.Ok? <==> Resolved(db, replies) && Savable(db, posts, replies))
    && (r.activities.Err? ==> r.db.activities == db.activities)
    && (r.activities.Ok? ==> forall id :: id in db.activities ==> id in r.db.activities && r.db.activities[id] == db.activities[id])
    && (r.activities.Ok? ==>
          && |r.activities.value| == |Present(Answers(replies))|
          && forall k :: 0 <= k < |r.activities.value| ==>
               && r.activities.value[k] !in db.activities && r.activities.value[k] in r.db.activities
               && var i := Present(Answers(replies))[k];
                  ActivityFrom(r.db, r.db.activities[r.activities.value[k]], posts[i], db.posts[posts[i]], Answers(replies)[i].value))
  }

  /** `generateActivities(posts)` with `replies[i]` the model's answer for `posts[i]`:
      drafts every post against the first page of categories, marks the listed posts
      processed, then inserts the drafts of the answered posts in one batch. */
  function GenerateActivities(db: Db, posts: seq<Id>, replies: seq<Option<string>>): (r: Generation)
    requires Valid(db) && |posts| == |replies| && forall i :: 0 <= i < |posts| ==> posts[i] in db.posts
    ensures Generates(db, posts, replies, r)
  {
    var b := Draft(db, Seed(db), posts, Answers(replies));
    if b.drafts.Err? then
      DraftFailed(db, posts, replies, b);
      Generation(b.db, Err(b.drafts.error))
    else
      var db2 := UpdatePosts(b.db, IdIn(posts), MarkProcessed(), NoRegex());
      Marked(db, posts, replies, b, db2);
      var created := CreateMultipleActivities(db2, Kept(b.drafts.value));
      if created.Err? then
        InsertFailed(db, posts, replies, b.db, b.drafts.value, db2, created);
        Generation(db2, Err(created.error))
      else
        InsertDone(db, posts, replies, b.db, b.drafts.value, db2, created);
        Generation(created.value.0, Ok(created.value.1))
  }

  /** A name that cannot be created: the run ends with the posts untouched. */
  lemma DraftFailed(db: Db, posts: seq<Id>, replies: seq<Option<string>>, b: Batch)
    requires |posts| == |replies| && forall i :: 0 <= i < |posts| ==> posts[i] in db.posts
    requires Drafts(db, Seed(db), posts, Answers(replies), b) && b.drafts.Err?
    ensures Generates(db, posts, replies, Generation(b.db, Err(b.drafts.error)))
  {
    assert !Resolved(db, replies);
  }

  /** The run once every name has resolved and the listed posts are marked: `db1` is
      the store after drafting, `drafts` one fitting draft per post, `db2` the store
      with the posts marked. */
  predicate Prepared(db: Db, posts: seq<Id>, replies: seq<Option<string>>,
                     db1: Db, drafts: seq<Option<ActivityDraft>>, db2: Db)
    requires |posts| == |replies| && forall i :: 0 <= i < |posts| ==> posts[i] in db.posts
  {
    && Resolved(db, replies) && Valid(db2) && Grows(db, db2.(posts := db.posts))
    && db2.posts.Keys == db.posts.Keys && db2.categories == db1.categories
    && (forall id :: id in db.posts ==>
          db2.posts[id] == if id in posts && !db.posts[id].isDeleted then db.posts[id].(isProcessed := true) else db.posts[id])
    && |drafts| == |posts|
    && forall i :: 0 <= i < |posts| ==> DraftFits(db1, posts[i], db.posts[posts[i]], Answers(replies)[i], drafts[i])
  }

  /** Drafting succeeded and `updatePosts` marked the listed posts. */
  lemma Marked(db: Db, posts: seq<Id>, replies: seq<Option<string>>, b: Batch, db2: Db)
    requires |posts| == |replies| && forall i :: 0 <= i < |posts| ==> posts[i] in db.posts
    requires Drafts(db, Seed(db), posts, Answers(replies), b) && b.drafts.Ok?
    requires db2 == UpdatePosts(b.db, IdIn(posts), MarkProcessed(), NoRegex())
    ensures Prepared(db, posts, replies, b.db, b.drafts.value, db2)
  {
    ValidWithPosts(b.db, db2.posts);
    MarkedPosts(b.db, posts, db2);
  }

  /** A draft the schema rejects: the posts stay marked, no activity is stored. */
  lemma InsertFailed(db: Db, posts: seq<Id>, replies: seq<Option<string>>,
                     db1: Db, drafts: seq<Option<ActivityDraft>>, db2: Db, created: Result<(Db, seq<Id>)>)
    requires |posts| == |replies| && forall i :: 0 <= i < |posts| ==> posts[i] in db.posts
    requires Prepared(db, posts, replies, db1, drafts, db2)
    requires created == CreateMultipleActivities(db2, Kept(drafts)) && created.Err?
    ensures Generates(db, posts, replies, Generation(db2, Err(created.error)))
  {
    KeptSavable(db, posts, replies, Answers(replies), db1, drafts);
  }

  /** The batch insert succeeds: the run's activities follow the answered posts. */
  lemma InsertDone(db: Db, posts: seq<Id>, replies: seq<Option<string>>,
                   db1: Db, drafts: seq<Option<ActivityDraft>>, db2: Db, created: Result<(Db, seq<Id>)>)
    requires |posts| == |replies| && forall i :: 0 <= i < |posts| ==> posts[i] in db.posts
    requires Prepared(db, posts, replies, db1, drafts, db2)
    requires created == CreateMultipleActivities(db2, Kept(drafts)) && created.Ok?
    ensures Generates(db, posts, replies, Generation(created.value.0, Ok(created.value.1)))
  {
    KeptSavable(db, posts, replies, Answers(replies), db1, drafts);
    InsertedFrom(db, posts, replies, Answers(replies), db1, drafts, db2, created);
  }

  /** `updatePosts({_id: {$in: posts}}, {isProcessed: true})` marks exactly the listed,
      non-deleted posts. */
  lemma MarkedPosts(db: Db, posts: seq<Id>, db2: Db)
    requires db2 == UpdatePosts(db, IdIn(posts), MarkProcessed(), NoRegex())
    ensures forall id :: id in db.posts ==>
              db2.posts[id] == if id in posts && !db.posts[id].isDeleted then db.posts[id].(isProcessed := true) else db.posts[id]
  {
    forall id | id in db.posts
      ensures db2.posts[id] == if id in posts && !db.posts[id].isDeleted then db.posts[id].(isProcessed := true) else db.posts[id]
    {
      LiveListed(posts, id, db.posts[id], NoRegex());
    }
  }

  /** `{_id: {$in: ids}, isDeleted: false}` holds of exactly the listed, live posts. */
  lemma LiveListed(ids: seq<Id>, id: Id, p: Post, regex: Regex)
    ensures Matches(IdIn(ids) + NotDeleted(), id, p, PostView, regex) <==> id in ids && !p.isDeleted
  {
    PostViewFields(id, p);
    IdInMatches(ids, id, p, PostView, regex);
    var f := IdIn(ids) + NotDeleted();
    assert f.Keys == {"_id", "isDeleted"};
    assert f["_id"] == IdIn(ids)["_id"] && f["isDeleted"] == Eq(Bool(false));
    assert Matches(IdIn(ids), id, p, PostView, regex) <==> CondHolds("_id", IdIn(ids)["_id"], id, p, PostView, regex);
  }

  /** The kept drafts all pass the schema exactly when every answered post is savable. */
  lemma KeptSavable(db: Db, posts: seq<Id>, replies: seq<Option<string>>, answers: seq<Option<Reply>>,
                    db1: Db, drafts: seq<Option<ActivityDraft>>)
    requires |posts| == |replies| && forall i :: 0 <= i < |posts| ==> posts[i] in db.posts
    requires answers == Answers(replies) && |drafts| == |posts|
    requires forall i :: 0 <= i < |posts| ==> DraftFits(db1, posts[i], db.posts[posts[i]], answers[i], drafts[i])
    ensures (forall k :: 0 <= k < |Kept(drafts)| ==> Kept(drafts)[k].title != "" && Kept(drafts)[k].summary != "")
            <==> Savable(db, posts, replies)
  {
    KeptAt(drafts);
    var kept := Kept(drafts);
    var at := Present(drafts);
    if forall k :: 0 <= k < |kept| ==> kept[k].title != "" && kept[k].summary != "" {
      forall i | 0 <= i < |posts| && answers[i].Some?
        ensures db.posts[posts[i]].title != "" && answers[i].value.summary != ""
      {
        var k :| 0 <= k < |at| && at[k] == i;
        assert Some(kept[k]) == drafts[i];
      }
    } else {
      var k :| 0 <= k < |kept| && !(kept[k].title != "" && kept[k].summary != "");
      assert Some(kept[k]) == drafts[at[k]];
    }
  }

  /** The inserted activities follow the answered posts in order. */
  lemma InsertedFrom(db: Db, posts: seq<Id>, replies: seq<Option<string>>, answers: seq<Option<Reply>>,
                     db1: Db, drafts: seq<Option<ActivityDraft>>, db2: Db, created: Result<(Db, seq<Id>)>)
    requires |posts| == |replies| && forall i :: 0 <= i < |posts| ==> posts[i] in db.posts
    requires answers == Answers(replies) && |drafts| == |posts|
    requires forall i :: 0 <= i < |posts| ==> DraftFits(db1, posts[i], db.posts[posts[i]], answers[i], drafts[i])
    requires Valid(db2) && db2.categories == db1.categories && Below(db.activities, db2.next)
    requires created == CreateMultipleActivities(db2, Kept(drafts)) && created.Ok?
    ensures |created.value.1| == |Present(answers)|
    ensures forall k :: 0 <= k < |created.value.1| ==>
              && created.value.1[k] !in db.activities && created.value.1[k] in created.value.0.activities
              && var i := Present(answers)[k];
                 ActivityFrom(created.value.0, created.value.0.activities[created.value.1[k]], posts[i], db.posts[posts[i]], answers[i].value)
  {
    PresentAlike(drafts, answers);
    KeptAt(drafts);
    forall k | 0 <= k < |created.value.1|
      ensures && created.value.1[k] !in db.activities && created.value.1[k] in created.value.0.activities
              && var i := Present(answers)[k];
                 ActivityFrom(created.value.0, created.value.0.activities[created.value.1[k]], posts[i], db.posts[posts[i]], answers[i].value)
    {
      var i := Present(answers)[k];
      InsertedOne(db.activities, Kept(drafts), db2, created, k);
      ActivityAt(db1, posts[i], db.posts[posts[i]], answers[i], Kept(drafts)[k], created.value.0,
                 created.value.0.activities[created.value.1[k]]);
    }
  }

  /** The k-th inserted id is new and holds the activity built from the k-th draft. */
  lemma InsertedOne(before: map<Id, Activity>, ks: seq<ActivityDraft>, db2: Db, created: Result<(Db, seq<Id>)>, k: nat)
    requires Valid(db2) && Below(before, db2.next)
    requires created == CreateMultipleActivities(db2, ks) && created.Ok? && k < |ks|
    ensures k < |created.value.1| && created.value.1[k] !in before && created.value.1[k] in created.value.0.activities
    ensures created.value.0.categories == db2.categories
    ensures NewActivity(ks[k]).Ok? && created.value.0.activities[created.value.1[k]] == NewActivity(ks[k]).value
  {
  }

  /** The activity built from a fitting draft comes from that draft's post and reply. */
  lemma ActivityAt(db1: Db, id: Id, p: Post, answer: Option<Reply>, d: ActivityDraft, db3: Db, a: Activity)
    requires DraftFits(db1, id, p, answer, Some(d)) && db3.categories == db1.categories
    requires NewActivity(d).Ok? && a == NewActivity(d).value
    ensures answer.Some? && ActivityFrom(db3, a, id, p, answer.value)
  {
  }

  /** A reply without a single '|' parses to an empty summary, so the whole insert
      fails: one malformed answer costs every activity of the run. */
  lemma MalformedReplySinksRun(db: Db, posts: seq<Id>, replies: seq<Option<string>>, i: nat)
    requires Valid(db) && |posts| == |replies| && forall i :: 0 <= i < |posts| ==> posts[i] in db.posts
    requires i < |replies| && replies[i].Some? && replies[i].value != "" && !Contains(replies[i].value, "|")
    ensures GenerateActivities(db, posts, replies).activities.Err?
  {
    var r := GenerateActivities(db, posts, replies);
    assert Answers(replies)[i].value.summary == "";
    assert !Savable(db, posts, replies);
  }
}

=== FILE: activity_reply.dfy ===
/**
 * Reading the language model's reply for one post.  The reply is expected in the form
 * the prompt fixes, `|Summary: …|Categories: a, b|`; whatever the reply looks like, a
 * summary and a (possibly empty) list of category names come out of it.
 */
module ActivityReply {
  import opened Wrappers
  import opened JsString
  import opened Misc

  /** What one reply yields. */
  datatype Reply = Reply(summary: string, names: seq<string>)

  const SummaryTag := "Summary: "
  const CategoriesTag := "Categories: "
  const NameSeparator := ", "

  /** `parts?.[k]`. */
  function Segment(parts: seq<string>, k: nat): (r: Option<string>)
    ensures r.Some? <==> k < |parts|
    ensures r.Some? ==> r.value == parts[k]
  {
    if k < |parts| then Some(parts[k]) else None
  }

  /** `text?.split(tag)?.[1]`: the text after the first occurrence of `tag`, up to the
      next occurrence if there is one; absent when `tag` does not occur. */
  function AfterTag(text: Option<string>, tag: string): (r: Option<string>)
    requires |tag| > 0
    ensures text.None? ==> r.None?
    ensures text.Some? && !Contains(text.value, tag) ==> r.None?
    ensures r.Some? ==> !Contains(r.value, tag)
  {
    if text.None? then None
    else
      var parts := Split(text.value, tag);
      if |parts| > 1 then Some(parts[1])
      else
        assert !Contains(text.value, tag) by { SplitFound(text.value, tag); }
        None
  }

  /** A text holding the separator splits into more than one piece. */
  lemma SplitFound(s: string, sep: string)
    requires |sep| > 0 && |Split(s, sep)| == 1
    ensures !Contains(s, sep)
  {
    assert Join(Split(s, sep), sep) == Split(s, sep)[0];
  }

  /** Each name trimmed, in order. */
  function TrimAll(names: seq<string>): (r: seq<string>)
    ensures |r| == |names|
    ensures forall k :: 0 <= k < |r| ==> r[k] == Trim(names[k])
  {
    seq(|names|, k requires 0 <= k < |names| => Trim(names[k]))
  }

  /** The reply parse of `generateActivities`: the summary is the sanitised text after
      "Summary: " in the second `|`-segment, or empty; the names are the text after
      "Categories: " in the third segment, split on ", " and trimmed, or none. */
  function ParseReply(reply: string): (r: Reply)
    ensures Trimmed(r.summary) && forall k :: 0 <= k < |r.summary| ==> !IsLineBreak(r.summary[k])
    ensures forall k :: 0 <= k < |r.names| ==> Trimmed(r.names[k])
    ensures !Contains(reply, "|") ==> r == Reply("", [])
  {
    var segments := Split(reply, "|");
    assert !Contains(reply, "|") ==> ParsedSegments(segments) == Reply("", []) by {
      if !Contains(reply, "|") {
        SplitWithout(reply, "|");
        assert SanitizeText("") == "" by { StripIsFilter(""); }
      }
    }
    ParsedSegments(segments)
  }

  function ParsedSegments(segments: seq<string>): (r: Reply)
    ensures Trimmed(r.summary) && forall k :: 0 <= k < |r.summary| ==> !IsLineBreak(r.summary[k])
    ensures forall k :: 0 <= k < |r.names| ==> Trimmed(r.names[k])
  {
    Reply(SummaryOf(segments), NamesOf(segments))
  }

  /** The sanitised text after the summary tag in the second segment, or empty. */
  function SummaryOf(segments: seq<string>): (r: string)
    ensures Trimmed(r) && forall k :: 0 <= k < |r| ==> !IsLineBreak(r[k])
  {
    SanitizeText(AfterTag(Segment(segments, 1), SummaryTag).GetOr(""))
  }

  /** The trimmed names listed after the categories tag in the third segment, or none. */
  function NamesOf(segments: seq<string>): (r: seq<string>)
    ensures forall k :: 0 <= k < |r| ==> Trimmed(r[k])
  {
    NamesIn(Segment(segments, 2))
  }

  function NamesIn(segment: Option<string>): (r: seq<string>)
    ensures forall k :: 0 <= k < |r| ==> Trimmed(r[k])
  {
    var listed := AfterTag(segment, CategoriesTag);
    if listed.Some? then TrimAll(Split(listed.value, NameSeparator)) else []
  }

  /** The reply in the form the prompt asks for. */
  function FormatReply(summary: string, names: seq<string>): string {
    "|" + (SummaryTag + summary) + "|" + (CategoriesTag + Join(names, NameSeparator)) + "|"
  }

  /** A summary the form can carry unchanged: sanitised, without `|` and without the
      summary tag. */
  predicate CleanSummary(s: string) {
    Trimmed(s) && (forall k :: 0 <= k < |s| ==> !IsLineBreak(s[k])) && '|' !in s && !Contains(s, SummaryTag)
  }

  /** A category name the form can carry unchanged: trimmed, without `|`, `,` or `:`. */
  predicate PlainName(n: string) {
    Trimmed(n) && '|' !in n && ',' !in n && ':' !in n
  }

  /** Parsing a reply written in the prompt's form gives back its summary and names. */
  lemma ParseFormatted(summary: string, names: seq<string>)
    requires CleanSummary(summary) && |names| >= 1
    requires forall k :: 0 <= k < |names| ==> PlainName(names[k])
    ensures ParseReply(FormatReply(summary, names)) == Reply(summary, names)
  {
    var j := Join(names, NameSeparator);
    JoinAvoids(names, NameSeparator, '|');
    JoinAvoids(names, NameSeparator, ':');
    var segments := [[], SummaryTag + summary, CategoriesTag + j, []];
    FormattedSegments(summary, j);
    assert Split(FormatReply(summary, names), "|") == segments;
    SummaryReadBack(summary);
    NamesOfFormatted(names, j);
    assert ParsedSegments(segments) == Reply(summary, names);
  }

  /** The `|`-segments of a formatted reply. */
  lemma FormattedSegments(summary: string, j: string)
    requires '|' !in summary && '|' !in j
    ensures Split("|" + (SummaryTag + summary) + "|" + (CategoriesTag + j) + "|", "|")
            == [[], SummaryTag + summary, CategoriesTag + j, []]
  {
    Bars(SummaryTag + summary, CategoriesTag + j);
  }

  lemma Bars(a: string, b: string)
    requires '|' !in a && '|' !in b
    ensures Split("|" + a + "|" + b + "|", "|") == [[], a, b, []]
  {
    var u := a + "|" + (b + "|");
    TwoBars(a, b);
    LeadingBar(u, [a, b, []]);
    Regroup(a, b);
    assert [[]] + [a, b, []] == [[], a, b, []];
  }

  lemma TwoBars(a: string, b: string)
    requires '|' !in a && '|' !in b
    ensures Split(a + "|" + (b + "|"), "|") == [a, b, []]
  {
    LastBar(b);
    BarThen(a, b + "|");
  }

  lemma LeadingBar(u: string, r: seq<string>)
    requires Split(u, "|") == r
    ensures Split("|" + u, "|") == [[]] + r
  {
    BarThen([], u);
    assert [] + "|" + u == "|" + u;
  }

  lemma Regroup(a: string, b: string)
    ensures "|" + a + "|" + b + "|" == "|" + (a + "|" + (b + "|"))
  {
  }

  lemma LastBar(b: string)
    requires '|' !in b
    ensures Split(b + "|", "|") == [b, []]
  {
    SplitAfterChar(b, '|', []);
    assert b + "|" == b + ['|'] + [];
    SplitWithout([], "|");
  }

  lemma BarThen(a: string, t: string)
    requires '|' !in a
    ensures Split(a + "|" + t, "|") == [a] + Split(t, "|")
  {
    assert a + "|" + t == a + ['|'] + t;
    SplitAfterChar(a, '|', t);
  }

  lemma NamesOfFormatted(names: seq<string>, j: string)
    requires |names| >= 1 && j == Join(names, NameSeparator) && ':' !in j
    requires forall k :: 0 <= k < |names| ==> PlainName(names[k])
    ensures NamesIn(Some(CategoriesTag + j)) == names
  {
    NamesReadBack(j);
    SplitJoin(names, NameSeparator);
    TrimAllTrimmed(names);
  }

  /** Trimming names that are already trimmed changes none of them. */
  lemma TrimAllTrimmed(names: seq<string>)
    requires forall k :: 0 <= k < |names| ==> Trimmed(names[k])
    ensures TrimAll(names) == names
  {
    forall k | 0 <= k < |names|
      ensures TrimAll(names)[k] == names[k]
    {
      TrimOfTrimmed(names[k]);
    }
  }

  lemma SummaryReadBack(summary: string)
    requires CleanSummary(summary)
    ensures AfterTag(Some(SummaryTag + summary), SummaryTag) == Some(summary)
    ensures SanitizeText(summary) == summary
  {
    assert SummaryTag + summary == [] + SummaryTag + summary;
    SplitAfter([], SummaryTag, summary);
    SplitWithout(summary, SummaryTag);
    StripIsFilter(summary);
    FilterOfClean(summary);
    TrimOfTrimmed(summary);
  }

  lemma NamesReadBack(j: string)
    requires ':' !in j
    ensures AfterTag(Some(CategoriesTag + j), CategoriesTag) == Some(j)
  {
    forall k | 0 <= k
      ensures !OccursAt(j, CategoriesTag, k)
    {
      if k + |CategoriesTag| <= |j| {
        assert j[k..k + |CategoriesTag|][10] == j[k + 10];
      }
    }
    assert CategoriesTag + j == [] + CategoriesTag + j;
    SplitAfter([], CategoriesTag, j);
    SplitWithout(j, CategoriesTag);
  }
}

=== FILE: activity_service.dfy ===
/**
 * The activity service operations outside the aggregation pipelines: the all-or-nothing
 * batch insert, the field update of a non-deleted activity, soft deletion and counting.
 */
module ActivityService {
  import opened Wrappers
  import opened Store
  import opened Models

  /** Activities matched with `isDeleted: false` spread last are not soft-deleted. */
  lemma NoneDeleted(acts: map<Id, Activity>, f: Filter, ids: seq<Id>, regex: Regex)
    requires forall id :: id in ids ==> id in acts && Matches(f + NotDeleted(), id, acts[id], ActivityView, regex)
    ensures forall id :: id in ids ==> !acts[id].isDeleted
  {
    forall id | id in ids
      ensures !acts[id].isDeleted
    {
      NotDeletedLast(f, id, acts[id], ActivityView, regex);
      ActivityViewFields(id, acts[id]);
    }
  }

  /** `findOne({...query, isDeleted: false})`: the first non-deleted matching activity. */
  function FindActivity(db: Db, query: Filter, regex: Regex): (r: Option<Id>)
    ensures r.Some? ==> r.value in db.activities && r.value < db.next && !db.activities[r.value].isDeleted
                        && Matches(query + NotDeleted(), r.value, db.activities[r.value], ActivityView, regex)
    ensures r.None? ==> forall id :: id in db.activities && id < db.next ==>
                          !Matches(query + NotDeleted(), id, db.activities[id], ActivityView, regex)
  {
    var r := First(db.activities, db.next, query + NotDeleted(), ActivityView, regex);
    if r.Some? then
      NoneDeleted(db.activities, query, [r.value], regex);
      r
    else r
  }

  /** `createMultipleActivities`: an ordered `insertMany`; one invalid draft rejects the
      whole batch, otherwise the drafts get consecutive ids from the next one. */
  function CreateMultipleActivities(db: Db, drafts: seq<ActivityDraft>): (r: Result<(Db, seq<Id>)>)
    requires Valid(db)
    ensures r.Ok? <==> forall k :: 0 <= k < |drafts| ==> drafts[k].title != "" && drafts[k].summary != ""
    ensures r.Ok? ==> Valid(r.value.0) && r.value.0 == db.(activities := r.value.0.activities, next := db.next + |drafts|)
    ensures r.Ok? ==> |r.value.1| == |drafts| && forall k :: 0 <= k < |drafts| ==> r.value.1[k] == db.next + k
    ensures r.Ok? ==> forall id :: id in r.value.0.activities <==> id in db.activities || db.next <= id < db.next + |drafts|
    ensures r.Ok? ==> forall id :: id in db.activities ==> r.value.0.activities[id] == db.activities[id]
    ensures r.Ok? ==> forall k :: 0 <= k < |drafts| ==> r.value.0.activities[db.next + k] == NewActivity(drafts[k]).value
  {
    match BuildAll(drafts, NewActivity)
    case Err(e) => Err(e)
    case Ok(acts) =>
      var ids := seq(|drafts|, k => db.next + k);
      Ok((db.(activities := InsertAll(db.activities, db.next, acts), next := db.next + |drafts|), ids))
  }

  /** The fields `updateActivity` may set; an absent field is left alone. */
  datatype ActivityPatch = ActivityPatch(
    title: Option<string>,
    summary: Option<string>,
    date: Option<int>,
    post: Option<Id>,
    categories: Option<seq<Id>>,
    isPublished: Option<bool>,
    isDeleted: Option<bool>,
    country: Option<string>)

  /** `activity.set(details)`. */
  function ApplyActivityPatch(a: Activity, patch: ActivityPatch): (r: Activity)
    ensures r.title == patch.title.GetOr(a.title) && r.summary == patch.summary.GetOr(a.summary)
    ensures r.date == patch.date.GetOr(a.date) && r.post == (if patch.post.Some? then patch.post else a.post)
    ensures r.categories == patch.categories.GetOr(a.categories)
    ensures r.isPublished == patch.isPublished.GetOr(a.isPublished) && r.isDeleted == patch.isDeleted.GetOr(a.isDeleted)
    ensures r.country == patch.country.GetOr(a.country)
  {
    Activity(patch.title.GetOr(a.title), patch.summary.GetOr(a.summary), patch.date.GetOr(a.date),
             if patch.post.Some? then patch.post else a.post, patch.categories.GetOr(a.categories),
             patch.isPublished.GetOr(a.isPublished), patch.isDeleted.GetOr(a.isDeleted), patch.country.GetOr(a.country))
  }

  /** An empty patch leaves an activity as it was. */
  lemma EmptyActivityPatch(a: Activity)
    ensures ApplyActivityPatch(a, ActivityPatch(None, None, None, None, None, None, None, None)) == a
  {
  }

  const NoActivity := "No activity with that id exists."

  /** `updateActivity`: "not found" when no non-deleted activity matches; otherwise the
      supplied fields are set and saved, which fails when the title or summary ends up
      empty. */
  function UpdateActivity(db: Db, query: Filter, patch: ActivityPatch, regex: Regex): (r: Result<(Db, Id)>)
    ensures FindActivity(db, query, regex).None? ==> r == Err(NotFound(NoActivity))
    ensures FindActivity(db, query, regex).Some? ==>
      var a := ApplyActivityPatch(db.activities[FindActivity(db, query, regex).value], patch);
      (r.Ok? <==> a.title != "" && a.summary != "")
    ensures r.Ok? ==> FindActivity(db, query, regex) == Some(r.value.1)
    ensures r.Ok? ==> r.value.0 == db.(activities := db.activities[r.value.1 := ApplyActivityPatch(db.activities[r.value.1], patch)])
  {
    match FindActivity(db, query, regex)
    case None => Err(NotFound(NoActivity))
    case Some(id) =>
      var a := ApplyActivityPatch(db.activities[id], patch);
      if a.title == "" then Err(Required("Activity", "title"))
      else if a.summary == "" then Err(Required("Activity", "summary"))
      else Ok((db.(activities := db.activities[id := a]), id))
  }

  /** `deleteActivities`: the listed activities are flagged deleted and nothing else
      changes. */
  function DeleteActivities(db: Db, ids: seq<Id>): (r: Db)
    ensures r == db.(activities := r.activities)
    ensures r.activities.Keys == db.activities.Keys
    ensures forall id :: id in db.activities && id in ids ==> r.activities[id] == db.activities[id].(isDeleted := true)
    ensures forall id :: id in db.activities && id !in ids ==> r.activities[id] == db.activities[id]
  {
    IdInSelectsListed(db.activities, ids, ActivityView, NoRegex());
    db.(activities := UpdateWhere(db.activities, IdIn(ids), ActivityView, NoRegex(), (a: Activity) => a.(isDeleted := true)))
  }

  /** `countActivities`: how many non-deleted activities match. */
  function CountActivities(db: Db, query: Filter, regex: Regex): (c: nat)
    ensures c <= db.next
    ensures c == 0 <==> FindActivity(db, query, regex).None?
    ensures c == |Matching(db.activities, db.next, query + NotDeleted(), ActivityView, regex)|
  {
    CountIsMatching(db.activities, db.next, query + NotDeleted(), ActivityView, regex);
    var all := Select(db.activities, db.next, query + NotDeleted(), ActivityView, regex);
    assert all != [] ==> all[0] in all;
    Count(db.activities, db.next, query + NotDeleted(), ActivityView, regex)
  }

  /** A deleted activity can no longer be updated: the update reports "not found". */
  lemma DeletedActivityNotUpdated(db: Db, id: Id, patch: ActivityPatch)
    requires id in db.activities
    ensures UpdateActivity(DeleteActivities(db, [id]), IdIs(id), patch, NoRegex()) == Err(NotFound(NoActivity))
  {
    var db2 := DeleteActivities(db, [id]);
    var r := FindActivity(db2, IdIs(id), NoRegex());
    if r.Some? {
      ActivityViewFields(r.value, db2.activities[r.value]);
      SpreadKeeps(IdIs(id), NotDeleted(), r.value, db2.activities[r.value], ActivityView, NoRegex());
      IdIsMatches(id, r.value, db2.activities[r.value], ActivityView, NoRegex());
    }
  }
}

=== FILE: auth_controller.dfy ===
/**
 * The login upsert: a signed-in identity is matched to a stored user by e-mail.  A
 * match whose names and picture agree with the identity is reused untouched; one that
 * disagrees has all three refreshed and its country reset; otherwise a regular user
 * is created.
 */
module AuthController {
  import opened Wrappers
  import opened Store
  import opened Models
  import opened Constants
  import opened UserService

  /** The claims of the identity token the login reads; the names and the picture may
      be absent from a token. */
  datatype Claims = Claims(email: string, givenName: Option<string>, familyName: Option<string>, picture: Option<string>)

  /** Whether any of the first name, last name or image differs from the token's. */
  predicate Differs(u: User, c: Claims) {
    Some(u.firstName) != c.givenName || Some(u.lastName) != c.familyName || u.image != c.picture
  }

  /** `country || 'NG'`: the request's country when it is a non-empty string. */
  function CountryOrDefault(country: Option<string>): (r: string)
    ensures country.Some? && country.value != "" ==> r == country.value
    ensures country.None? || country.value == "" ==> r == "NG"
  {
    if country.Some? && country.value != "" then country.value else DefaultCountryCode
  }

  /** The stored user with the token's names and picture and the request's country,
      as `save` validates it: both names and the e-mail are required. */
  function Refresh(u: User, c: Claims, country: Option<string>): (r: Result<User>)
    ensures r.Ok? <==> c.givenName.GetOr("") != "" && c.familyName.GetOr("") != "" && u.email != ""
    ensures r.Ok? ==> r.value == User(c.givenName.value, c.familyName.value, c.picture, u.email, u.role, CountryOrDefault(country))
    ensures r.Ok? ==> !Differs(r.value, c)
  {
    NewUser(c.givenName, c.familyName, c.picture, Some(u.email), Some(u.role), Some(CountryOrDefault(country)))
  }

  /** `handleLogin`: the user found by e-mail is reused, refreshed only when it differs
      from the token; an unknown e-mail creates a regular user with the default country. */
  function HandleLogin(db: Db, c: Claims, country: Option<string>): (r: Result<(Db, Id)>)
    requires Valid(db)
    ensures r.Ok? ==> Valid(r.value.0)
    ensures r.Ok? ==> r.value.1 in r.value.0.users && r.value.0.users[r.value.1].email == c.email
    ensures r.Ok? ==> !Differs(r.value.0.users[r.value.1], c)
    ensures r.Ok? ==> r.value.0 == db.(users := r.value.0.users, next := r.value.0.next)
    ensures FindUser(db, c.email).Some? ==> var k := FindUser(db, c.email).value;
      && (!Differs(db.users[k], c) ==> r == Ok((db, k)))
      && (Differs(db.users[k], c) ==> (r.Ok? <==> Refresh(db.users[k], c, country).Ok?))
      && (r.Ok? ==> r.value.1 == k)
      && (r.Ok? && Differs(db.users[k], c) ==> r.value.0 == db.(users := db.users[k := Refresh(db.users[k], c, country).value]))
    ensures FindUser(db, c.email).None? ==>
      && (r.Ok? <==> c.givenName.GetOr("") != "" && c.familyName.GetOr("") != "" && c.email != "")
      && (r.Ok? ==> && r.value.1 == db.next
                    && r.value.0 == db.(users := db.users[db.next := User(c.givenName.value, c.familyName.value, c.picture,
                                                                          c.email, RegularUser, "NG")],
                                        next := db.next + 1))
  {
    match FindUser(db, c.email)
    case Some(k) =>
      if !Differs(db.users[k], c) then Ok((db, k))
      else (
        match Refresh(db.users[k], c, country)
        case Err(e) => Err(e)
        case Ok(u) => Ok((db.(users := db.users[k := u]), k)))
    case None =>
      match NewUser(c.givenName, c.familyName, c.picture, Some(c.email), Some(RegularUser), None)
      case Err(e) => Err(e)
      case Ok(u) => AddUser(db, u)
  }

  /** Logging in again with the same token changes nothing, whatever country the second
      request names: the user is found and no longer differs. */
  lemma LoginIdempotent(db: Db, c: Claims, country: Option<string>, country2: Option<string>)
    requires Valid(db) && HandleLogin(db, c, country).Ok?
    ensures var (db2, id) := HandleLogin(db, c, country).value;
            HandleLogin(db2, c, country2) == Ok((db2, id))
  {
    var (db2, id) := HandleLogin(db, c, country).value;
    FindUserByEmail(db2, id);
  }

  /** A login never adds a second user for an e-mail that is already stored. */
  lemma LoginReusesStoredUser(db: Db, c: Claims, country: Option<string>, k: Id)
    requires Valid(db) && k in db.users && db.users[k].email == c.email
    ensures HandleLogin(db, c, country).Ok? ==> HandleLogin(db, c, country).value.1 == k
                                                && HandleLogin(db, c, country).value.0.users.Keys == db.users.Keys
  {
    FindUserByEmail(db, k);
    var r := HandleLogin(db, c, country);
    if r.Ok? && Differs(db.users[k], c) {
      assert r.value.0.users == db.users[k := Refresh(db.users[k], c, country).value];
    }
  }
}

=== FILE: category_service.dfy ===
/**
 * The category service: listing, lookup, creation, field updates, soft deletion and
 * counting of categories.  Every read spreads `isDeleted: false` after the caller's
 * filter; the unique index on `name` covers deleted categories too.
 */
module CategoryService {
  import opened Wrappers
  import opened Ordering
  import opened Store
  import opened Models
  import opened Search

  /** The options of `getCategories`; an empty search stands for an absent one. */
  datatype CategoriesQuery = CategoriesQuery(limit: int, page: int, query: Filter, search: string, sort: SortSpec)

  /** The default sort: by name, ascending. */
  const NameAscending := SortSpec("name", false)

  /** The options when the caller gives none: page 1 of 10, by name. */
  function DefaultCategoriesQuery(): (q: CategoriesQuery)
    ensures q.page == 1 && q.limit == 10 && q.sort == NameAscending && q.query == map[] && q.search == ""
  {
    CategoriesQuery(10, 1, map[], "", NameAscending)
  }

  /** The filter `getCategories` runs: the search condition, the caller's query over
      it, then `isDeleted: false` over everything. */
  function CategoriesFilter(q: CategoriesQuery): (f: Filter)
    ensures "isDeleted" in f && f["isDeleted"] == Eq(Bool(false))
    ensures forall k :: k in f <==> k in q.query || k == "isDeleted" || (k == "name" && q.search != "")
    ensures forall k :: k in q.query && k != "isDeleted" ==> f[k] == q.query[k]
    ensures "name" !in q.query && q.search != "" ==> f["name"] == Like(PatternAsWritten(q.search))
  {
    PutIf(map[], q.search != "", "name", Like(PatternAsWritten(q.search))) + q.query + NotDeleted()
  }

  /** Categories matched with `isDeleted: false` spread last are not soft-deleted. */
  lemma NoneDeleted(cs: map<Id, Category>, f: Filter, ids: seq<Id>, regex: Regex)
    requires forall id :: id in ids ==> id in cs && Matches(f + NotDeleted(), id, cs[id], CategoryView, regex)
    ensures forall id :: id in ids ==> !cs[id].isDeleted
  {
    forall id | id in ids
      ensures !cs[id].isDeleted
    {
      NotDeletedLast(f, id, cs[id], CategoryView, regex);
      CategoryViewFields(id, cs[id]);
    }
  }

  /** `getCategories`: a page of non-deleted matching categories in the requested
      order, and how many match in all. */
  function GetCategories(db: Db, q: CategoriesQuery, regex: Regex): (r: Result<Listing>)
    ensures r.Err? <==> Skip(q.page, q.limit) < 0
    ensures r.Ok? ==> forall id :: id in r.value.ids ==>
      id in db.categories && !db.categories[id].isDeleted
      && Matches(CategoriesFilter(q), id, db.categories[id], CategoryView, regex)
    ensures r.Ok? ==> Sorted(r.value.ids, SortKey(db.categories, CategoryView, q.sort.field), q.sort.desc)
    ensures r.Ok? && q.limit != 0 ==> |r.value.ids| <= Abs(q.limit)
    ensures r.Ok? ==> r.value.count == Count(db.categories, db.next, CategoriesFilter(q), CategoryView, regex)
    ensures r.Ok? ==> IsWindow(Ranked(db.categories, db.next, CategoriesFilter(q), CategoryView, regex, q.sort), Min(Skip(q.page, q.limit), r.value.count), r.value.ids)
    ensures r.Ok? ==> |r.value.ids| == PageSize(r.value.count, q.page, q.limit)
  {
    var f0 := PutIf(map[], q.search != "", "name", Like(PatternAsWritten(q.search))) + q.query;
    var r := FindListing(db.categories, db.next, f0 + NotDeleted(), CategoryView, regex, q.sort, q.page, q.limit);
    if r.Ok? then
      NoneDeleted(db.categories, f0, r.value.ids, regex);
      r
    else r
  }

  /** `getCategory`: the first non-deleted category matching the query. */
  function GetCategory(db: Db, query: Filter, regex: Regex): (r: Option<Id>)
    ensures r.Some? ==> r.value in db.categories && !db.categories[r.value].isDeleted
                        && Matches(query + NotDeleted(), r.value, db.categories[r.value], CategoryView, regex)
    ensures r.None? ==> forall id :: id in db.categories && id < db.next ==>
                          !Matches(query + NotDeleted(), id, db.categories[id], CategoryView, regex)
  {
    var r := First(db.categories, db.next, query + NotDeleted(), CategoryView, regex);
    if r.Some? then
      NoneDeleted(db.categories, query, [r.value], regex);
      r
    else r
  }

  /** `createCategory`: no lookup first; the schema and the unique index decide.  A
      missing name is stored as absent, which `required` rejects like an empty one. */
  function CreateCategory(db: Db, name: Option<string>, emoji: Option<string>): (r: Result<(Db, Id)>)
    requires Valid(db)
    ensures r.Ok? <==> name.GetOr("") != "" && forall id :: id in db.categories ==> db.categories[id].name != name.value
    ensures r.Ok? ==> && Valid(r.value.0) && r.value.1 == db.next
                      && r.value.0 == db.(categories := db.categories[db.next := Category(name.value, emoji, false)],
                                          next := db.next + 1)
  {
    AddCategory(db, name.GetOr(""), emoji)
  }

  /** `{name: name}`. */
  function NameIs(name: string): Filter {
    map["name" := Eq(Str(name))]
  }

  lemma NameIsMatches(name: string, id: Id, c: Category, regex: Regex)
    ensures Matches(NameIs(name) + NotDeleted(), id, c, CategoryView, regex) <==> c.name == name && !c.isDeleted
  {
    var f := NameIs(name) + NotDeleted();
    assert f.Keys == {"name", "isDeleted"} && f["name"] == Eq(Str(name)) && f["isDeleted"] == Eq(Bool(false));
    CategoryViewFields(id, c);
  }

  /** A freshly created category is what `getCategory({name})` finds. */
  lemma CreatedCategoryFound(db: Db, name: string, emoji: Option<string>)
    requires Valid(db) && CreateCategory(db, Some(name), emoji).Ok?
    ensures GetCategory(CreateCategory(db, Some(name), emoji).value.0, NameIs(name), NoRegex()) == Some(db.next)
  {
    var db2 := CreateCategory(db, Some(name), emoji).value.0;
    var cs := db2.categories;
    NameIsMatches(name, db.next, cs[db.next], NoRegex());
    forall id | id in cs && id < db2.next && Matches(NameIs(name) + NotDeleted(), id, cs[id], CategoryView, NoRegex())
      ensures id == db.next
    {
      NameIsMatches(name, id, cs[id], NoRegex());
    }
    FirstUnique(cs, db2.next, NameIs(name) + NotDeleted(), CategoryView, NoRegex(), db.next);
  }

  /** The fields `updateCategory` may set; an absent field is left alone. */
  datatype CategoryPatch = CategoryPatch(name: Option<string>, emoji: Option<string>, isDeleted: Option<bool>)

  function ApplyCategoryPatch(c: Category, patch: CategoryPatch): (r: Category)
    ensures r.name == patch.name.GetOr(c.name)
    ensures r.emoji == (if patch.emoji.Some? then patch.emoji else c.emoji)
    ensures r.isDeleted == patch.isDeleted.GetOr(c.isDeleted)
  {
    Category(patch.name.GetOr(c.name), if patch.emoji.Some? then patch.emoji else c.emoji,
             patch.isDeleted.GetOr(c.isDeleted))
  }

  const NoCategory := "No category with that id exists."

  /** Category `id` may take `name`: it is not empty and no other category has it. */
  predicate Renameable(db: Db, id: Id, name: string) {
    name != "" && forall k :: k in db.categories && k != id ==> db.categories[k].name != name
  }

  /** `updateCategory`: "not found" when no non-deleted category matches; otherwise the
      supplied fields are set and saved, which the schema rejects for an empty name and
      the unique index for a name another category already has. */
  function UpdateCategory(db: Db, query: Filter, patch: CategoryPatch, regex: Regex): (r: Result<(Db, Id)>)
    requires Valid(db)
    ensures GetCategory(db, query, regex).None? ==> r == Err(NotFound(NoCategory))
    ensures r.Ok? ==> GetCategory(db, query, regex) == Some(r.value.1)
    ensures r.Ok? ==> Valid(r.value.0)
    ensures r.Ok? ==> r.value.0 == db.(categories := db.categories[r.value.1 := ApplyCategoryPatch(db.categories[r.value.1], patch)])
    ensures GetCategory(db, query, regex).Some? ==>
      (r.Ok? <==> Renameable(db, GetCategory(db, query, regex).value,
                             ApplyCategoryPatch(db.categories[GetCategory(db, query, regex).value], patch).name))
  {
    match GetCategory(db, query, regex)
    case None => Err(NotFound(NoCategory))
    case Some(id) =>
      var c := ApplyCategoryPatch(db.categories[id], patch);
      if c.name == "" then Err(Required("Category", "name"))
      else if exists k :: k in db.categories && k != id && db.categories[k].name == c.name then Err(Duplicate("name_1"))
      else Ok((db.(categories := db.categories[id := c]), id))
  }

  /** `deleteCategories`: the listed categories are flagged deleted and nothing else
      changes. */
  function DeleteCategories(db: Db, ids: seq<Id>): (r: Db)
    ensures r == db.(categories := r.categories)
    ensures r.categories.Keys == db.categories.Keys
    ensures forall id :: id in db.categories && id in ids ==> r.categories[id] == db.categories[id].(isDeleted := true)
    ensures forall id :: id in db.categories && id !in ids ==> r.categories[id] == db.categories[id]
    ensures Valid(db) ==> Valid(r)
  {
    IdInSelectsListed(db.categories, ids, CategoryView, NoRegex());
    db.(categories := UpdateWhere(db.categories, IdIn(ids), CategoryView, NoRegex(), (c: Category) => c.(isDeleted := true)))
  }

  /** `countCategories`: how many non-deleted categories match. */
  function CountCategories(db: Db, query: Filter, regex: Regex): (c: nat)
    ensures c <= db.next
    ensures c == 0 <==> GetCategory(db, query, regex).None?
    ensures c == |Matching(db.categories, db.next, query + NotDeleted(), CategoryView, regex)|
  {
    CountIsMatching(db.categories, db.next, query + NotDeleted(), CategoryView, regex);
    var all := Select(db.categories, db.next, query + NotDeleted(), CategoryView, regex);
    assert all != [] ==> all[0] in all;
    Count(db.categories, db.next, query + NotDeleted(), CategoryView, regex)
  }

  /** A category deleted by id is no longer found by id, yet its name stays taken. */
  lemma DeletedCategoryHidden(db: Db, id: Id)
    requires Valid(db) && id in db.categories
    ensures GetCategory(DeleteCategories(db, [id]), IdIs(id), NoRegex()).None?
    ensures CreateCategory(DeleteCategories(db, [id]), Some(db.categories[id].name), None).Err?
  {
    var db2 := DeleteCategories(db, [id]);
    var r := GetCategory(db2, IdIs(id), NoRegex());
    if r.Some? {
      CategoryViewFields(r.value, db2.categories[r.value]);
      SpreadKeeps(IdIs(id), NotDeleted(), r.value, db2.categories[r.value], CategoryView, NoRegex());
      IdIsMatches(id, r.value, db2.categories[r.value], CategoryView, NoRegex());
    }
    assert db2.categories[id].name == db.categories[id].name;
  }
}

=== FILE: constants.dfy ===
/**
 * The fixed tables of the service: the six countries and their codes, the default
 * category vocabulary with its emoji table, and the six per-country registries of
 * news publishers, keyed by the publisher names the scraping adapters use.
 */
module Constants {
  import opened Wrappers
  import opened JsString

  datatype Country = Country(name: string, code: string)

  const Nigeria := Country("Nigeria", "NG")
  const Ghana := Country("Ghana", "GH")
  const Liberia := Country("Liberia", "LR")
  const Gambia := Country("Gambia", "GM")
  const Kenya := Country("Kenya", "KE")
  const SierraLeone := Country("Sierra Leone", "SL")

  /** The country code every schema falls back to. */
  const DefaultCountryCode := Nigeria.code

  /** The six countries, in declaration order; no two share a code. */
  function Countries(): (r: seq<Country>)
    ensures |r| == 6
    ensures forall i, j :: 0 <= i < j < |r| ==> r[i].code != r[j].code
    ensures forall i :: 0 <= i < |r| ==> |r[i].code| == 2
    ensures (set c | c in r :: c.code) == {"NG", "GH", "LR", "GM", "KE", "SL"}
  {
    [Nigeria, Ghana, Liberia, Gambia, Kenya, SierraLeone]
  }

  /** The category vocabulary offered to the language model, without repetitions. */
  function DefaultCategories(): (r: seq<string>)
    ensures |r| == 15
    ensures forall i, j :: 0 <= i < j < |r| ==> r[i] != r[j]
  {
    ["policy", "economic", "social", "infrastructure", "foreign", "public", "environment",
     "transparency", "ethics", "crisis", "communication", "media", "judiciary", "education",
     "healthcare"]
  }

  /** The emoji of each default category: its keys are exactly the default categories,
      and every emoji is a non-empty glyph sequence. */
  function CategoryEmojis(): (r: map<string, string>)
    ensures r.Keys == set c | c in DefaultCategories()
    ensures forall k :: k in r ==> r[k] != ""
  {
    map[
      "policy" := "\U{1F4DC}",
      "economic" := "\U{1F4B0}",
      "social" := "\U{1F91D}",
      "infrastructure" := "\U{1F3D7}\U{FE0F}",
      "foreign" := "\U{1F30D}",
      "public" := "\U{1F3DB}\U{FE0F}",
      "environment" := "\U{1F333}",
      "transparency" := "\U{1F575}\U{FE0F}\U{200D}\U{2642}\U{FE0F}",
      "ethics" := "\U{1F914}",
      "crisis" := "\U{1F198}",
      "communication" := "\U{1F4E2}",
      "media" := "\U{1F4F0}",
      "judiciary" := "\U{2696}\U{FE0F}",
      "education" := "\U{1F393}",
      "healthcare" := "\U{1F3E5}"
    ]
  }

  /** One registry entry: the key the adapters look it up by, the publisher's home URL and
      the name its Source record gets. */
  datatype Publisher = Publisher(key: string, url: string, name: string)

  /** A registry, in declaration order. */
  type Registry = seq<Publisher>

  /** No two entries share a key, so a key names one publisher. */
  predicate DistinctKeys(r: Registry) {
    forall i, j :: 0 <= i < j < |r| ==> r[i].key != r[j].key
  }

  /** Property access `registry[key]`: the entry stored under `key`, if any. */
  function Lookup(r: Registry, key: string): (p: Option<Publisher>)
    ensures p.Some? <==> exists i :: 0 <= i < |r| && r[i].key == key
    ensures p.Some? ==> p.value in r && p.value.key == key
  {
    if r == [] then None else if r[0].key == key then Some(r[0]) else Lookup(r[1..], key)
  }

  predicate HasKey(r: Registry, key: string) {
    Lookup(r, key).Some?
  }

  function NigerianNewsSources(): (r: Registry)
    ensures |r| == 7
    ensures HomeUrls(r) && NamedByKeys(r, {})
  {
    [
      Publisher("Arise News", "https://www.arise.tv", "Arise News"),
      Publisher("The Punch", "https://www.punchng.com", "The Punch"),
      Publisher("The Guardian Nigeria", "https://www.guardian.ng", "The Guardian Nigeria"),
      Publisher("Vanguard", "https://www.vanguardngr.com", "Vanguard"),
      Publisher("Sahara Reporters", "https://www.saharareporters.com", "Sahara Reporters"),
      Publisher("State House", "https://statehouse.gov.ng", "State House"),
      Publisher("Business Day", "https://businessday.ng", "Business Day")
    ]
  }

  /** Gambia's registry: the one entry whose name differs from its key is "The Standard",
      stored under the name "Standard". */
  function GambiaNewsSources(): (r: Registry)
    ensures |r| == 2
    ensures Lookup(r, "The Standard").Some? && Lookup(r, "The Standard").value.name == "Standard"
    ensures HomeUrls(r) && NamedByKeys(r, {"The Standard"})
  {
    [
      Publisher("The Standard", "https://standard.gm", "Standard"),
      Publisher("The Point", "https://thepoint.gm", "The Point")
    ]
  }

  function GhanaNewsSources(): (r: Registry)
    ensures |r| == 3
    ensures HomeUrls(r) && NamedByKeys(r, {})
  {
    [
      Publisher("Citi Newsroom", "https://citinewsroom.com", "Citi Newsroom"),
      Publisher("Ghana Online", "https://www.gbcghanaonline.com", "Ghana Online"),
      Publisher("Office of The President", "https://presidency.gov.gh", "Office of The President")
    ]
  }

  function KenyaNewsSources(): (r: Registry)
    ensures |r| == 4
    ensures HomeUrls(r) && NamedByKeys(r, {})
  {
    [
      Publisher("The Star", "https://www.the-star.co.ke", "The Star"),
      Publisher("Nairobileo", "https://nairobileo.co.ke", "Nairobileo"),
      Publisher("Office of the president", "https://president.go.ke", "Office of the president"),
      Publisher("Kenyans", "https://www.kenyans.co.ke", "Kenyans")
    ]
  }

  function LiberianNewsSources(): (r: Registry)
    ensures |r| == 2
    ensures HomeUrls(r) && NamedByKeys(r, {})
  {
    [
      Publisher("Liberian Observer", "https://www.liberianobserver.com", "Liberian Observer"),
      Publisher("Executive Mansion", "https://emansion.gov.lr", "Executive Mansion")
    ]
  }

  function SierraLeoneNewsSources(): (r: Registry)
    ensures |r| == 3
    ensures HomeUrls(r) && NamedByKeys(r, {})
  {
    [
      Publisher("Awoko Newspaper", "https://awokonewspaper.sl", "Awoko Newspaper"),
      Publisher("Sierria Leone State House", "https://statehouse.gov.sl", "Sierria Leone State House"),
      Publisher("The Sierra Leone Telegraph", "https://www.thesierraleonetelegraph.com", "The Sierra Leone Telegraph")
    ]
  }

  /** A news source as the adapters name it: a country tag and a publisher name. */
  datatype NewsSource = NewsSource(country: string, sourceName: string)

  /** The country a country tag names; `None` for a tag outside the six. */
  function CountryOf(tag: string): (c: Option<Country>)
    ensures c.Some? ==> c.value in Countries() && c.value.name == tag
  {
    if tag == Nigeria.name then Some(Nigeria)
    else if tag == Gambia.name then Some(Gambia)
    else if tag == Ghana.name then Some(Ghana)
    else if tag == Kenya.name then Some(Kenya)
    else if tag == Liberia.name then Some(Liberia)
    else if tag == SierraLeone.name then Some(SierraLeone)
    else None
  }

  /** The registry of a country code. */
  function RegistryFor(code: string): Registry {
    if code == Nigeria.code then NigerianNewsSources()
    else if code == Gambia.code then GambiaNewsSources()
    else if code == Ghana.code then GhanaNewsSources()
    else if code == Kenya.code then KenyaNewsSources()
    else if code == Liberia.code then LiberianNewsSources()
    else SierraLeoneNewsSources()
  }

  /** Within each country's registry no two publishers share a key, so a key names one
      publisher. */
  lemma RegistryKeysDistinct(code: string)
    ensures DistinctKeys(RegistryFor(code))
  {
    if code == Nigeria.code {
      NigerianKeysDistinct();
    } else if code == Gambia.code {
      GambiaKeysDistinct();
    } else if code == Ghana.code {
      GhanaKeysDistinct();
    } else if code == Kenya.code {
      KenyaKeysDistinct();
    } else if code == Liberia.code {
      LiberianKeysDistinct();
    } else {
      SierraLeoneKeysDistinct();
    }
  }

  lemma NigerianKeysDistinct()
    ensures DistinctKeys(NigerianNewsSources())
  {
  }

  lemma GambiaKeysDistinct()
    ensures DistinctKeys(GambiaNewsSources())
  {
  }

  lemma GhanaKeysDistinct()
    ensures DistinctKeys(GhanaNewsSources())
  {
  }

  lemma KenyaKeysDistinct()
    ensures DistinctKeys(KenyaNewsSources())
  {
  }

  lemma LiberianKeysDistinct()
    ensures DistinctKeys(LiberianNewsSources())
  {
  }

  lemma SierraLeoneKeysDistinct()
    ensures DistinctKeys(SierraLeoneNewsSources())
  {
  }

  /** A home URL as the registries write it: the https scheme, something after it, and no
      trailing slash, so a path is appended with a single "/". */
  predicate HomeUrl(u: string) {
    |u| > 8 && "https://" <= u && u[|u| - 1] != '/'
  }

  /** Every entry of the registry has a home URL. */
  predicate HomeUrls(r: Registry) {
    forall i :: 0 <= i < |r| ==> HomeUrl(r[i].url)
  }

  /** Every entry is named by its key, except those whose key is in `renamed`. */
  predicate NamedByKeys(r: Registry, renamed: set<string>) {
    forall i :: 0 <= i < |r| && r[i].key !in renamed ==> r[i].name == r[i].key
  }

  /** The keys under which a registry stores a name different from the key: only Gambia's
      "The Standard", stored as "Standard". */
  function Renamed(code: string): set<string> {
    if code == Gambia.code then {"The Standard"} else {}
  }

  /** In each country's registry every home URL uses https and has no trailing slash, and
      every publisher is named by its key except Gambia's "The Standard". */
  lemma RegistryTidy(code: string)
    ensures HomeUrls(RegistryFor(code)) && NamedByKeys(RegistryFor(code), Renamed(code))
  {
  }

  /** The registry a country tag selects: one for each of the six country tags. */
  function RegistryOf(tag: string): Option<Registry> {
    match CountryOf(tag)
    case None => None
    case Some(c) => Some(RegistryFor(c.code))
  }

  /** The `NewsSource` union type: a country tag paired only with a key of that
      country's own registry. */
  predicate IsNewsSource(ns: NewsSource) {
    RegistryOf(ns.country).Some? && HasKey(RegistryOf(ns.country).value, ns.sourceName)
  }
}

=== FILE: ingestion.dfy ===
/**
 * One scraper run (`scraperWrapper` and `jsScraperWrapper`): resolve the publisher's
 * Source record, read the listing's links, fetch every article, keep the articles
 * that are new for this source, fall inside the time window and pass the adapter's
 * test, and insert them in one ordered batch.  The pages themselves are inputs: the
 * listing's link attributes and, for each link, whether its fetch was fulfilled and
 * what the adapter's `postCreator` read from it.
 */
module Ingestion {
  import opened Wrappers
  import opened JsString
  import opened Misc
  import opened Constants
  import opened Store
  import opened Models
  import opened SourceService
  import opened PostService
  import opened Scraper

  // ---------------------------------------------------------------------------
  // The time window
  // ---------------------------------------------------------------------------

  const DayMs := 86400000
  /** Africa/Lagos is one hour ahead of UTC all year round. */
  const LagosOffsetMs := 3600000

  /** `moment().tz('Africa/Lagos').startOf('day')`: the instant the Lagos calendar day
      holding `now` began. */
  function LagosDayStart(now: int): (r: int)
    ensures r <= now < r + DayMs
    ensures (r + LagosOffsetMs) % DayMs == 0
  {
    (now + LagosOffsetMs) / DayMs * DayMs - LagosOffsetMs
  }

  /** `moment().tz('Africa/Lagos').endOf('day')`: the last millisecond of that day. */
  function LagosDayEnd(now: int): (r: int)
    ensures now <= r == LagosDayStart(now) + DayMs - 1
  {
    LagosDayStart(now) + DayMs - 1
  }

  /** The Lagos calendar day an instant falls on, counted from the epoch. */
  function LagosDay(t: int): int {
    (t + LagosOffsetMs) / DayMs
  }

  /** A `startTime`/`endTime` option: absent or empty (`Default`), or a date string
      that parsed to an instant (`None` when moment found it invalid). */
  datatype Bound = Default | Given(instant: Option<int>)

  function Begin(b: Bound, now: int): Option<int> {
    match b
    case Default => Some(LagosDayStart(now))
    case Given(t) => t
  }

  function End(b: Bound, now: int): Option<int> {
    match b
    case Default => Some(LagosDayEnd(now))
    case Given(t) => t
  }

  /** `isWithinTimeframe(date, begin, end)` on the three separately built moments of a
      run: an article is inside exactly when all three dates are valid and it falls
      strictly between the bounds. */
  function InWindow(instant: Option<int>, begin: Option<int>, end: Option<int>): (r: bool)
    ensures r <==> instant.Some? && begin.Some? && end.Some? && begin.value < instant.value < end.value
  {
    IsWithinTimeframe(Moment(0, instant), Moment(1, begin), Moment(2, end))
  }

  /** With the default bounds an article is inside the window exactly when it was
      published on the Lagos calendar day of the run, other than at its first or last
      millisecond. */
  lemma DefaultWindowIsToday(t: int, now: int)
    ensures InWindow(Some(t), Begin(Default, now), End(Default, now)) <==>
            LagosDay(t) == LagosDay(now) && LagosDayStart(now) < t < LagosDayEnd(now)
  {
    var s := LagosDayStart(now);
    assert LagosDay(now) * DayMs == s + LagosOffsetMs;
    if s < t < LagosDayEnd(now) {
      DayOf(t, s);
    }
  }

  /** An instant within a day of a day's start lies on that day. */
  lemma DayOf(t: int, s: int)
    requires (s + LagosOffsetMs) % DayMs == 0 && s <= t < s + DayMs
    ensures LagosDay(t) == (s + LagosOffsetMs) / DayMs
  {
    var q := (s + LagosOffsetMs) / DayMs;
    assert s + LagosOffsetMs == q * DayMs;
    assert q * DayMs <= t + LagosOffsetMs < (q + 1) * DayMs;
  }

  // ---------------------------------------------------------------------------
  // The listing and the fetches
  // ---------------------------------------------------------------------------

  /** The listing's links: the static scraper keeps only the links whose `href`
      attribute is present and non-empty; in the browser every matched element's
      `href` property is taken, which is empty for an anchor without one. */
  function ListingUrls(a: Adapter, hrefs: seq<Option<string>>): (r: seq<string>)
    ensures UsesBrowser(a) ==> |r| == |hrefs|
    ensures !UsesBrowser(a) ==> |r| <= |hrefs| && forall k :: 0 <= k < |r| ==> r[k] != ""
  {
    if UsesBrowser(a) then seq(|hrefs|, k requires 0 <= k < |hrefs| => hrefs[k].GetOr(""))
    else TruthyHrefs(hrefs)
  }

  /** The present, non-empty links, in listing order. */
  function TruthyHrefs(hrefs: seq<Option<string>>): (r: seq<string>)
    ensures |r| <= |hrefs|
    ensures forall k :: 0 <= k < |r| ==> r[k] != ""
  {
    if hrefs == [] then []
    else (if Truthy(hrefs[0]) then [hrefs[0].value] else []) + TruthyHrefs(hrefs[1..])
  }

  /** Reading two listings one after the other keeps the links of each, in order; a
      listing of only usable links loses none. */
  lemma {:induction false} TruthyHrefsAppend(h1: seq<Option<string>>, h2: seq<Option<string>>)
    ensures TruthyHrefs(h1 + h2) == TruthyHrefs(h1) + TruthyHrefs(h2)
    decreases |h1|
  {
    if h1 != [] {
      assert (h1 + h2)[1..] == h1[1..] + h2;
      TruthyHrefsAppend(h1[1..], h2);
    } else {
      assert h1 + h2 == h2;
    }
  }

  lemma {:induction false} AllTruthyKept(hrefs: seq<Option<string>>)
    requires forall k :: 0 <= k < |hrefs| ==> Truthy(hrefs[k])
    ensures |TruthyHrefs(hrefs)| == |hrefs|
    ensures forall k :: 0 <= k < |hrefs| ==> hrefs[k] == Some(TruthyHrefs(hrefs)[k])
    decreases |hrefs|
  {
    if hrefs != [] {
      AllTruthyKept(hrefs[1..]);
    }
  }

  /** The settled fetch of one article page: rejected, or fulfilled and read by the
      adapter's `postCreator`. */
  datatype Fetch = Failed | Fetched(article: Article)

  /** The fulfilled articles in listing order, each with its own link. */
  function Fulfilled(urls: seq<string>, fetches: seq<Fetch>): (r: seq<(string, Article)>)
    requires |urls| == |fetches|
    ensures |r| <= |fetches|
  {
    if fetches == [] then []
    else (if fetches[0].Fetched? then [(urls[0], fetches[0].article)] else []) + Fulfilled(urls[1..], fetches[1..])
  }

  /** The fulfilled articles in listing order, without their links. */
  function FetchedArticles(fetches: seq<Fetch>): (r: seq<Article>)
    ensures |r| <= |fetches|
  {
    if fetches == [] then []
    else (if fetches[0].Fetched? then [fetches[0].article] else []) + FetchedArticles(fetches[1..])
  }

  /** The pairing as written: the `i`-th fulfilled article takes the `i`-th link of the
      listing, whichever link it was fetched from. */
  function FulfilledAsWritten(urls: seq<string>, fetches: seq<Fetch>): (r: seq<(string, Article)>)
    requires |urls| == |fetches|
    ensures |r| == |FetchedArticles(fetches)|
  {
    var arts := FetchedArticles(fetches);
    seq(|arts|, k requires 0 <= k < |arts| => (urls[k], arts[k]))
  }

  /** Both pairings carry the same articles in the same order; they differ only in the
      links. */
  lemma {:induction false} SameArticles(urls: seq<string>, fetches: seq<Fetch>)
    requires |urls| == |fetches|
    ensures |Fulfilled(urls, fetches)| == |FetchedArticles(fetches)|
    ensures forall k :: 0 <= k < |FetchedArticles(fetches)| ==> Fulfilled(urls, fetches)[k].1 == FetchedArticles(fetches)[k]
    decreases |fetches|
  {
    if fetches != [] {
      SameArticles(urls[1..], fetches[1..]);
    }
  }

  /** When no fetch failed, the pairing as written is the intended one. */
  lemma {:induction false} NoFailureNoShift(urls: seq<string>, fetches: seq<Fetch>)
    requires |urls| == |fetches| && forall k :: 0 <= k < |fetches| ==> fetches[k].Fetched?
    ensures FulfilledAsWritten(urls, fetches) == Fulfilled(urls, fetches)
    decreases |fetches|
  {
    AllFetched(urls, fetches);
  }

  lemma {:induction false} AllFetched(urls: seq<string>, fetches: seq<Fetch>)
    requires |urls| == |fetches| && forall k :: 0 <= k < |fetches| ==> fetches[k].Fetched?
    ensures |Fulfilled(urls, fetches)| == |FetchedArticles(fetches)| == |fetches|
    ensures forall k :: 0 <= k < |fetches| ==> Fulfilled(urls, fetches)[k] == (urls[k], fetches[k].article)
    ensures forall k :: 0 <= k < |fetches| ==> FetchedArticles(fetches)[k] == fetches[k].article
    decreases |fetches|
  {
    if fetches != [] {
      AllFetched(urls[1..], fetches[1..]);
    }
  }

  /** As written, one rejected fetch shifts the links: with the first of two fetches
      rejected, the second article is stored with the first article's link. */
  lemma FailedFetchShiftsUrls(art: Article)
    ensures FulfilledAsWritten(["a", "b"], [Failed, Fetched(art)]) == [("a", art)]
    ensures Fulfilled(["a", "b"], [Failed, Fetched(art)]) == [("b", art)]
  {
    var urls: seq<string>, fetches := ["a", "b"], [Failed, Fetched(art)];
    assert FetchedArticles(fetches[1..][1..]) == [];
    assert FetchedArticles(fetches) == [art];
    assert urls[1..] == ["b"] && fetches[1..] == [Fetched(art)];
    assert Fulfilled(urls[1..][1..], fetches[1..][1..]) == [];
  }

  // ---------------------------------------------------------------------------
  // Acceptance
  // ---------------------------------------------------------------------------

  /** What decides, in one run, whether an article is kept and how it is stored: the
      store as the run found it (after the source was resolved), the source, the titles
      `getPost` finds for it there, the link prefix, the adapter's test and the window. */
  datatype Gate = Gate(db: Db, src: Id, known: set<string>, prefix: Option<string>, check: Check,
                       begin: Option<int>, end: Option<int>)

  /** `{title, src}`. */
  function TitleSrc(title: string, src: Id): Filter {
    map["title" := Eq(Str(title)), "src" := Eq(Ref(src))]
  }

  /** `getPost({title, src})` finds a post: this source already has a non-deleted post
      with this title. */
  predicate Known(db: Db, src: Id, title: string) {
    GetPost(db, TitleSrc(title, src), NoRegex()).Some?
  }

  /** The titles `getPost({title, src})` finds for a source.  The store does not change
      while the loop runs, so the run may look them up once. */
  function KnownTitles(db: Db, src: Id): set<string> {
    set id | id in db.posts && Known(db, src, db.posts[id].title) :: db.posts[id].title
  }

  /** A title is among the known ones exactly when `getPost({title, src})` finds a post. */
  lemma KnownTitlesAre(db: Db, src: Id, title: string)
    ensures title in KnownTitles(db, src) <==> Known(db, src, title)
  {
    if Known(db, src, title) {
      var id := GetPost(db, TitleSrc(title, src), NoRegex()).value;
      SpreadKeeps(TitleSrc(title, src), NotDeleted(), id, db.posts[id], PostView, NoRegex());
      assert "title" in TitleSrc(title, src) && "title" !in NotDeleted();
      assert db.posts[id].title == title;
    }
  }

  /** An article is kept when its title is new for the source, it lies inside the
      window and it passes the adapter's test. */
  predicate Keeps(g: Gate, art: Article) {
    art.title !in g.known && InWindow(art.instant, g.begin, g.end) && Passes(g.check, art)
  }

  /** `{...post, src, url}` with the link behind the prefix, when there is one. */
  function DraftOf(g: Gate, url: string, art: Article): (d: PostDraft)
    ensures ArticleOf(d) == art && d.src == Some(g.src) && d.country.Some?
    ensures d.url == Some(if Truthy(g.prefix) then g.prefix.value + url else url)
  {
    var link := if Truthy(g.prefix) then g.prefix.value + url else url;
    PostDraft(art.title, art.content, art.instant, Some(g.src), Some(link), Some(art.country))
  }

  /** The article a draft was made from. */
  function ArticleOf(d: PostDraft): Article {
    Article(d.title, d.content, d.publishedAt, d.country.GetOr(""))
  }

  /** A draft the run may store: made for this source from an article it keeps. */
  predicate Admitted(g: Gate, d: PostDraft) {
    d.src == Some(g.src) && d.country.Some? && d.url.Some? && Keeps(g, ArticleOf(d))
  }

  /** The loop over the fulfilled articles: the drafts of the kept ones, in order. */
  function Accept(g: Gate, pairs: seq<(string, Article)>): (r: seq<PostDraft>)
    ensures |r| <= |pairs|
  {
    if pairs == [] then [] else Step(g, pairs[0]) + Accept(g, pairs[1..])
  }

  /** One turn of the loop: the draft of the article when the run keeps it. */
  function Step(g: Gate, pair: (string, Article)): (r: seq<PostDraft>)
    ensures |r| <= 1
  {
    if Keeps(g, pair.1) then [DraftOf(g, pair.0, pair.1)] else []
  }

  /** Every draft the loop produces is one the run may store. */
  lemma {:induction false} AcceptAdmitted(g: Gate, pairs: seq<(string, Article)>, k: nat)
    requires k < |Accept(g, pairs)|
    ensures Admitted(g, Accept(g, pairs)[k])
    decreases |pairs|
  {
    var head, tail := Step(g, pairs[0]), Accept(g, pairs[1..]);
    assert Accept(g, pairs) == head + tail;
    if k < |head| {
      var d := DraftOf(g, pairs[0].0, pairs[0].1);
      assert head == [d] && Keeps(g, pairs[0].1);
      assert Accept(g, pairs)[k] == d;
    } else {
      AcceptAdmitted(g, pairs[1..], k - |head|);
      assert Accept(g, pairs)[k] == tail[k - |head|];
    }
  }

  /** Running the loop over two stretches of articles keeps the drafts of each, in order. */
  lemma {:induction false} AcceptAppend(g: Gate, p1: seq<(string, Article)>, p2: seq<(string, Article)>)
    ensures Accept(g, p1 + p2) == Accept(g, p1) + Accept(g, p2)
    decreases |p1|
  {
    if p1 != [] {
      assert (p1 + p2)[0] == p1[0] && (p1 + p2)[1..] == p1[1..] + p2;
      AcceptAppend(g, p1[1..], p2);
    } else {
      assert p1 + p2 == p2;
    }
  }

  /** Every article the run keeps is among the drafts. */
  lemma {:induction false} AcceptKeepsEvery(g: Gate, pairs: seq<(string, Article)>, k: nat)
    requires k < |pairs| && Keeps(g, pairs[k].1)
    ensures DraftOf(g, pairs[k].0, pairs[k].1) in Accept(g, pairs)
    decreases k
  {
    if k > 0 {
      AcceptKeepsEvery(g, pairs[1..], k - 1);
    }
  }

  /** Nothing stored is re-checked during the run: two fulfilled articles with the same
      new title are both kept. */
  lemma SameTitleKeptTwice(g: Gate, u1: string, u2: string, art: Article)
    requires Keeps(g, art)
    ensures Accept(g, [(u1, art), (u2, art)]) == [DraftOf(g, u1, art), DraftOf(g, u2, art)]
  {
    var pairs := [(u1, art), (u2, art)];
    assert pairs[1..] == [(u2, art)] && pairs[1..][1..] == [];
  }

  // ---------------------------------------------------------------------------
  // The run
  // ---------------------------------------------------------------------------

  /** The Source record a run works with: the one stored under the publisher's name and
      country code, or else a new one with the registry's home URL as its search URL. */
  function ResolveSource(db: Db, a: Adapter): (r: Result<(Db, Id)>)
    requires Valid(db)
    ensures r.Ok?
    ensures var p := PublisherOf(a);
            var key := SourceKey(p.name, Some(Entry(a).0.code));
            && (GetSource(db, key, NoRegex()).Some? ==> r.value == (db, GetSource(db, key, NoRegex()).value))
            && (GetSource(db, key, NoRegex()).None? ==>
                  r == CreateSource(db, p.name, p.url, None, Some(Entry(a).0.code)))
    ensures Valid(r.value.0) && r.value.1 in r.value.0.sources && r.value.1 < r.value.0.next
  {
    var info := GetNewsSource(SourceOf(a));
    Registered(a);
    var key := SourceKey(info.name.value, Some(info.code));
    match GetSource(db, key, NoRegex())
    case Some(id) => Ok((db, id))
    case None =>
      SourceKeyFinds(db, info.name.value, Some(info.code));
      CreateSource(db, info.name.value, info.url.value, None, Some(info.code))
  }

  /** What `getNewsSource` answers for an adapter: its registry entry and its country's
      code. */
  lemma Registered(a: Adapter)
    ensures GetNewsSource(SourceOf(a)) == SourceInfo(Some(PublisherOf(a).url), Some(PublisherOf(a).name), Entry(a).0.code)
  {
    AdapterRegistered(a);
    EntryInRange(a);
    CountryByName(Entry(a).0);
  }

  /** `${source.searchUrl}${searchQuery}`: an absent search URL renders as "undefined". */
  function RequestUrl(searchUrl: Option<string>, query: string): string {
    searchUrl.GetOr("undefined") + query
  }

  /** The caller's options: the search term, the page and the two bounds. */
  datatype Params = Params(search: string, page: Option<string>, startTime: Bound, endTime: Bound)

  /** What a finished run reports: the source, the listing URL requested, the drafts
      kept and the ids they were stored under. */
  datatype Ingested = Ingested(src: Id, request: string, drafts: seq<PostDraft>, ids: seq<Id>)

  /** A run: the store afterwards, and what was stored or why the run failed.  The
      source record stays resolved even when the batch insert fails. */
  datatype Run = Run(db: Db, outcome: Result<Ingested>)

  /** The gate of a run on a store that already holds its source. */
  function GateOf(db: Db, src: Id, a: Adapter, params: Params, now: int): Gate {
    Gate(db, src, KnownTitles(db, src), UrlPrefix(a), CheckOf(a), Begin(params.startTime, now), End(params.endTime, now))
  }

  /** The store after the source is resolved, and the run's gate on it. */
  function Setup(db: Db, a: Adapter, params: Params, now: int): (r: (Db, Gate))
    requires Valid(db)
    ensures Valid(r.0) && r.1.db == r.0 && r.1.src in r.0.sources
  {
    var (db1, src) := ResolveSource(db, a).value;
    (db1, GateOf(db1, src, a, params, now))
  }

  /** One run of an adapter: `hrefs` are the listing's link attributes and `fetches` the
      settled fetch of each link the listing yields; `now` is the clock. */
  function Ingest(db: Db, a: Adapter, params: Params, hrefs: seq<Option<string>>, fetches: seq<Fetch>, now: int): (r: Run)
    requires Valid(db) && |fetches| == |ListingUrls(a, hrefs)|
    ensures Valid(r.db)
    ensures r.outcome.Ok? ==> var g := Setup(db, a, params, now).1;
                              Stored(g.db, g, FulfilledAsWritten(ListingUrls(a, hrefs), fetches), r.db, r.outcome.value)
  {
    var g := Setup(db, a, params, now).1;
    Finish(g.db, g, FulfilledAsWritten(ListingUrls(a, hrefs), fetches), Request(g, a, params), now)
  }

  /** `${source.searchUrl}${searchQuery}` for the run's source. */
  function Request(g: Gate, a: Adapter, params: Params): string
    requires g.src in g.db.sources
  {
    RequestUrl(g.db.sources[g.src].searchUrl, SearchQuery(a, params.search, params.page))
  }

  /** The rest of a run once the source is resolved: the kept drafts go to the store in
      one batch insert. */
  function Finish(db1: Db, g: Gate, pairs: seq<(string, Article)>, request: string, now: int): (r: Run)
    requires Valid(db1)
    ensures Valid(r.db)
    ensures r.outcome.Ok? ==> Stored(db1, g, pairs, r.db, r.outcome.value)
  {
    var drafts := Accept(g, pairs);
    var created := CreateMultiplePosts(db1, drafts, now);
    if created.Err? then Run(db1, Err(created.error))
    else
      InsertedKept(db1, g, pairs, now, created, request);
      Run(created.value.0, Ok(Ingested(g.src, request, drafts, created.value.1)))
  }

  /** A run fails exactly when a kept article has no title: the batch insert rejects
      it whole, and the store keeps only the source the run may have registered
      (`Ingest` is `Finish` on the store `Setup` leaves). */
  lemma FinishFailsOnUntitled(db1: Db, g: Gate, pairs: seq<(string, Article)>, request: string, now: int)
    requires Valid(db1)
    ensures var drafts := Accept(g, pairs);
            var r := Finish(db1, g, pairs, request, now);
            && (r.outcome.Ok? <==> forall k :: 0 <= k < |drafts| ==> drafts[k].title != "")
            && (r.outcome.Err? ==> r.db == db1)
  {
    var drafts := Accept(g, pairs);
    var r := Finish(db1, g, pairs, request, now);
    UntitledFails(db1, drafts, now);
    if CreateMultiplePosts(db1, drafts, now).Err? {
      assert r == Run(db1, Err(CreateMultiplePosts(db1, drafts, now).error));
      assert !(forall k :: 0 <= k < |drafts| ==> drafts[k].title != "");
    } else {
      assert r.outcome.Ok?;
    }
  }

  /** The batch insert succeeds exactly when every draft has a title. */
  lemma UntitledFails(db: Db, drafts: seq<PostDraft>, now: int)
    requires Valid(db)
    ensures CreateMultiplePosts(db, drafts, now).Ok? <==> forall k :: 0 <= k < |drafts| ==> drafts[k].title != ""
  {
  }

  /** A run that stored its batch: the drafts are the kept fulfilled articles, each
      stored as a new pending post of the run's source under consecutive fresh ids, and
      every post stored before is unchanged. */
  predicate Stored(db1: Db, g: Gate, pairs: seq<(string, Article)>, db2: Db, out: Ingested) {
    && out.src == g.src
    && out.drafts == Accept(g, pairs)
    && |out.ids| == |out.drafts|
    && (forall k :: 0 <= k < |out.ids| ==>
         && out.ids[k] == db1.next + k && out.ids[k] !in db1.posts && out.ids[k] in db2.posts
         && StoredAs(g, out.drafts[k], db2.posts[out.ids[k]]))
    && (forall id :: id in db1.posts ==> id in db2.posts && db2.posts[id] == db1.posts[id])
  }

  /** A stored post made from an admitted draft: pending, unprocessed, undeleted, of the
      run's source, with the draft's title, link and publish instant, and kept by the
      run's test. */
  predicate StoredAs(g: Gate, d: PostDraft, p: Post) {
    && p.status == Pending && !p.isProcessed && !p.isDeleted && p.src == Some(g.src)
    && p.title == d.title && p.url == d.url && Some(p.publishedAt) == d.publishedAt
    && Keeps(g, ArticleOf(d))
  }

  /** The batch insert of the kept drafts stores each as `StoredAs` says. */
  lemma InsertedKept(db1: Db, g: Gate, pairs: seq<(string, Article)>, now: int,
                     created: Result<(Db, seq<Id>)>, request: string)
    requires Valid(db1) && created == CreateMultiplePosts(db1, Accept(g, pairs), now) && created.Ok?
    ensures Stored(db1, g, pairs, created.value.0, Ingested(g.src, request, Accept(g, pairs), created.value.1))
  {
    var drafts := Accept(g, pairs);
    var (db2, ids) := created.value;
    forall k | 0 <= k < |ids|
      ensures ids[k] == db1.next + k && ids[k] !in db1.posts && ids[k] in db2.posts && StoredAs(g, drafts[k], db2.posts[ids[k]])
    {
      AcceptAdmitted(g, pairs, k);
      StoredAt(db1, g, drafts, now, created, k);
    }
  }

  /** The post stored for one draft of the batch. */
  lemma StoredAt(db1: Db, g: Gate, drafts: seq<PostDraft>, now: int, created: Result<(Db, seq<Id>)>, k: nat)
    requires Valid(db1) && created == CreateMultiplePosts(db1, drafts, now) && created.Ok?
    requires k < |drafts| && Admitted(g, drafts[k])
    ensures var (db2, ids) := created.value;
            ids[k] == db1.next + k && ids[k] !in db1.posts && ids[k] in db2.posts && StoredAs(g, drafts[k], db2.posts[ids[k]])
  {
    var (db2, ids) := created.value;
    assert ids[k] == db1.next + k;
    assert db2.posts[ids[k]] == NewPost(drafts[k], now).value;
    StoredOne(g, drafts[k], now, db2.posts[ids[k]]);
  }

  /** The post made from an admitted draft. */
  lemma StoredOne(g: Gate, d: PostDraft, now: int, p: Post)
    requires Admitted(g, d) && NewPost(d, now).Ok? && p == NewPost(d, now).value
    ensures StoredAs(g, d, p)
  {
    assert InWindow(d.publishedAt, g.begin, g.end);
  }
}

=== FILE: js_string.dfy ===
/**
 * The ECMAScript string primitives the services are written in: `trim`,
 * `indexOf`/`includes`, `split` and `join` on a string separator, `replaceAll`
 * with a string pattern, and ASCII case mapping.  Each is defined once here and
 * every other module builds on these definitions.
 */
module JsString {
  import opened Wrappers

  /** The WhiteSpace and LineTerminator code points of ECMA-262 (section 12.2 and 12.3):
      what `String.prototype.trim`, the regular-expression class `\s` and `parseInt` skip. */
  predicate IsSpace(c: char) {
    || c == '\t' || c == '\n' || c == '\U{B}' || c == '\U{C}' || c == '\r' || c == ' '
    || c == '\U{A0}' || c == '\U{1680}' || ('\U{2000}' <= c <= '\U{200A}')
    || c == '\U{2028}' || c == '\U{2029}' || c == '\U{202F}' || c == '\U{205F}'
    || c == '\U{3000}' || c == '\U{FEFF}'
  }

  /** The regular-expression class `\w`. */
  predicate IsWordChar(c: char) {
    ('a' <= c <= 'z') || ('A' <= c <= 'Z') || ('0' <= c <= '9') || c == '_'
  }

  predicate IsDigit(c: char) {
    '0' <= c <= '9'
  }

  /** A string option JavaScript treats as true: present and not empty. */
  predicate Truthy(o: Option<string>) {
    o.Some? && o.value != ""
  }

  /** A string with no leading and no trailing white space. */
  predicate Trimmed(s: string) {
    s == [] || (!IsSpace(s[0]) && !IsSpace(s[|s| - 1]))
  }

  function TrimStart(s: string): (r: string)
    ensures |r| <= |s| && r == s[|s| - |r|..]
    ensures forall k :: 0 <= k < |s| - |r| ==> IsSpace(s[k])
    ensures r == [] || !IsSpace(r[0])
  {
    if s != [] && IsSpace(s[0]) then TrimStart(s[1..]) else s
  }

  function TrimEnd(s: string): (r: string)
    ensures |r| <= |s| && r == s[..|r|]
    ensures forall k :: |r| <= k < |s| ==> IsSpace(s[k])
    ensures r == [] || !IsSpace(r[|r| - 1])
  {
    if s != [] && IsSpace(s[|s| - 1]) then TrimEnd(s[..|s| - 1]) else s
  }

  /** `String.prototype.trim`: the longest slice of `s` that neither starts nor ends with
      white space, everything cut away on either side being white space. */
  function Trim(s: string): (r: string)
    ensures Trimmed(r)
    ensures exists i, j :: CutsOnlySpace(s, r, i, j)
  {
    var t := TrimStart(s);
    var r := TrimEnd(t);
    var i := |s| - |t|;
    TrimWitness(s, t, r, i);
    assert CutsOnlySpace(s, r, i, i + |r|);
    r
  }

  /** `r` is the slice `s[i..j]` and everything outside it is white space. */
  predicate CutsOnlySpace(s: string, r: string, i: int, j: int) {
    && 0 <= i <= j <= |s| && r == s[i..j]
    && (forall k :: 0 <= k < i ==> IsSpace(s[k]))
    && (forall k :: j <= k < |s| ==> IsSpace(s[k]))
  }

  /** The slice bounds that `Trim` cuts at: `t` is `s` without its first `i` characters,
      all white space, and `r` is a prefix of `t` followed only by white space. */
  lemma TrimWitness(s: string, t: string, r: string, i: nat)
    requires i <= |s| && t == s[i..] && |r| <= |t| && r == t[..|r|]
    requires forall k :: |r| <= k < |t| ==> IsSpace(t[k])
    ensures r == s[i..i + |r|]
    ensures forall k :: i + |r| <= k < |s| ==> IsSpace(s[k])
  {
    forall k | i + |r| <= k < |s|
      ensures IsSpace(s[k])
    {
      assert s[k] == t[k - i];
    }
  }

  lemma TrimOfTrimmed(s: string)
    requires Trimmed(s)
    ensures Trim(s) == s
  {
  }

  /** `isEmpty` on a string: nothing but white space.  The validation helpers file is
      not part of this model; its `isEmpty` is read as "empty once trimmed". */
  predicate IsBlank(s: string) {
    forall k :: 0 <= k < |s| ==> IsSpace(s[k])
  }

  /** Blank strings are exactly those that trim to the empty string. */
  lemma BlankIffTrimsEmpty(s: string)
    ensures IsBlank(s) <==> Trim(s) == ""
  {
    var r := Trim(s);
    var i, j :| CutsOnlySpace(s, r, i, j);
    if r == "" {
      assert i == j;
      forall k | 0 <= k < |s|
        ensures IsSpace(s[k])
      {
        if k >= i {
          assert k >= j;
        }
      }
    }
  }

  /** `pat` occurs in `s` starting at position `i`. */
  predicate OccursAt(s: string, pat: string, i: nat) {
    i + |pat| <= |s| && s[i..i + |pat|] == pat
  }

  function IndexFrom(s: string, pat: string, from: nat): (r: Option<nat>)
    ensures r.Some? ==> from <= r.value && OccursAt(s, pat, r.value)
    ensures r.Some? ==> forall k :: from <= k < r.value ==> !OccursAt(s, pat, k)
    ensures r.None? ==> forall k :: from <= k ==> !OccursAt(s, pat, k)
    decreases |s| - from
  {
    if from + |pat| > |s| then None
    else if s[from..from + |pat|] == pat then Some(from)
    else IndexFrom(s, pat, from + 1)
  }

  /** `s.indexOf(pat)`: the first position at which `pat` occurs, if any. */
  function IndexOf(s: string, pat: string): (r: Option<nat>)
    ensures r.Some? ==> (OccursAt(s, pat, r.value)
                         && forall k :: 0 <= k < r.value ==> !OccursAt(s, pat, k))
    ensures r.None? <==> forall k :: 0 <= k ==> !OccursAt(s, pat, k)
  {
    IndexFrom(s, pat, 0)
  }

  /** `s.includes(pat)`. */
  predicate Contains(s: string, pat: string) {
    IndexOf(s, pat).Some?
  }

  lemma ContainsAt(s: string, pat: string, i: nat)
    requires OccursAt(s, pat, i)
    ensures Contains(s, pat)
  {
  }

  lemma SliceOfSlice(s: string, a: nat, b: nat, c: nat, d: nat)
    requires a <= b <= |s| && c <= d <= b - a
    ensures s[a..b][c..d] == s[a + c..a + d]
  {
    forall k | 0 <= k < d - c
      ensures s[a..b][c..d][k] == s[a + c..a + d][k]
    {
    }
  }

  /** A substring of a string free of `pat` is free of `pat`. */
  lemma NotContainsSlice(s: string, pat: string, a: nat, b: nat)
    requires a <= b <= |s| && !Contains(s, pat)
    ensures !Contains(s[a..b], pat)
  {
    if Contains(s[a..b], pat) {
      var k := IndexOf(s[a..b], pat).value;
      SliceOfSlice(s, a, b, k, k + |pat|);
      ContainsAt(s, pat, a + k);
    }
  }

  /** `parts.join(sep)`. */
  function Join(parts: seq<string>, sep: string): string {
    if |parts| == 0 then ""
    else if |parts| == 1 then parts[0]
    else parts[0] + sep + Join(parts[1..], sep)
  }

  /** `s.split(sep)` for a non-empty string separator: the pieces between the
      left-to-right, non-overlapping occurrences of `sep`.  There is always at least one
      piece, joining the pieces back with `sep` gives `s`, and no piece contains `sep`. */
  function Split(s: string, sep: string): (r: seq<string>)
    requires |sep| > 0
    ensures |r| >= 1
    ensures Join(r, sep) == s
    ensures forall k :: 0 <= k < |r| ==> !Contains(r[k], sep)
    decreases |s|
  {
    match IndexOf(s, sep)
    case None =>
      [s]
    case Some(i) =>
      var rest := Split(s[i + |sep|..], sep);
      BeforeFirstFree(s, sep, i);
      SplitStep(s, sep, i, rest);
      [s[..i]] + rest
  }

  /** The recursive case of `Split`: the text before the first occurrence, then the pieces
      of the text after it. */
  lemma SplitStep(s: string, sep: string, i: nat, rest: seq<string>)
    requires OccursAt(s, sep, i) && !Contains(s[..i], sep)
    requires |rest| >= 1 && Join(rest, sep) == s[i + |sep|..]
    requires forall k :: 0 <= k < |rest| ==> !Contains(rest[k], sep)
    ensures Join([s[..i]] + rest, sep) == s
    ensures forall k :: 0 <= k < |rest| + 1 ==> !Contains(([s[..i]] + rest)[k], sep)
  {
    JoinCons(s[..i], rest, sep);
    AroundOccurrence(s, sep, i);
    forall k | 0 <= k < |rest| + 1
      ensures !Contains(([s[..i]] + rest)[k], sep)
    {
      if k > 0 {
        assert ([s[..i]] + rest)[k] == rest[k - 1];
      }
    }
  }

  /** A string is the text before an occurrence, the occurrence, and the text after it. */
  lemma AroundOccurrence(s: string, pat: string, i: nat)
    requires OccursAt(s, pat, i)
    ensures s == s[..i] + pat + s[i + |pat|..]
  {
  }

  /** The text before the first occurrence of `sep` is free of it. */
  lemma BeforeFirstFree(s: string, sep: string, i: nat)
    requires |sep| > 0 && IndexOf(s, sep) == Some(i)
    ensures !Contains(s[..i], sep)
  {
    forall k | 0 <= k && OccursAt(s[..i], sep, k)
      ensures OccursAt(s, sep, k) && k < i
    {
      SliceOfSlice(s, 0, i, k, k + |sep|);
    }
  }

  /** Splitting a string that does not contain the separator gives the string alone. */
  lemma SplitWithout(s: string, sep: string)
    requires |sep| > 0 && !Contains(s, sep)
    ensures Split(s, sep) == [s]
  {
  }

  /** Splitting `a + sep + b`, where the first occurrence of `sep` is the one after `a`,
      gives `a` followed by the pieces of `b`. */
  lemma SplitAfter(a: string, sep: string, b: string)
    requires |sep| > 0
    requires forall k :: 0 <= k < |a| ==> !OccursAt(a + sep + b, sep, k)
    ensures Split(a + sep + b, sep) == [a] + Split(b, sep)
  {
    var s := a + sep + b;
    assert OccursAt(s, sep, |a|);
    assert IndexOf(s, sep) == Some(|a|);
    assert s[..|a|] == a;
    assert s[|a| + |sep|..] == b;
  }

  /** A single-character separator that does not occur in `a` is first found after `a`. */
  lemma SplitAfterChar(a: string, c: char, b: string)
    requires c !in a
    ensures Split(a + [c] + b, [c]) == [a] + Split(b, [c])
  {
    var s := a + [c] + b;
    forall k | 0 <= k < |a|
      ensures !OccursAt(s, [c], k)
    {
      assert s[k] == a[k];
    }
    SplitAfter(a, [c], b);
  }

  /** A character kept out of every part and of the separator is kept out of the join. */
  lemma {:induction false} JoinAvoids(parts: seq<string>, sep: string, c: char)
    requires c !in sep && forall k :: 0 <= k < |parts| ==> c !in parts[k]
    ensures c !in Join(parts, sep)
    decreases |parts|
  {
    if |parts| > 1 {
      JoinAvoids(parts[1..], sep, c);
    }
  }

  /** Splitting a join on a separator that begins with a character none of the parts
      contains gives the parts back. */
  lemma {:induction false} SplitJoin(parts: seq<string>, sep: string)
    requires |parts| >= 1 && |sep| > 0
    requires forall k :: 0 <= k < |parts| ==> sep[0] !in parts[k]
    ensures Split(Join(parts, sep), sep) == parts
    decreases |parts|
  {
    if |parts| == 1 {
      forall k | 0 <= k
        ensures !OccursAt(parts[0], sep, k)
      {
        if k < |parts[0]| {
          assert parts[0][k] != sep[0];
        }
      }
      SplitWithout(parts[0], sep);
    } else {
      var a := parts[0];
      var b := Join(parts[1..], sep);
      forall k | 0 <= k < |a|
        ensures !OccursAt(a + sep + b, sep, k)
      {
        assert (a + sep + b)[k] == a[k] != sep[0];
      }
      SplitAfter(a, sep, b);
      SplitJoin(parts[1..], sep);
      assert parts == [a] + parts[1..];
    }
  }

  /** `s.replaceAll(pat, rep)` for a non-empty string pattern: every left-to-right,
      non-overlapping occurrence of `pat` replaced by `rep`. */
  function ReplaceAll(s: string, pat: string, rep: string): string
    requires |pat| > 0
  {
    Join(Split(s, pat), rep)
  }

  /** Reference definition of replacing one character: each occurrence of `c`
      becomes `rep`, every other character stays where it is. */
  function SubstChar(s: string, c: char, rep: string): (r: string)
    ensures c !in s ==> r == s
  {
    if s == [] then [] else (if s[0] == c then rep else [s[0]]) + SubstChar(s[1..], c, rep)
  }

  lemma {:induction false} SubstCharAppend(a: string, b: string, c: char, rep: string)
    ensures SubstChar(a + b, c, rep) == SubstChar(a, c, rep) + SubstChar(b, c, rep)
  {
    if a != [] {
      assert (a + b)[1..] == a[1..] + b;
      SubstCharAppend(a[1..], b, c, rep);
    } else {
      assert a + b == b;
    }
  }

  lemma JoinCons(a: string, rest: seq<string>, sep: string)
    requires |rest| >= 1
    ensures Join([a] + rest, sep) == a + sep + Join(rest, sep)
  {
    assert ([a] + rest)[1..] == rest;
  }

  /** The first piece of splitting on a character is free of it, and what follows it is
      the split of the text after the first occurrence. */
  lemma SplitFirstChar(s: string, c: char, i: nat)
    requires IndexOf(s, [c]) == Some(i)
    ensures s == s[..i] + [c] + s[i + 1..]
    ensures c !in s[..i]
    ensures Split(s, [c]) == [s[..i]] + Split(s[i + 1..], [c])
  {
    assert s[i..i + 1] == [c];
    forall k | 0 <= k < i ensures s[k] != c {
      assert s[k..k + 1] == [s[k]];
      assert !OccursAt(s, [c], k);
    }
  }

  lemma CharNotFound(s: string, c: char)
    requires IndexOf(s, [c]).None?
    ensures c !in s
  {
    forall k | 0 <= k < |s| ensures s[k] != c {
      assert s[k..k + 1] == [s[k]];
      assert !OccursAt(s, [c], k);
    }
  }

  /** One step of the substitution: the text up to the first `c`, then `rep`, then the rest. */
  lemma ReplaceCharStep(s: string, c: char, rep: string, i: nat)
    requires IndexOf(s, [c]) == Some(i)
    requires ReplaceAll(s[i + 1..], [c], rep) == SubstChar(s[i + 1..], c, rep)
    ensures ReplaceAll(s, [c], rep) == SubstChar(s, c, rep)
  {
    var a, b := s[..i], s[i + 1..];
    SplitFirstChar(s, c, i);
    calc {
      ReplaceAll(s, [c], rep);
      Join(Split(s, [c]), rep);
      Join([a] + Split(b, [c]), rep);
      { JoinCons(a, Split(b, [c]), rep); }
      a + rep + Join(Split(b, [c]), rep);
      a + rep + SubstChar(b, c, rep);
      { SubstAround(a, c, b, rep); }
      SubstChar(a + [c] + b, c, rep);
    }
  }

  lemma SubstAround(a: string, c: char, b: string, rep: string)
    requires c !in a
    ensures SubstChar(a + [c] + b, c, rep) == a + rep + SubstChar(b, c, rep)
  {
    assert a + [c] + b == a + ([c] + b);
    SubstCharAppend(a, [c] + b, c, rep);
    assert ([c] + b)[1..] == b;
  }

  /** `replaceAll` with a one-character pattern is the per-character substitution. */
  lemma {:induction false} ReplaceCharIsSubst(s: string, c: char, rep: string)
    ensures ReplaceAll(s, [c], rep) == SubstChar(s, c, rep)
    decreases |s|
  {
    match IndexOf(s, [c])
    case None =>
      ReplaceCharAbsent(s, c, rep);
    case Some(i) =>
      ReplaceCharIsSubst(s[i + 1..], c, rep);
      ReplaceCharStep(s, c, rep, i);
  }

  lemma ReplaceCharAbsent(s: string, c: char, rep: string)
    requires IndexOf(s, [c]).None?
    ensures ReplaceAll(s, [c], rep) == SubstChar(s, c, rep)
  {
    CharNotFound(s, c);
    SplitWithout(s, [c]);
  }

  /** ASCII case mapping (the only mapping this model gives `toLowerCase`/`toUpperCase`). */
  function LowerChar(c: char): char {
    if 'A' <= c <= 'Z' then (c as int + 32) as char else c
  }

  function UpperChar(c: char): char {
    if 'a' <= c <= 'z' then (c as int - 32) as char else c
  }

  function ToLower(s: string): (r: string)
    ensures |r| == |s|
    ensures forall k :: 0 <= k < |s| ==> r[k] == LowerChar(s[k])
  {
    if s == [] then [] else [LowerChar(s[0])] + ToLower(s[1..])
  }

  /** Decimal rendering of a natural number, as `String(n)` gives it. */
  function NatToString(n: nat): (r: string)
    ensures |r| >= 1 && forall k :: 0 <= k < |r| ==> IsDigit(r[k])
    ensures r[0] == '0' ==> n == 0
  {
    if n < 10 then [('0' as int + n) as char]
    else NatToString(n / 10) + [('0' as int + n % 10) as char]
  }
}

=== FILE: misc.dfy ===
/**
 * The small text and time helpers the scrapers and the activity generator share:
 * title casing, line-break sanitising, the timeframe test, and the lookup of a news
 * source's home URL, display name and country code.
 */
module Misc {
  import opened Wrappers
  import opened JsString
  import opened Constants

  // ---------------------------------------------------------------------------
  // toTitleCase: `str.replace(/\w\S*/g, w => upper(w[0]) + lower(w[1..]))`
  // ---------------------------------------------------------------------------

  /** The regular-expression scan as a two-state machine: `inWord` holds while the scan
      is inside a match of `\w\S*`.  A match starts at a word character when outside a
      word, and extends over every following non-white-space character. */
  function Step(inWord: bool, c: char): bool {
    if inWord then !IsSpace(c) else IsWordChar(c)
  }

  /** How the scan rewrites character `c` when it reaches it in state `inWord`. */
  function Mark(inWord: bool, c: char): char {
    if !inWord && IsWordChar(c) then UpperChar(c)
    else if inWord && !IsSpace(c) then LowerChar(c)
    else c
  }

  function TitleFrom(s: string, inWord: bool): (r: string)
    ensures |r| == |s|
  {
    if s == [] then [] else [Mark(inWord, s[0])] + TitleFrom(s[1..], Step(inWord, s[0]))
  }

  /** `toTitleCase`: every match of `\w\S*` gets its first character upper-cased and the
      rest lower-cased; everything between matches is copied. */
  function ToTitleCase(s: string): (r: string)
    ensures |r| == |s|
  {
    TitleFrom(s, false)
  }

  /** The scan's state on reaching position `i`. */
  function StateAt(s: string, inWord: bool, i: nat): bool
    requires i <= |s|
  {
    if i == 0 then inWord else StateAt(s[1..], Step(inWord, s[0]), i - 1)
  }

  /** Position `i` lies inside a match of `\w\S*` that started before it: some earlier
      word character is followed, up to `i`, by non-white-space only. */
  ghost predicate InWord(s: string, i: nat)
    requires i <= |s|
  {
    exists j :: 0 <= j < i && IsWordChar(s[j]) && NoSpaceBetween(s, j, i)
  }

  ghost predicate NoSpaceBetween(s: string, j: nat, i: nat)
    requires j <= i <= |s|
  {
    forall k :: j <= k < i ==> !IsSpace(s[k])
  }

  lemma {:induction false} TitleFromAt(s: string, inWord: bool, i: nat)
    requires i < |s|
    ensures TitleFrom(s, inWord)[i] == Mark(StateAt(s, inWord, i), s[i])
    decreases i
  {
    if i > 0 {
      TitleFromAt(s[1..], Step(inWord, s[0]), i - 1);
    }
  }

  lemma {:induction false} StateAtNext(s: string, inWord: bool, i: nat)
    requires i < |s|
    ensures StateAt(s, inWord, i + 1) == Step(StateAt(s, inWord, i), s[i])
    decreases i
  {
    if i > 0 {
      StateAtNext(s[1..], Step(inWord, s[0]), i - 1);
    }
  }

  /** The machine's state from the start of a string is exactly "inside a word". */
  lemma {:induction false} StateIsInWord(s: string, i: nat)
    requires i <= |s|
    ensures StateAt(s, false, i) <==> InWord(s, i)
    decreases i
  {
    if i > 0 {
      var p := i - 1;
      StateIsInWord(s, p);
      StateAtNext(s, false, p);
      if !IsSpace(s[p]) {
        if InWord(s, p) {
          var j :| 0 <= j < p && IsWordChar(s[j]) && NoSpaceBetween(s, j, p);
          assert NoSpaceBetween(s, j, i);
        }
        if IsWordChar(s[p]) {
          assert NoSpaceBetween(s, p, i);
        }
        if InWord(s, i) {
          var j :| 0 <= j < i && IsWordChar(s[j]) && NoSpaceBetween(s, j, i);
          if j < p {
            assert NoSpaceBetween(s, j, p);
          }
        }
      }
    }
  }

  /** Title casing character by character: a word character that does not continue a
      word is upper-cased, a non-white-space character inside a word is lower-cased,
      and every other character is kept. */
  lemma TitleCaseAt(s: string, i: nat)
    requires i < |s|
    ensures ToTitleCase(s)[i] ==
      (if !InWord(s, i) && IsWordChar(s[i]) then UpperChar(s[i])
       else if InWord(s, i) && !IsSpace(s[i]) then LowerChar(s[i])
       else s[i])
  {
    TitleFromAt(s, false, i);
    StateIsInWord(s, i);
  }

  lemma {:induction false} TitleFromTwice(s: string, inWord: bool)
    ensures TitleFrom(TitleFrom(s, inWord), inWord) == TitleFrom(s, inWord)
    decreases |s|
  {
    if s != [] {
      var t := TitleFrom(s, inWord);
      assert t[0] == Mark(inWord, s[0]) && t[1..] == TitleFrom(s[1..], Step(inWord, s[0]));
      assert Step(inWord, t[0]) == Step(inWord, s[0]);
      TitleFromTwice(s[1..], Step(inWord, s[0]));
    }
  }

  /** Title casing is idempotent. */
  lemma TitleCaseIdempotent(s: string)
    ensures ToTitleCase(ToTitleCase(s)) == ToTitleCase(s)
  {
    TitleFromTwice(s, false);
  }

  // ---------------------------------------------------------------------------
  // sanitizeText: `str.replace(/(\r\n|\n|\r)/gm, '').trim()`
  // ---------------------------------------------------------------------------

  predicate IsLineBreak(c: char) {
    c == '\r' || c == '\n'
  }

  /** The regular-expression scan `/(\r\n|\n|\r)/g`: at each position the alternatives
      are tried in order, a match is dropped and the scan continues after it. */
  function StripLineBreaks(s: string): (r: string)
    ensures |r| <= |s|
  {
    if s == [] then []
    else if |s| >= 2 && s[0] == '\r' && s[1] == '\n' then StripLineBreaks(s[2..])
    else if s[0] == '\n' || s[0] == '\r' then StripLineBreaks(s[1..])
    else [s[0]] + StripLineBreaks(s[1..])
  }

  /** Reference definition: the characters of `s` that are not line breaks, in order. */
  function WithoutLineBreaks(s: string): (r: string)
    ensures forall k :: 0 <= k < |r| ==> !IsLineBreak(r[k])
    ensures |r| <= |s|
  {
    if s == [] then []
    else if IsLineBreak(s[0]) then WithoutLineBreaks(s[1..])
    else [s[0]] + WithoutLineBreaks(s[1..])
  }

  /** The scan drops exactly the line-break characters: the `\r\n` alternative removes
      nothing that the single-character alternatives would not. */
  lemma {:induction false} StripIsFilter(s: string)
    ensures StripLineBreaks(s) == WithoutLineBreaks(s)
    decreases |s|
  {
    if s != [] {
      if |s| >= 2 && s[0] == '\r' && s[1] == '\n' {
        StripIsFilter(s[2..]);
        assert s[1..][1..] == s[2..];
      } else {
        StripIsFilter(s[1..]);
      }
    }
  }

  /** `sanitizeText`: the text without line breaks, then trimmed. */
  function SanitizeText(s: string): (r: string)
    ensures forall k :: 0 <= k < |r| ==> !IsLineBreak(r[k])
    ensures Trimmed(r)
    ensures exists i, j :: CutsOnlySpace(WithoutLineBreaks(s), r, i, j)
  {
    StripIsFilter(s);
    var r := Trim(StripLineBreaks(s));
    SliceHasNoLineBreak(StripLineBreaks(s), r);
    r
  }

  lemma SliceHasNoLineBreak(f: string, r: string)
    requires forall k :: 0 <= k < |f| ==> !IsLineBreak(f[k])
    requires exists i, j :: CutsOnlySpace(f, r, i, j)
    ensures forall k :: 0 <= k < |r| ==> !IsLineBreak(r[k])
  {
    var i, j :| CutsOnlySpace(f, r, i, j);
    assert forall k :: 0 <= k < |r| ==> r[k] == f[i + k];
  }

  lemma FilterOfClean(s: string)
    requires forall k :: 0 <= k < |s| ==> !IsLineBreak(s[k])
    ensures WithoutLineBreaks(s) == s
  {
    if s != [] {
      FilterOfClean(s[1..]);
    }
  }

  /** Sanitising a sanitised text changes nothing. */
  lemma SanitizeIdempotent(s: string)
    ensures SanitizeText(SanitizeText(s)) == SanitizeText(s)
  {
    var r := SanitizeText(s);
    StripIsFilter(r);
    FilterOfClean(r);
    TrimOfTrimmed(r);
  }

  // ---------------------------------------------------------------------------
  // isWithinTimeframe
  // ---------------------------------------------------------------------------

  /** A moment object: `ref` stands for its identity (what `===` compares) and
      `instant` for its epoch milliseconds, `None` when the date is invalid. */
  datatype Moment = Moment(ref: nat, instant: Option<int>)

  /** `isBetween` with the default exclusive bounds: false whenever one of the three
      moments is invalid. */
  predicate IsBetween(date: Moment, start: Moment, end: Moment) {
    && date.instant.Some? && start.instant.Some? && end.instant.Some?
    && start.instant.value < date.instant.value < end.instant.value
  }

  /** `isWithinTimeframe`: true for the very same object as either bound, otherwise
      `isBetween`. */
  function IsWithinTimeframe(date: Moment, start: Moment, end: Moment): (r: bool)
    ensures date.ref != start.ref && date.ref != end.ref ==>
      (r <==> (date.instant.Some? && start.instant.Some? && end.instant.Some?
               && start.instant.value < date.instant.value < end.instant.value))
    ensures date.ref == start.ref || date.ref == end.ref ==> r
  {
    date == start || date == end || date.ref == start.ref || date.ref == end.ref
    || IsBetween(date, start, end)
  }

  /** A separately built moment on either bound is outside the timeframe: the bounds
      only count through object identity. */
  lemma TimeframeExcludesBounds(date: Moment, start: Moment, end: Moment)
    requires date.ref != start.ref && date.ref != end.ref
    requires date.instant == start.instant || date.instant == end.instant
    ensures !IsWithinTimeframe(date, start, end)
  {
  }

  // ---------------------------------------------------------------------------
  // getNewsSource
  // ---------------------------------------------------------------------------

  /** The object `getNewsSource` returns: the registry entry's fields spread into it, so
      `url` and `name` are undefined when the key is not in the registry. */
  datatype SourceInfo = SourceInfo(url: Option<string>, name: Option<string>, code: string)

  /** `getNewsSource`: the entry of `sourceName` in the registry of `country`, with that
      country's code; any other country tag falls back to the Nigerian registry and "NG". */
  function GetNewsSource(ns: NewsSource): (r: SourceInfo)
    ensures CountryOf(ns.country).Some? ==> r.code == CountryOf(ns.country).value.code
    ensures CountryOf(ns.country).None? ==> r.code == DefaultCountryCode
    ensures r.url.Some? <==> r.name.Some?
  {
    var country := CountryOf(ns.country).GetOr(Nigeria);
    match Lookup(RegistryFor(country.code), ns.sourceName)
    case Some(p) => SourceInfo(Some(p.url), Some(p.name), country.code)
    case None => SourceInfo(None, None, country.code)
  }

  /** A well-typed news source finds its publisher: the URL and name come from the
      entry stored under its name in its own country's registry. */
  lemma NewsSourceFound(ns: NewsSource)
    requires IsNewsSource(ns)
    ensures GetNewsSource(ns).url.Some? && GetNewsSource(ns).name.Some?
    ensures exists p :: p in RegistryOf(ns.country).value && p.key == ns.sourceName
                        && GetNewsSource(ns).url == Some(p.url) && GetNewsSource(ns).name == Some(p.name)
  {
    var reg := RegistryOf(ns.country).value;
    var p := Lookup(reg, ns.sourceName).value;
    assert p in reg && p.key == ns.sourceName
           && GetNewsSource(ns).url == Some(p.url) && GetNewsSource(ns).name == Some(p.name);
  }

  /** An unknown country tag is answered as if it were "Nigeria". */
  lemma UnknownCountryIsNigeria(ns: NewsSource)
    requires CountryOf(ns.country).None?
    ensures GetNewsSource(ns) == GetNewsSource(NewsSource("Nigeria", ns.sourceName))
  {
  }
}

=== FILE: models.dfy ===
/**
 * The stored records of the service, with the schema rules the store enforces on
 * insert: required fields (a required string may not be empty), enumerated values,
 * defaults, and the unique indexes on category names and user e-mails.  The database
 * is one map per collection plus the next id to hand out; ids are shared by all
 * collections, as object ids are.
 */
module Models {
  import opened Wrappers
  import opened Constants
  import opened Store

  // ---------------------------------------------------------------------------
  // Enumerations
  // ---------------------------------------------------------------------------

  /** A post's moderation status. */
  datatype Status = Pending | Approved

  /** The stored spelling of a status; parsing it gives the status back. */
  function StatusName(st: Status): (r: string)
    ensures ParseStatus(r) == Ok(st)
  {
    match st
    case Pending => "pending"
    case Approved => "approved"
  }

  /** The enum validator of the `status` path: only the two spellings are accepted. */
  function ParseStatus(s: string): (r: Result<Status>)
    ensures r.Ok? <==> s == "pending" || s == "approved"
  {
    if s == "pending" then Ok(Pending)
    else if s == "approved" then Ok(Approved)
    else Err(StoreError("Post validation failed: status: `" + s + "` is not a valid enum value"))
  }

  datatype VoteType = Downvote | Upvote

  /** The stored spelling of a vote type; parsing it gives the type back. */
  function VoteTypeName(t: VoteType): (r: string)
    ensures ParseVoteType(r) == Ok(t)
  {
    match t
    case Downvote => "downvote"
    case Upvote => "upvote"
  }

  /** The enum validator of the vote `type` path. */
  function ParseVoteType(s: string): (r: Result<VoteType>)
    ensures r.Ok? <==> s == "downvote" || s == "upvote"
  {
    if s == "downvote" then Ok(Downvote)
    else if s == "upvote" then Ok(Upvote)
    else Err(StoreError("Vote validation failed: type: `" + s + "` is not a valid enum value"))
  }

  /** The vote type a vote gets when none is given. */
  const DefaultVoteType := Upvote

  datatype Role = Admin | RegularUser

  function RoleName(r: Role): (s: string)
    ensures ParseRole(s) == Ok(r)
  {
    match r
    case Admin => "admin"
    case RegularUser => "user"
  }

  /** The enum validator of the user `role` path. */
  function ParseRole(s: string): (r: Result<Role>)
    ensures r.Ok? <==> s == "admin" || s == "user"
  {
    if s == "admin" then Ok(Admin)
    else if s == "user" then Ok(RegularUser)
    else Err(StoreError("User validation failed: role: `" + s + "` is not a valid enum value"))
  }

  // ---------------------------------------------------------------------------
  // Records
  // ---------------------------------------------------------------------------

  /** A scraped article.  `source` is the publisher name older posts carry instead of a
      `src` reference; it is only ever read, to re-point such posts at a source. */
  datatype Post = Post(
    title: string,
    content: Option<string>,
    publishedAt: int,
    src: Option<Id>,
    source: Option<string>,
    status: Status,
    url: Option<string>,
    isDeleted: bool,
    isProcessed: bool,
    country: string)

  datatype Source = Source(
    name: Option<string>,
    searchUrl: Option<string>,
    image: Option<string>,
    country: string,
    isDeleted: bool)

  datatype Category = Category(name: string, emoji: Option<string>, isDeleted: bool)

  /** A summarised post: `categories` keeps the order (and repetitions) it was given in. */
  datatype Activity = Activity(
    title: string,
    summary: string,
    date: int,
    post: Option<Id>,
    categories: seq<Id>,
    isPublished: bool,
    isDeleted: bool,
    country: string)

  datatype Vote = Vote(vtype: VoteType, activity: Option<Id>, createdBy: Option<Id>, country: string)

  datatype User = User(
    firstName: string,
    lastName: string,
    image: Option<string>,
    email: string,
    role: Role,
    country: string)

  datatype President = President(
    name: Option<string>,
    bio: Option<string>,
    image: Option<string>,
    url: Option<string>,
    duration: Option<string>,
    country: Option<string>,
    isDeleted: bool)

  // ---------------------------------------------------------------------------
  // Schema rules on insert
  // ---------------------------------------------------------------------------

  /** The error a `required` string path raises for a missing or empty value. */
  function Required(model: string, path: string): Error {
    StoreError(model + " validation failed: " + path + ": Path `" + path + "` is required.")
  }

  /** The error a unique index raises for a repeated key. */
  function Duplicate(index: string): Error {
    StoreError("E11000 duplicate key error index: " + index)
  }

  /** What a scraper hands to `insertMany` for one article. */
  datatype PostDraft = PostDraft(
    title: string,
    content: Option<string>,
    publishedAt: Option<int>,
    src: Option<Id>,
    url: Option<string>,
    country: Option<string>)

  /** A post as the schema builds it from a draft: the title is required, the status
      starts pending, both flags start false, the country defaults to "NG" and the
      publish date to the insert time `now`. */
  function NewPost(d: PostDraft, now: int): (r: Result<Post>)
    ensures r.Err? <==> d.title == ""
    ensures r.Ok? ==> && r.value.title == d.title && r.value.content == d.content
                      && r.value.src == d.src && r.value.url == d.url
                      && r.value.status == Pending
                      && !r.value.isDeleted && !r.value.isProcessed
                      && r.value.country == d.country.GetOr(DefaultCountryCode)
                      && r.value.publishedAt == d.publishedAt.GetOr(now)
                      && r.value.source.None?
  {
    if d.title == "" then Err(Required("Post", "title"))
    else Ok(Post(d.title, d.content, d.publishedAt.GetOr(now), d.src, None, Pending, d.url,
                 false, false, d.country.GetOr(DefaultCountryCode)))
  }

  /** A category as the schema builds it: the name is required, the record starts
      undeleted. */
  function NewCategory(name: string, emoji: Option<string>): (r: Result<Category>)
    ensures r.Err? <==> name == ""
    ensures r.Ok? ==> r.value.name == name && r.value.emoji == emoji && !r.value.isDeleted
  {
    if name == "" then Err(Required("Category", "name")) else Ok(Category(name, emoji, false))
  }

  /** What the activity generator hands to `insertMany` for one post. */
  datatype ActivityDraft = ActivityDraft(
    title: string,
    summary: string,
    post: Option<Id>,
    categories: seq<Id>,
    date: int,
    country: string)

  /** An activity as the schema builds it: title and summary are required, it starts
      unpublished and undeleted. */
  function NewActivity(d: ActivityDraft): (r: Result<Activity>)
    ensures r.Err? <==> d.title == "" || d.summary == ""
    ensures r.Ok? ==> && r.value.title == d.title && r.value.summary == d.summary
                      && r.value.post == d.post && r.value.categories == d.categories
                      && r.value.date == d.date && r.value.country == d.country
                      && !r.value.isPublished && !r.value.isDeleted
  {
    if d.title == "" then Err(Required("Activity", "title"))
    else if d.summary == "" then Err(Required("Activity", "summary"))
    else Ok(Activity(d.title, d.summary, d.date, d.post, d.categories, false, false, d.country))
  }

  /** A user as the schema builds it: both names and the e-mail are required; the role
      and the country fall back to "user" and "NG". */
  function NewUser(firstName: Option<string>, lastName: Option<string>, image: Option<string>,
                   email: Option<string>, role: Option<Role>, country: Option<string>): (r: Result<User>)
    ensures r.Ok? <==> firstName.GetOr("") != "" && lastName.GetOr("") != "" && email.GetOr("") != ""
    ensures r.Ok? ==> && r.value.firstName == firstName.value && r.value.lastName == lastName.value
                      && r.value.email == email.value && r.value.image == image
                      && r.value.role == role.GetOr(RegularUser)
                      && r.value.country == country.GetOr(DefaultCountryCode)
  {
    if firstName.GetOr("") == "" then Err(Required("User", "firstName"))
    else if lastName.GetOr("") == "" then Err(Required("User", "lastName"))
    else if email.GetOr("") == "" then Err(Required("User", "email"))
    else Ok(User(firstName.value, lastName.value, image, email.value, role.GetOr(RegularUser),
                 country.GetOr(DefaultCountryCode)))
  }

  /** Validation of an ordered `insertMany`: the first invalid item rejects the whole
      batch, otherwise every item is built. */
  function BuildAll<A, B>(items: seq<A>, build: A -> Result<B>): (r: Result<seq<B>>)
    ensures r.Ok? <==> forall k :: 0 <= k < |items| ==> build(items[k]).Ok?
    ensures r.Ok? ==> |r.value| == |items|
                      && forall k :: 0 <= k < |items| ==> build(items[k]) == Ok(r.value[k])
  {
    if items == [] then Ok([])
    else match build(items[0])
      case Err(e) => Err(e)
      case Ok(b) =>
        match BuildAll(items[1..], build)
        case Err(e) => Err(e)
        case Ok(bs) =>
          assert forall k :: 1 <= k < |items| ==> items[k] == items[1..][k - 1];
          Ok([b] + bs)
  }

  // ---------------------------------------------------------------------------
  // The database
  // ---------------------------------------------------------------------------

  datatype Db = Db(
    posts: map<Id, Post>,
    sources: map<Id, Source>,
    categories: map<Id, Category>,
    activities: map<Id, Activity>,
    votes: map<Id, Vote>,
    users: map<Id, User>,
    presidents: map<Id, President>,
    next: Id)

  /** No two stored categories, deleted or not, share a name. */
  predicate UniqueNames(cs: map<Id, Category>) {
    forall a, b :: a in cs && b in cs && cs[a].name == cs[b].name ==> a == b
  }

  /** No two stored users share an e-mail. */
  predicate UniqueEmails(us: map<Id, User>) {
    forall a, b :: a in us && b in us && us[a].email == us[b].email ==> a == b
  }

  /** Every id lies below the next one to be handed out, and the unique indexes hold. */
  predicate Valid(db: Db) {
    && Below(db.posts, db.next) && Below(db.sources, db.next) && Below(db.categories, db.next)
    && Below(db.activities, db.next) && Below(db.votes, db.next) && Below(db.users, db.next)
    && Below(db.presidents, db.next)
    && UniqueNames(db.categories) && UniqueEmails(db.users)
  }

  /** Replacing the vote collection by one whose ids lie below a next id no smaller
      than before keeps the store valid. */
  lemma ValidWithVotes(db: Db, votes: map<Id, Vote>, next: Id)
    requires Valid(db) && db.next <= next && Below(votes, next)
    ensures Valid(db.(votes := votes, next := next))
  {
  }

  /** Replacing the post collection by one with the same ids keeps the store valid. */
  lemma ValidWithPosts(db: Db, posts: map<Id, Post>)
    requires Valid(db) && posts.Keys == db.posts.Keys
    ensures Valid(db.(posts := posts))
  {
  }

  /** `Category.create`: rejected when the name is empty or already taken by any stored
      category; otherwise stored under the next id with nothing else changed. */
  function AddCategory(db: Db, name: string, emoji: Option<string>): (r: Result<(Db, Id)>)
    requires Valid(db)
    ensures r.Ok? <==> name != "" && forall id :: id in db.categories ==> db.categories[id].name != name
    ensures r.Ok? ==> && Valid(r.value.0) && r.value.1 == db.next
                      && r.value.0 == db.(categories := db.categories[db.next := Category(name, emoji, false)],
                                          next := db.next + 1)
  {
    match NewCategory(name, emoji)
    case Err(e) => Err(e)
    case Ok(c) =>
      if exists id :: id in db.categories && db.categories[id].name == name then Err(Duplicate("name_1"))
      else Ok((db.(categories := db.categories[db.next := c], next := db.next + 1), db.next))
  }

  /** `User.create`: rejected when a required field is missing or the e-mail is taken. */
  function AddUser(db: Db, u: User): (r: Result<(Db, Id)>)
    requires Valid(db)
    ensures r.Ok? <==> forall id :: id in db.users ==> db.users[id].email != u.email
    ensures r.Ok? ==> && Valid(r.value.0) && r.value.1 == db.next
                      && r.value.0 == db.(users := db.users[db.next := u], next := db.next + 1)
  {
    if exists id :: id in db.users && db.users[id].email == u.email then Err(Duplicate("email_1"))
    else Ok((db.(users := db.users[db.next := u], next := db.next + 1), db.next))
  }

  // ---------------------------------------------------------------------------
  // Field views: how each collection's records look to filters and sorts
  // ---------------------------------------------------------------------------

  function OptStr(o: Option<string>): Value {
    if o.Some? then Str(o.value) else Null
  }

  function OptRef(o: Option<Id>): Value {
    if o.Some? then Ref(o.value) else Null
  }

  /** Every document exposes its id, and its creation time, which follows the id. */
  function PostView(id: Id, p: Post, field: string): Value {
    if field == "_id" then Ref(id)
    else if field == "createdAt" then Int(id)
    else if field == "title" then Str(p.title)
    else if field == "content" then OptStr(p.content)
    else if field == "publishedAt" then Int(p.publishedAt)
    else if field == "src" then OptRef(p.src)
    else if field == "source" then OptStr(p.source)
    else if field == "status" then Str(StatusName(p.status))
    else if field == "url" then OptStr(p.url)
    else if field == "isDeleted" then Bool(p.isDeleted)
    else if field == "isProcessed" then Bool(p.isProcessed)
    else if field == "country" then Str(p.country)
    else Null
  }

  function SourceView(id: Id, s: Source, field: string): Value {
    if field == "_id" then Ref(id)
    else if field == "createdAt" then Int(id)
    else if field == "name" then OptStr(s.name)
    else if field == "searchUrl" then OptStr(s.searchUrl)
    else if field == "image" then OptStr(s.image)
    else if field == "country" then Str(s.country)
    else if field == "isDeleted" then Bool(s.isDeleted)
    else Null
  }

  function CategoryView(id: Id, c: Category, field: string): Value {
    if field == "_id" then Ref(id)
    else if field == "createdAt" then Int(id)
    else if field == "name" then Str(c.name)
    else if field == "emoji" then OptStr(c.emoji)
    else if field == "isDeleted" then Bool(c.isDeleted)
    else Null
  }

  function ActivityView(id: Id, a: Activity, field: string): Value {
    if field == "_id" then Ref(id)
    else if field == "createdAt" then Int(id)
    else if field == "title" then Str(a.title)
    else if field == "summary" then Str(a.summary)
    else if field == "date" then Int(a.date)
    else if field == "post" then OptRef(a.post)
    else if field == "categories" then Refs(a.categories)
    else if field == "isPublished" then Bool(a.isPublished)
    else if field == "isDeleted" then Bool(a.isDeleted)
    else if field == "country" then Str(a.country)
    else Null
  }

  function VoteView(id: Id, v: Vote, field: string): Value {
    if field == "_id" then Ref(id)
    else if field == "createdAt" then Int(id)
    else if field == "type" then Str(VoteTypeName(v.vtype))
    else if field == "activity" then OptRef(v.activity)
    else if field == "createdBy" then OptRef(v.createdBy)
    else if field == "country" then Str(v.country)
    else Null
  }

  function UserView(id: Id, u: User, field: string): Value {
    if field == "_id" then Ref(id)
    else if field == "createdAt" then Int(id)
    else if field == "firstName" then Str(u.firstName)
    else if field == "lastName" then Str(u.lastName)
    else if field == "image" then OptStr(u.image)
    else if field == "email" then Str(u.email)
    else if field == "role" then Str(RoleName(u.role))
    else if field == "country" then Str(u.country)
    else Null
  }

  function PresidentView(id: Id, p: President, field: string): Value {
    if field == "_id" then Ref(id)
    else if field == "createdAt" then Int(id)
    else if field == "name" then OptStr(p.name)
    else if field == "bio" then OptStr(p.bio)
    else if field == "image" then OptStr(p.image)
    else if field == "url" then OptStr(p.url)
    else if field == "duration" then OptStr(p.duration)
    else if field == "country" then OptStr(p.country)
    else if field == "isDeleted" then Bool(p.isDeleted)
    else Null
  }

  /** The fields the services filter on, as each view exposes them. */
  lemma PostViewFields(id: Id, p: Post)
    ensures PostView(id, p, "_id") == Ref(id)
    ensures PostView(id, p, "isDeleted") == Bool(p.isDeleted)
    ensures PostView(id, p, "title") == Str(p.title)
    ensures PostView(id, p, "src") == OptRef(p.src)
    ensures PostView(id, p, "source") == OptStr(p.source)
    ensures PostView(id, p, "publishedAt") == Int(p.publishedAt)
  {
  }

  lemma SourceViewFields(id: Id, s: Source)
    ensures SourceView(id, s, "_id") == Ref(id)
    ensures SourceView(id, s, "name") == OptStr(s.name)
    ensures SourceView(id, s, "country") == Str(s.country)
  {
  }

  lemma CategoryViewFields(id: Id, c: Category)
    ensures CategoryView(id, c, "_id") == Ref(id)
    ensures CategoryView(id, c, "isDeleted") == Bool(c.isDeleted)
    ensures CategoryView(id, c, "name") == Str(c.name)
  {
  }

  lemma ActivityViewFields(id: Id, a: Activity)
    ensures ActivityView(id, a, "_id") == Ref(id)
    ensures ActivityView(id, a, "isDeleted") == Bool(a.isDeleted)
  {
  }

  lemma VoteViewFields(id: Id, v: Vote)
    ensures VoteView(id, v, "_id") == Ref(id)
    ensures VoteView(id, v, "type") == Str(VoteTypeName(v.vtype))
    ensures VoteView(id, v, "activity") == OptRef(v.activity)
    ensures VoteView(id, v, "createdBy") == OptRef(v.createdBy)
  {
  }

  lemma UserViewFields(id: Id, u: User)
    ensures UserView(id, u, "_id") == Ref(id)
    ensures UserView(id, u, "email") == Str(u.email)
  {
  }

  lemma PresidentViewFields(id: Id, p: President)
    ensures PresidentView(id, p, "_id") == Ref(id)
    ensures PresidentView(id, p, "name") == OptStr(p.name)
    ensures PresidentView(id, p, "country") == OptStr(p.country)
  {
  }

  // ---------------------------------------------------------------------------
  // Filters the services build
  // ---------------------------------------------------------------------------

  /** `{isDeleted: false}`. */
  function NotDeleted(): Filter {
    map["isDeleted" := Eq(Bool(false))]
  }

  /** `{_id: {$in: ids}}`. */
  function IdIn(ids: seq<Id>): Filter {
    map["_id" := In(seq(|ids|, k requires 0 <= k < |ids| => Ref(ids[k])))]
  }

  /** `{_id: id}`. */
  function IdIs(id: Id): Filter {
    map["_id" := Eq(Ref(id))]
  }

  /** A record matches `{_id: {$in: ids}}` exactly when its id is listed. */
  lemma IdInMatches<T>(ids: seq<Id>, id: Id, t: T, view: View<T>, regex: Regex)
    requires view(id, t, "_id") == Ref(id)
    ensures Matches(IdIn(ids), id, t, view, regex) <==> id in ids
  {
    var vs := seq(|ids|, k requires 0 <= k < |ids| => Ref(ids[k]));
    var f := IdIn(ids);
    assert f.Keys == {"_id"} && f["_id"] == In(vs);
    assert Matches(f, id, t, view, regex) <==> CondHolds("_id", In(vs), id, t, view, regex);
    if id in ids {
      var k :| 0 <= k < |ids| && ids[k] == id;
      assert EqMatch(view(id, t, "_id"), vs[k]);
    }
    if CondHolds("_id", In(vs), id, t, view, regex) {
      var k :| 0 <= k < |vs| && EqMatch(view(id, t, "_id"), vs[k]);
      assert ids[k] == id;
    }
  }

  /** In a collection whose records expose their own id, `{_id: {$in: ids}}` selects
      exactly the listed records. */
  lemma IdInSelectsListed<T>(rows: map<Id, T>, ids: seq<Id>, view: View<T>, regex: Regex)
    requires forall id, t :: view(id, t, "_id") == Ref(id)
    ensures forall id :: id in rows ==> (Matches(IdIn(ids), id, rows[id], view, regex) <==> id in ids)
  {
    forall id | id in rows
      ensures Matches(IdIn(ids), id, rows[id], view, regex) <==> id in ids
    {
      IdInMatches(ids, id, rows[id], view, regex);
    }
  }

  /** A record matches `{_id: id}` exactly when it is that record. */
  lemma IdIsMatches<T>(id: Id, k: Id, t: T, view: View<T>, regex: Regex)
    requires view(k, t, "_id") == Ref(k)
    ensures Matches(IdIs(id), k, t, view, regex) <==> k == id
  {
    assert "_id" in IdIs(id);
  }

  /** Whatever a caller's filter says, a record that matches it with `isDeleted: false`
      spread last is not soft-deleted. */
  lemma NotDeletedLast<T>(f: Filter, id: Id, t: T, view: View<T>, regex: Regex)
    requires Matches(f + NotDeleted(), id, t, view, regex)
    ensures view(id, t, "isDeleted") == Bool(false)
  {
    ForcedLast(f, "isDeleted", Eq(Bool(false)), id, t, view, regex);
  }
}

=== FILE: ordering.dfy ===
/**
 * Sort keys and sorting as the document store applies them: a `.sort({field: dir})`
 * orders the matching documents by one field, missing values first, numbers before
 * strings, strings by code point.  The store promises no order among equal keys; the
 * model's insertion sort keeps them in input order, which is a choice of the model.
 */
module Ordering {

  /** A field value as a sort key. */
  datatype Key = Missing | Num(n: int) | Text(s: string)

  /** Code-point lexicographic order on strings. */
  predicate StrLe(a: string, b: string) {
    if a == [] then true
    else if b == [] then false
    else if a[0] != b[0] then a[0] < b[0]
    else StrLe(a[1..], b[1..])
  }

  lemma {:induction false} StrLeTotal(a: string, b: string)
    ensures StrLe(a, b) || StrLe(b, a)
    decreases |a|
  {
    if a != [] && b != [] && a[0] == b[0] {
      StrLeTotal(a[1..], b[1..]);
    }
  }

  lemma {:induction false} StrLeTrans(a: string, b: string, c: string)
    requires StrLe(a, b) && StrLe(b, c)
    ensures StrLe(a, c)
    decreases |a|
  {
    if a != [] && b != [] && c != [] && a[0] == b[0] && b[0] == c[0] {
      StrLeTrans(a[1..], b[1..], c[1..]);
    }
  }

  /** Type rank of a key: missing values, then numbers, then strings. */
  function Rank(k: Key): int {
    match k
    case Missing => 0
    case Num(_) => 1
    case Text(_) => 2
  }

  predicate KeyLe(a: Key, b: Key) {
    if Rank(a) != Rank(b) then Rank(a) < Rank(b)
    else match (a, b)
      case (Num(x), Num(y)) => x <= y
      case (Text(x), Text(y)) => StrLe(x, y)
      case _ => true
  }

  lemma KeyLeTotal(a: Key, b: Key)
    ensures KeyLe(a, b) || KeyLe(b, a)
  {
    if a.Text? && b.Text? {
      StrLeTotal(a.s, b.s);
    }
  }

  lemma KeyLeTrans(a: Key, b: Key, c: Key)
    requires KeyLe(a, b) && KeyLe(b, c)
    ensures KeyLe(a, c)
  {
    if a.Text? && b.Text? && c.Text? {
      StrLeTrans(a.s, b.s, c.s);
    }
  }

  /** `a` may come before `b` in a sort in the given direction. */
  predicate InOrder(a: Key, b: Key, desc: bool) {
    if desc then KeyLe(b, a) else KeyLe(a, b)
  }

  lemma InOrderTotal(a: Key, b: Key, desc: bool)
    ensures InOrder(a, b, desc) || InOrder(b, a, desc)
  {
    KeyLeTotal(a, b);
  }

  lemma InOrderTrans(a: Key, b: Key, c: Key, desc: bool)
    requires InOrder(a, b, desc) && InOrder(b, c, desc)
    ensures InOrder(a, c, desc)
  {
    if desc {
      KeyLeTrans(c, b, a);
    } else {
      KeyLeTrans(a, b, c);
    }
  }

  /** Every element is in order with the next one. */
  predicate Sorted<T>(s: seq<T>, key: T -> Key, desc: bool) {
    forall i :: 0 <= i < |s| - 1 ==> InOrder(key(s[i]), key(s[i + 1]), desc)
  }

  /** Adjacent order gives order between any two positions. */
  lemma {:induction false} SortedPairwise<T>(s: seq<T>, key: T -> Key, desc: bool, i: nat, j: nat)
    requires Sorted(s, key, desc) && i < j < |s|
    ensures InOrder(key(s[i]), key(s[j]), desc)
    decreases j - i
  {
    if i + 1 < j {
      SortedPairwise(s, key, desc, i + 1, j);
      InOrderTrans(key(s[i]), key(s[i + 1]), key(s[j]), desc);
    }
  }

  /** Inserts `x` before the first element it may precede. */
  function Insert<T>(x: T, s: seq<T>, key: T -> Key, desc: bool): (r: seq<T>)
    requires Sorted(s, key, desc)
    ensures multiset(r) == multiset(s) + multiset{x}
    ensures |r| == |s| + 1 && (r[0] == x || (s != [] && r[0] == s[0]))
    ensures Sorted(r, key, desc)
  {
    if s == [] then [x]
    else if InOrder(key(x), key(s[0]), desc) then [x] + s
    else
      var rest := Insert(x, s[1..], key, desc);
      InsertStep(x, s, rest, key, desc);
      [s[0]] + rest
  }

  lemma InsertStep<T>(x: T, s: seq<T>, rest: seq<T>, key: T -> Key, desc: bool)
    requires s != [] && Sorted(s, key, desc) && !InOrder(key(x), key(s[0]), desc)
    requires Sorted(rest, key, desc) && |rest| == |s| && (rest[0] == x || (|s| > 1 && rest[0] == s[1]))
    requires multiset(rest) == multiset(s[1..]) + multiset{x}
    ensures Sorted([s[0]] + rest, key, desc)
    ensures multiset([s[0]] + rest) == multiset(s) + multiset{x}
  {
    InOrderTotal(key(x), key(s[0]), desc);
    assert s == [s[0]] + s[1..];
    var r := [s[0]] + rest;
    forall i | 0 <= i < |r| - 1
      ensures InOrder(key(r[i]), key(r[i + 1]), desc)
    {
      if i > 0 {
        assert r[i] == rest[i - 1] && r[i + 1] == rest[i];
      }
    }
  }

  /** Insertion sort: the same elements, in order by `key`.  Each element is inserted
      before the equal keys that follow it in the input, so ties keep their input order. */
  function SortBy<T>(s: seq<T>, key: T -> Key, desc: bool): (r: seq<T>)
    ensures multiset(r) == multiset(s)
    ensures |r| == |s|
    ensures Sorted(r, key, desc)
  {
    if s == [] then []
    else
      var r := Insert(s[0], SortBy(s[1..], key, desc), key, desc);
      assert s == [s[0]] + s[1..];
      r
  }

  /** Sorting by a key in which everything is already in order changes nothing. */
  lemma {:induction false} SortSorted<T>(s: seq<T>, key: T -> Key, desc: bool)
    requires Sorted(s, key, desc)
    ensures SortBy(s, key, desc) == s
  {
    if s != [] {
      assert Sorted(s[1..], key, desc);
      SortSorted(s[1..], key, desc);
    }
  }
}

=== FILE: port.dfy ===
/**
 * The listening port: `parseInt(value, 10)` as section 19.2.5 of ECMA-262 defines it
 * (leading white space skipped, one optional sign, the longest run of decimal digits,
 * NaN when there is none), the `normalizePort` clamp over it, and the `PORT || '5001'`
 * default in front of it.  NaN is `None`.
 */
module Port {
  import opened Wrappers
  import opened JsString

  predicate AllDigits(s: string) {
    forall k :: 0 <= k < |s| ==> IsDigit(s[k])
  }

  /** Only white space, as `parseInt` skips it. */
  predicate AllSpace(s: string) {
    forall k :: 0 <= k < |s| ==> IsSpace(s[k])
  }

  function DigitValue(c: char): nat
    requires IsDigit(c)
  {
    c as int - '0' as int
  }

  /** The number a run of decimal digits denotes, most significant digit first. */
  function DigitsValue(d: string): (v: nat)
    requires AllDigits(d)
    ensures d == [] ==> v == 0
  {
    if d == [] then 0 else DigitsValue(d[..|d| - 1]) * 10 + DigitValue(d[|d| - 1])
  }

  /** The length of the longest prefix of `s` made of decimal digits. */
  function DigitRun(s: string): (n: nat)
    ensures n <= |s| && AllDigits(s[..n])
    ensures n < |s| ==> !IsDigit(s[n])
  {
    if s != [] && IsDigit(s[0]) then 1 + DigitRun(s[1..]) else 0
  }

  /** The sign `parseInt` reads and the text after it. */
  function Unsigned(s: string): (r: (int, string))
    ensures r.0 == 1 || r.0 == -1
    ensures r.0 == -1 <==> s != [] && s[0] == '-'
    ensures r.1 == (if s != [] && (s[0] == '-' || s[0] == '+') then s[1..] else s)
  {
    if s != [] && s[0] == '-' then (-1, s[1..])
    else if s != [] && s[0] == '+' then (1, s[1..])
    else (1, s)
  }

  /** `parseInt(s, 10)`; a result of negative zero is the integer 0. */
  function ParseInt(s: string): (r: Option<int>)
    ensures r.None? <==> DigitRun(Unsigned(TrimStart(s)).1) == 0
  {
    var (sign, u) := Unsigned(TrimStart(s));
    var n := DigitRun(u);
    if n == 0 then None else Some(sign * DigitsValue(u[..n]))
  }

  /** `normalizePort`: a non-negative number is kept, NaN becomes 9999 and a negative
      number becomes 0. */
  function NormalizePort(p: Option<int>): (port: nat)
    ensures p.Some? && p.value >= 0 ==> port == p.value
    ensures p.None? ==> port == 9999
    ensures p.Some? && p.value < 0 ==> port == 0
  {
    match p
    case None => 9999
    case Some(n) => if n >= 0 then n else 0
  }

  /** `normalizePort(PORT || '5001')`, with an unset variable as `None`. */
  function PortSetting(env: Option<string>): (port: nat)
    ensures !Truthy(env) ==> port == 5001
    ensures Truthy(env) ==> port == NormalizePort(ParseInt(env.value))
  {
    DefaultPortValue();
    NormalizePort(ParseInt(if Truthy(env) then env.value else "5001"))
  }

  /** The default text "5001" reads as 5001. */
  lemma DefaultPortValue()
    ensures ParseInt("5001") == Some(5001)
  {
    FiveThousandOne();
    ParseNat(5001);
  }

  lemma FiveThousandOne()
    ensures NatToString(5001) == "5001"
  {
    assert NatToString(5) == "5";
    assert NatToString(50) == "50";
    assert NatToString(500) == "500";
  }

  /** What `ParseInt` gives once the trimming, the sign and the digit run are known. */
  lemma ParseFrom(s: string, t: string, sign: int, u: string, n: nat)
    requires TrimStart(s) == t && Unsigned(t) == (sign, u)
    requires DigitRun(u) == n && n > 0
    ensures ParseInt(s) == Some(sign * DigitsValue(u[..n]))
  {
  }

  /** The digits `String(n)` writes denote `n` again. */
  lemma {:induction false} DigitsOfNat(n: nat)
    ensures AllDigits(NatToString(n)) && DigitsValue(NatToString(n)) == n
  {
    var d := NatToString(n);
    if n >= 10 {
      DigitsOfNat(n / 10);
      assert d[..|d| - 1] == NatToString(n / 10);
    }
  }

  /** A digit run followed by a non-digit ends at that non-digit. */
  lemma {:induction false} RunOfDigits(d: string, rest: string)
    requires AllDigits(d)
    requires rest == [] || !IsDigit(rest[0])
    ensures DigitRun(d + rest) == |d|
  {
    if d != [] {
      assert (d + rest)[1..] == d[1..] + rest;
      RunOfDigits(d[1..], rest);
    } else {
      assert d + rest == rest;
    }
  }

  /** The number a numeral is read back as, whatever non-digit text follows it. */
  lemma ReadNumeral(n: nat, rest: string)
    requires rest == [] || !IsDigit(rest[0])
    ensures DigitRun(NatToString(n) + rest) == |NatToString(n)|
    ensures (NatToString(n) + rest)[..|NatToString(n)|] == NatToString(n)
    ensures DigitsValue(NatToString(n)) == n
  {
    DigitsOfNat(n);
    RunOfDigits(NatToString(n), rest);
  }

  /** Round trip: `parseInt` reads back a number written out in decimal, ignoring any
      white space in front and any non-digit text after it. */
  lemma ParseNumeral(ws: string, n: nat, rest: string)
    requires AllSpace(ws)
    requires rest == [] || !IsDigit(rest[0])
    ensures ParseInt(ws + (NatToString(n) + rest)) == Some(n)
  {
    var d := NatToString(n);
    var t := d + rest;
    var s := ws + t;
    SkipSpace(ws, t);
    assert Unsigned(t) == (1, t) by {
      NoSign(t);
    }
    assert DigitRun(t) == |d| && DigitsValue(t[..|d|]) == n by {
      ReadNumeral(n, rest);
    }
    ParseFrom(s, t, 1, t, |d|);
  }

  /** A numeral alone reads back as its number. */
  lemma ParseNat(n: nat)
    ensures ParseInt(NatToString(n)) == Some(n)
  {
    var d := NatToString(n);
    NatDigits(n);
    assert TrimStart(d) == d && Unsigned(d) == (1, d) by {
      NoSign(d);
    }
    ParseFrom(d, d, 1, d, |d|);
  }

  /** A numeral with a minus in front reads back as the negated number. */
  lemma ParseNegNat(n: nat)
    ensures ParseInt("-" + NatToString(n)) == Some(-(n as int))
  {
    var d := NatToString(n);
    NatDigits(n);
    var t := "-" + d;
    assert TrimStart(t) == t && Unsigned(t) == (-1, d) by {
      MinusSign(d, t);
    }
    ParseFrom(t, t, -1, d, |d|);
  }

  /** The whole of a numeral is one digit run, denoting its number. */
  lemma NatDigits(n: nat)
    ensures DigitRun(NatToString(n)) == |NatToString(n)|
    ensures DigitsValue(NatToString(n)[..|NatToString(n)|]) == n
  {
    var d := NatToString(n);
    DigitsOfNat(n);
    WholeRun(d);
    assert d[..|d|] == d;
  }

  /** A string of digits is a single digit run. */
  lemma {:induction false} WholeRun(d: string)
    requires AllDigits(d)
    ensures DigitRun(d) == |d|
  {
    if d != [] {
      WholeRun(d[1..]);
    }
  }

  /** Text that starts with a digit carries no sign. */
  lemma NoSign(t: string)
    requires t != [] && IsDigit(t[0])
    ensures Unsigned(t) == (1, t)
  {
  }

  /** The same with a minus sign: `parseInt` gives the negated number. */
  lemma ParseNegative(ws: string, n: nat, rest: string)
    requires AllSpace(ws)
    requires rest == [] || !IsDigit(rest[0])
    ensures ParseInt(ws + ("-" + (NatToString(n) + rest))) == Some(-(n as int))
  {
    var d := NatToString(n);
    var u := d + rest;
    var t := "-" + u;
    var s := ws + t;
    SkipSpace(ws, t);
    assert Unsigned(t) == (-1, u) by {
      MinusSign(u, t);
    }
    assert DigitRun(u) == |d| && DigitsValue(u[..|d|]) == n by {
      ReadNumeral(n, rest);
    }
    ParseFrom(s, t, -1, u, |d|);
  }

  /** A leading minus is the sign -1 and is dropped. */
  lemma MinusSign(u: string, t: string)
    requires t == "-" + u
    ensures Unsigned(t) == (-1, u)
  {
    assert t[0] == '-' && t[1..] == u;
  }

  /** Leading white space does not change what `TrimStart` leaves of a string that
      starts with something else. */
  lemma {:induction false} SkipSpace(ws: string, t: string)
    requires AllSpace(ws)
    requires t != [] && !IsSpace(t[0])
    ensures TrimStart(ws + t) == t
  {
    if ws != [] {
      assert (ws + t)[1..] == ws[1..] + t;
      SkipSpace(ws[1..], t);
    } else {
      assert ws + t == t;
    }
  }

  /** A port given in decimal is the port used. */
  lemma NumeralIsPort(n: nat)
    requires n > 0
    ensures PortSetting(Some(NatToString(n))) == n
  {
    ParseNat(n);
  }

  /** A negative port gives port 0. */
  lemma NegativeIsZero(n: nat)
    requires n > 0
    ensures PortSetting(Some("-" + NatToString(n))) == 0
  {
    ParseNegNat(n);
  }

  /** A value with no digits after the white space and the sign gives port 9999. */
  lemma NoDigitsIs9999(s: string)
    requires s != []
    requires var u := Unsigned(TrimStart(s)).1; u == [] || !IsDigit(u[0])
    ensures PortSetting(Some(s)) == 9999
  {
  }
}

=== FILE: post_service.dfy ===
/**
 * The post service: the filtered, sorted, paginated listing of posts, single-post
 * lookup, the status update, bulk updates, soft deletion and counting.  Every read
 * and write except soft deletion spreads `isDeleted: false` after the caller's
 * filter, so soft-deleted posts are invisible to it.
 */
module PostService {
  import opened Wrappers
  import opened Ordering
  import opened Store
  import opened Models
  import opened Search

  /** A date option of `getPosts` as the query string gives it: absent or empty (both
      falsy), blank (truthy, yet empty after trimming), a string the date parser cannot
      read, or one naming an instant. */
  datatype DateArg = NoDate | Blank | Unparsable | At(t: int)

  /** The bound a date option contributes to the `publishedAt` condition: only a date
      that is neither falsy nor blank gives one. */
  function Bound(d: DateArg): Option<int> {
    if d.At? then Some(d.t) else None
  }

  /** The `src` option of `getPosts` as the query string gives it: absent or empty
      (falsy), a string `new ObjectId` reads as a source id, or a truthy string it
      rejects (one that is neither 24 hexadecimal digits nor, for the driver versions
      that allow it, 12 characters taken as bytes). */
  datatype SrcArg = NoSrc | SrcId(id: Id) | Malformed

  /** The options of `getPosts`.  An empty string stands for a string option that is
      absent or empty (both are falsy). */
  datatype PostsQuery = PostsQuery(
    limit: int,
    page: int,
    query: Filter,
    search: string,
    sort: SortSpec,
    status: string,
    src: SrcArg,
    startDate: DateArg,
    endDate: DateArg,
    country: string)

  /** The default sort as written: the field name is misspelled, so no post has it. */
  const SortAsWritten := SortSpec("publisedAt", true)

  /** The default sort as intended: newest first. */
  const DefaultSort := SortSpec("publishedAt", true)

  /** The options when the caller gives none: page 1 of 10, sorted descending on the
      misspelled field. */
  function DefaultPostsQuery(): (q: PostsQuery)
    ensures q.page == 1 && q.limit == 10 && q.sort == SortAsWritten && q.query == map[]
    ensures q.search == "" && q.status == "" && q.country == "" && q.src == NoSrc
    ensures q.startDate == NoDate && q.endDate == NoDate
  {
    PostsQuery(10, 1, map[], "", SortAsWritten, "", NoSrc, NoDate, NoDate, "")
  }

  /** The conditions `getPosts` derives from its options, before the caller's query.
      A truthy date option adds the `publishedAt` condition even when it contributes no
      bound; `GetPosts` rejects the options whose condition the store cannot cast. */
  function Derived(q: PostsQuery): (f: Filter)
    ensures "title" in f <==> q.search != ""
    ensures "publishedAt" in f <==> q.startDate != NoDate || q.endDate != NoDate
    ensures "country" in f <==> q.country != ""
    ensures "status" in f <==> q.status != ""
    ensures "src" in f <==> q.src != NoSrc
    ensures "title" in f ==> f["title"] == Like(PatternAsWritten(q.search))
    ensures "publishedAt" in f ==> f["publishedAt"] == Within(Bound(q.startDate), Bound(q.endDate))
    ensures "country" in f ==> f["country"] == Eq(Str(q.country))
    ensures "status" in f ==> f["status"] == Eq(Str(q.status))
    ensures "src" in f && q.src.SrcId? ==> f["src"] == Eq(Ref(q.src.id))
    ensures forall k :: k in f ==> k == "title" || k == "publishedAt" || k == "country" || k == "status" || k == "src"
  {
    var f1 := PutIf(map[], q.search != "", "title", Like(PatternAsWritten(q.search)));
    var f2 := PutIf(f1, q.startDate != NoDate || q.endDate != NoDate, "publishedAt",
                    Within(Bound(q.startDate), Bound(q.endDate)));
    var f3 := PutIf(f2, q.country != "", "country", Eq(Str(q.country)));
    var f4 := PutIf(f3, q.status != "", "status", Eq(Str(q.status)));
    PutIf(f4, q.src != NoSrc, "src", Eq(Ref(if q.src.SrcId? then q.src.id else 0)))
  }

  /** The filter `getPosts` runs: the derived conditions, then the caller's query over
      them, then `isDeleted: false` over everything. */
  function PostsFilter(q: PostsQuery): (f: Filter)
    ensures f == Derived(q) + q.query + NotDeleted()
  {
    Derived(q) + q.query + NotDeleted()
  }

  /** The caller's query overrides a derived condition on the same field, and nothing
      overrides `isDeleted: false`. */
  lemma QueryOverridesDerived(q: PostsQuery)
    ensures PostsFilter(q)["isDeleted"] == Eq(Bool(false))
    ensures forall k :: k in q.query && k != "isDeleted" ==> PostsFilter(q)[k] == q.query[k]
    ensures forall k :: k in Derived(q) && k !in q.query ==> PostsFilter(q)[k] == Derived(q)[k]
  {
    SpreadOverrides(Derived(q), q.query, NotDeleted());
  }

  /** In `a + b + c`, `c` wins over `b` and `b` wins over `a`. */
  lemma SpreadOverrides(a: Filter, b: Filter, c: Filter)
    ensures forall k :: k in c ==> (a + b + c)[k] == c[k]
    ensures forall k :: k in b && k !in c ==> (a + b + c)[k] == b[k]
    ensures forall k :: k in a && k !in b && k !in c ==> (a + b + c)[k] == a[k]
  {
  }

  /** The date options the store refuses to cast: an unparsable date becomes an invalid
      `Date` under `$gte`/`$lte`, and truthy dates that are all blank leave
      `publishedAt: {}`, which is no date either. */
  predicate DatesRejected(q: PostsQuery) {
    || q.startDate.Unparsable? || q.endDate.Unparsable?
    || ((q.startDate.Blank? || q.endDate.Blank?) && !q.startDate.At? && !q.endDate.At?)
  }

  /** The store's error for a `publishedAt` condition it cannot cast to a date. */
  const DateCastError := StoreError("CastError: Cast to date failed at path \"publishedAt\"")

  /** The driver's error for a string `new ObjectId` cannot read; the controller answers
      it with 500. */
  const ObjectIdError := StoreError("BSONTypeError: Argument passed in must be a string of 12 bytes or a string of 24 hex characters")

  /** `getPosts`: the page of non-deleted matching posts in the requested order, and how
      many match in all.  A malformed `src` throws while the filter is built; dates the
      store cannot cast then fail the count, which runs before the find; a negative skip
      is a store error. */
  function GetPosts(db: Db, q: PostsQuery, regex: Regex): (r: Result<Listing>)
    ensures r.Err? <==> q.src.Malformed? || DatesRejected(q) || Skip(q.page, q.limit) < 0
    ensures q.src.Malformed? ==> r == Err(ObjectIdError) && r.error.Status() == 500
    ensures !q.src.Malformed? && DatesRejected(q) ==> r == Err(DateCastError)
    ensures r.Ok? ==> forall id :: id in r.value.ids ==>
      id in db.posts && !db.posts[id].isDeleted && Matches(PostsFilter(q), id, db.posts[id], PostView, regex)
    ensures r.Ok? ==> Sorted(r.value.ids, SortKey(db.posts, PostView, q.sort.field), q.sort.desc)
    ensures r.Ok? && q.limit != 0 ==> |r.value.ids| <= Abs(q.limit)
    ensures r.Ok? ==> r.value.count == Count(db.posts, db.next, PostsFilter(q), PostView, regex)
    ensures r.Ok? ==> IsWindow(Ranked(db.posts, db.next, PostsFilter(q), PostView, regex, q.sort), Min(Skip(q.page, q.limit), r.value.count), r.value.ids)
    ensures r.Ok? ==> |r.value.ids| == PageSize(r.value.count, q.page, q.limit)
  {
    if q.src.Malformed? then Err(ObjectIdError)
    else if DatesRejected(q) then Err(DateCastError) else
    var r := FindListing(db.posts, db.next, PostsFilter(q), PostView, regex, q.sort, q.page, q.limit);
    if r.Ok? then
      NoneDeleted(db.posts, Derived(q) + q.query, r.value.ids, regex);
      r
    else r
  }

  /** Posts matched with `isDeleted: false` spread last are not soft-deleted. */
  lemma NoneDeleted(posts: map<Id, Post>, f: Filter, ids: seq<Id>, regex: Regex)
    requires forall id :: id in ids ==> id in posts && Matches(f + NotDeleted(), id, posts[id], PostView, regex)
    ensures forall id :: id in ids ==> !posts[id].isDeleted
  {
    forall id | id in ids
      ensures !posts[id].isDeleted
    {
      NotDeletedLast(f, id, posts[id], PostView, regex);
      PostViewFields(id, posts[id]);
    }
  }

  /** The count `getPosts` reports is the length of the full listing. */
  lemma CountIsFullListing(db: Db, q: PostsQuery, regex: Regex)
    requires q.page == 1 && q.limit == 0
    ensures GetPosts(db, q, regex).Ok? <==> !q.src.Malformed? && !DatesRejected(q)
    ensures GetPosts(db, q, regex).Ok? ==> |GetPosts(db, q, regex).value.ids| == GetPosts(db, q, regex).value.count
  {
    FindPageAll(db.posts, db.next, PostsFilter(q), PostView, regex, q.sort);
  }

  /** With the intended default sort, a page lists newer posts before older ones. */
  lemma DefaultSortNewestFirst(db: Db, q: PostsQuery, regex: Regex, i: nat, j: nat)
    requires q.sort == DefaultSort
    requires GetPosts(db, q, regex).Ok? && i < j < |GetPosts(db, q, regex).value.ids|
    ensures db.posts[GetPosts(db, q, regex).value.ids[i]].publishedAt
            >= db.posts[GetPosts(db, q, regex).value.ids[j]].publishedAt
  {
    var ids := GetPosts(db, q, regex).value.ids;
    NewestFirst(db.posts, ids, i, j);
  }

  lemma NewestFirst(posts: map<Id, Post>, ids: seq<Id>, i: nat, j: nat)
    requires Sorted(ids, SortKey(posts, PostView, "publishedAt"), true)
    requires forall id :: id in ids ==> id in posts
    requires i < j < |ids|
    ensures posts[ids[i]].publishedAt >= posts[ids[j]].publishedAt
  {
    SortedPairwise(ids, SortKey(posts, PostView, "publishedAt"), true, i, j);
    assert ids[i] in ids && ids[j] in ids;
    PostViewFields(ids[i], posts[ids[i]]);
    PostViewFields(ids[j], posts[ids[j]]);
  }

  /** As written, the default sort names a field no post has, so it imposes no order:
      any arrangement of the posts is a valid result, whatever their publish dates. */
  lemma SortAsWrittenImposesNoOrder(db: Db, s: seq<Id>)
    ensures Sorted(s, SortKey(db.posts, PostView, SortAsWritten.field), SortAsWritten.desc)
  {
    forall id, p | true
      ensures PostView(id, p, SortAsWritten.field) == Null
    {
    }
    MissingFieldImposesNoOrder(db.posts, PostView, SortAsWritten, s);
  }

  /** Under the intended sort an older post may not come before a newer one, which the
      sort as written allows. */
  lemma OlderFirstNotSorted(db: Db, a: Id, b: Id)
    requires a in db.posts && b in db.posts && db.posts[a].publishedAt < db.posts[b].publishedAt
    ensures !Sorted([a, b], SortKey(db.posts, PostView, DefaultSort.field), DefaultSort.desc)
    ensures Sorted([a, b], SortKey(db.posts, PostView, SortAsWritten.field), SortAsWritten.desc)
  {
    var key := SortKey(db.posts, PostView, DefaultSort.field);
    PostViewFields(a, db.posts[a]);
    PostViewFields(b, db.posts[b]);
    assert key(a) == Num(db.posts[a].publishedAt);
    assert key(b) == Num(db.posts[b].publishedAt);
    assert !InOrder(key([a, b][0]), key([a, b][1]), DefaultSort.desc);
    SortAsWrittenImposesNoOrder(db, [a, b]);
  }

  /** `getPost`: the first non-deleted post matching the query, if any. */
  function GetPost(db: Db, query: Filter, regex: Regex): (r: Option<Id>)
    ensures r.Some? ==> r.value in db.posts && !db.posts[r.value].isDeleted
                        && Matches(query + NotDeleted(), r.value, db.posts[r.value], PostView, regex)
    ensures r.None? ==> forall id :: id in db.posts && id < db.next ==>
                          !Matches(query + NotDeleted(), id, db.posts[id], PostView, regex)
  {
    var r := First(db.posts, db.next, query + NotDeleted(), PostView, regex);
    if r.Some? then
      NoneDeleted(db.posts, query, [r.value], regex);
      r
    else r
  }

  /** `createMultiplePosts`: an ordered `insertMany`; one draft without a title rejects
      the whole batch, otherwise the drafts become pending, unprocessed posts under
      consecutive ids from the next one, and nothing stored before changes. */
  function CreateMultiplePosts(db: Db, drafts: seq<PostDraft>, now: int): (r: Result<(Db, seq<Id>)>)
    requires Valid(db)
    ensures r.Ok? <==> forall k :: 0 <= k < |drafts| ==> drafts[k].title != ""
    ensures r.Ok? ==> Valid(r.value.0) && r.value.0 == db.(posts := r.value.0.posts, next := db.next + |drafts|)
    ensures r.Ok? ==> |r.value.1| == |drafts| && forall k :: 0 <= k < |drafts| ==> r.value.1[k] == db.next + k
    ensures r.Ok? ==> forall id :: id in r.value.0.posts <==> id in db.posts || db.next <= id < db.next + |drafts|
    ensures r.Ok? ==> forall id :: id in db.posts ==> r.value.0.posts[id] == db.posts[id]
    ensures r.Ok? ==> forall k :: 0 <= k < |drafts| ==> r.value.0.posts[db.next + k] == NewPost(drafts[k], now).value
  {
    match BuildAll(drafts, (d: PostDraft) => NewPost(d, now))
    case Err(e) => Err(e)
    case Ok(posts) =>
      var ids := seq(|drafts|, k => db.next + k);
      Ok((db.(posts := InsertAll(db.posts, db.next, posts), next := db.next + |drafts|), ids))
  }

  /** A post just created is what `getPost({_id})` finds: it is stored, not deleted and
      the only post with its id. */
  lemma CreatedPostFound(db: Db, drafts: seq<PostDraft>, now: int, k: nat)
    requires Valid(db) && CreateMultiplePosts(db, drafts, now).Ok? && k < |drafts|
    ensures var (db2, ids) := CreateMultiplePosts(db, drafts, now).value;
            GetPost(db2, IdIs(ids[k]), NoRegex()) == Some(ids[k])
  {
    var r := CreateMultiplePosts(db, drafts, now).value;
    var (db2, id) := (r.0, r.1[k]);
    assert id == db.next + k && id in db2.posts && id < db2.next;
    assert db2.posts[id] == NewPost(drafts[k], now).value;
    assert drafts[k].title != "";
    assert !db2.posts[id].isDeleted;
    FoundById(db2, id);
  }

  /** A stored, undeleted post is what `getPost({_id})` finds. */
  lemma FoundById(db: Db, id: Id)
    requires id in db.posts && id < db.next && !db.posts[id].isDeleted
    ensures GetPost(db, IdIs(id), NoRegex()) == Some(id)
  {
    var f := IdIs(id) + NotDeleted();
    PostViewFields(id, db.posts[id]);
    assert f.Keys == {"_id", "isDeleted"} && f["_id"] == Eq(Ref(id)) && f["isDeleted"] == Eq(Bool(false));
    assert Matches(f, id, db.posts[id], PostView, NoRegex());
    forall k | k in db.posts && k < db.next && Matches(f, k, db.posts[k], PostView, NoRegex())
      ensures k == id
    {
      PostViewFields(k, db.posts[k]);
      SpreadKeeps(IdIs(id), NotDeleted(), k, db.posts[k], PostView, NoRegex());
      IdIsMatches(id, k, db.posts[k], PostView, NoRegex());
    }
    FirstUnique(db.posts, db.next, f, PostView, NoRegex(), id);
  }

  /** `updatePost`: a missing or deleted post is "not found"; otherwise only its status
      changes, and only when a status is given.  A status outside the enumeration fails
      validation on save. */
  function UpdatePost(db: Db, query: Filter, status: string, regex: Regex): (r: Result<(Db, Id)>)
    ensures GetPost(db, query, regex).None? ==> r == Err(NotFound("No post with that id exists."))
    ensures r.Ok? ==> GetPost(db, query, regex) == Some(r.value.1)
    ensures r.Ok? ==> r.value.1 in db.posts && r.value.0.posts.Keys == db.posts.Keys
    ensures r.Ok? ==> r.value.0 == db.(posts := r.value.0.posts)
    ensures r.Ok? ==> forall id :: id in db.posts && id != r.value.1 ==> r.value.0.posts[id] == db.posts[id]
    ensures r.Ok? ==> r.value.0.posts[r.value.1] == db.posts[r.value.1].(status := r.value.0.posts[r.value.1].status)
    ensures r.Ok? && status == "" ==> r.value.0 == db
    ensures r.Ok? && status != "" ==> ParseStatus(status) == Ok(r.value.0.posts[r.value.1].status)
    ensures GetPost(db, query, regex).Some? && r.Err? ==> status != "" && ParseStatus(status).Err?
  {
    match GetPost(db, query, regex)
    case None => Err(NotFound("No post with that id exists."))
    case Some(id) =>
      var p := db.posts[id];
      if status == "" then
        assert db.posts[id := p] == db.posts;
        Ok((db, id))
      else
        match ParseStatus(status)
        case Err(e) => Err(e)
        case Ok(st) => Ok((db.(posts := db.posts[id := p.(status := st)]), id))
  }

  /** The fields a bulk update may set; an absent field is left alone. */
  datatype PostPatch = PostPatch(
    title: Option<string>,
    content: Option<string>,
    status: Option<Status>,
    src: Option<Id>,
    url: Option<string>,
    isProcessed: Option<bool>,
    country: Option<string>)

  function ApplyPatch(p: Post, patch: PostPatch): (r: Post)
    ensures r.publishedAt == p.publishedAt && r.source == p.source && r.isDeleted == p.isDeleted
    ensures r.title == patch.title.GetOr(p.title) && r.content == (if patch.content.Some? then patch.content else p.content)
    ensures r.status == patch.status.GetOr(p.status) && r.url == (if patch.url.Some? then patch.url else p.url)
    ensures r.src == (if patch.src.Some? then patch.src else p.src)
    ensures r.isProcessed == patch.isProcessed.GetOr(p.isProcessed) && r.country == patch.country.GetOr(p.country)
  {
    p.(title := patch.title.GetOr(p.title),
       content := if patch.content.Some? then patch.content else p.content,
       status := patch.status.GetOr(p.status),
       src := if patch.src.Some? then patch.src else p.src,
       url := if patch.url.Some? then patch.url else p.url,
       isProcessed := patch.isProcessed.GetOr(p.isProcessed),
       country := patch.country.GetOr(p.country))
  }

  /** `updatePosts`: every non-deleted matching post gets the patch; deleted posts,
      other posts and other collections are left alone. */
  function UpdatePosts(db: Db, query: Filter, patch: PostPatch, regex: Regex): (r: Db)
    ensures r == db.(posts := r.posts)
    ensures r.posts.Keys == db.posts.Keys
    ensures forall id :: id in db.posts && db.posts[id].isDeleted ==> r.posts[id] == db.posts[id]
    ensures forall id :: id in db.posts && Matches(query + NotDeleted(), id, db.posts[id], PostView, regex) ==>
      r.posts[id] == ApplyPatch(db.posts[id], patch)
    ensures forall id :: id in db.posts && !Matches(query + NotDeleted(), id, db.posts[id], PostView, regex) ==>
      r.posts[id] == db.posts[id]
  {
    var posts := UpdateWhere(db.posts, query + NotDeleted(), PostView, regex, p => ApplyPatch(p, patch));
    forall id | id in db.posts && db.posts[id].isDeleted
      ensures !Matches(query + NotDeleted(), id, db.posts[id], PostView, regex)
    {
      if Matches(query + NotDeleted(), id, db.posts[id], PostView, regex) {
        NoneDeleted(db.posts, query, [id], regex);
      }
    }
    db.(posts := posts)
  }

  /** `deletePosts`: the listed posts are flagged deleted, whatever their state, and
      nothing else changes. */
  function DeletePosts(db: Db, ids: seq<Id>): (r: Db)
    ensures r == db.(posts := r.posts)
    ensures r.posts.Keys == db.posts.Keys
    ensures forall id :: id in db.posts && id in ids ==> r.posts[id] == db.posts[id].(isDeleted := true)
    ensures forall id :: id in db.posts && id !in ids ==> r.posts[id] == db.posts[id]
  {
    var posts := UpdateWhere(db.posts, IdIn(ids), PostView, NoRegex(), (p: Post) => p.(isDeleted := true));
    forall id | id in db.posts
      ensures Matches(IdIn(ids), id, db.posts[id], PostView, NoRegex()) <==> id in ids
    {
      PostViewFields(id, db.posts[id]);
      IdInMatches(ids, id, db.posts[id], PostView, NoRegex());
    }
    db.(posts := posts)
  }

  /** `countPosts`: how many non-deleted posts match. */
  function CountPosts(db: Db, query: Filter, regex: Regex): (c: nat)
    ensures c <= db.next
    ensures c == 0 <==> GetPost(db, query, regex).None?
    ensures c == |Matching(db.posts, db.next, query + NotDeleted(), PostView, regex)|
  {
    CountIsMatching(db.posts, db.next, query + NotDeleted(), PostView, regex);
    var f := query + NotDeleted();
    var all := Select(db.posts, db.next, f, PostView, regex);
    assert all != [] ==> all[0] in all;
    Count(db.posts, db.next, f, PostView, regex)
  }

  /** A post deleted by id is no longer found by id. */
  lemma DeletedPostNotFound(db: Db, id: Id)
    requires id in db.posts
    ensures GetPost(DeletePosts(db, [id]), IdIs(id), NoRegex()).None?
  {
    var db2 := DeletePosts(db, [id]);
    var r := GetPost(db2, IdIs(id), NoRegex());
    if r.Some? {
      PostViewFields(r.value, db2.posts[r.value]);
      SpreadKeeps(IdIs(id), NotDeleted(), r.value, db2.posts[r.value], PostView, NoRegex());
      IdIsMatches(id, r.value, db2.posts[r.value], PostView, NoRegex());
    }
  }
}

=== FILE: president_service.dfy ===
/**
 * The president service: listing with a search over name or country, lookup, the
 * truthy-only update, soft deletion and counting.  Like the source service, none of
 * its reads filters on `isDeleted`.
 */
module PresidentService {
  import opened Wrappers
  import opened Ordering
  import opened Store
  import opened Models
  import opened Search
  import opened JsString

  /** The options of `getPresidents`; an empty string stands for an absent option. */
  datatype PresidentsQuery = PresidentsQuery(
    limit: int,
    page: int,
    query: Filter,
    search: string,
    sort: SortSpec,
    country: string)

  const NameAscending := SortSpec("name", false)

  /** The options when the caller gives none: page 1 of 10, by name. */
  function DefaultPresidentsQuery(): (q: PresidentsQuery)
    ensures q.page == 1 && q.limit == 10 && q.sort == NameAscending
    ensures q.query == map[] && q.search == "" && q.country == ""
  {
    PresidentsQuery(10, 1, map[], "", NameAscending, "")
  }

  /** The filter `getPresidents` runs: the search as an `$or` over name and country,
      the exact country, then the caller's query over both. */
  function PresidentsFilter(q: PresidentsQuery): (f: Filter)
    ensures forall k :: k in f <==> k in q.query || (k == "$or" && q.search != "") || (k == "country" && q.country != "")
    ensures forall k :: k in q.query ==> f[k] == q.query[k]
    ensures "$or" !in q.query && q.search != "" ==> f["$or"] == OrLike(["name", "country"], PatternAsWritten(q.search))
    ensures "country" !in q.query && q.country != "" ==> f["country"] == Eq(Str(q.country))
  {
    PutIf(PutIf(map[], q.search != "", "$or", OrLike(["name", "country"], PatternAsWritten(q.search))),
          q.country != "", "country", Eq(Str(q.country))) + q.query
  }

  /** The search condition holds exactly when the pattern matches the name or the country. */
  lemma SearchNameOrCountry(q: PresidentsQuery, id: Id, p: President, regex: Regex)
    requires q.search != "" && "$or" !in q.query
    ensures CondHolds("$or", PresidentsFilter(q)["$or"], id, p, PresidentView, regex) <==>
      (p.name.Some? && regex(PatternAsWritten(q.search), p.name.value))
      || (p.country.Some? && regex(PatternAsWritten(q.search), p.country.value))
  {
    var fields := ["name", "country"];
    PresidentViewFields(id, p);
    assert fields[0] == "name" && fields[1] == "country";
  }

  /** `getPresidents`: a page of matching presidents in the requested order, and how
      many match in all. */
  function GetPresidents(db: Db, q: PresidentsQuery, regex: Regex): (r: Result<Listing>)
    ensures r.Err? <==> Skip(q.page, q.limit) < 0
    ensures r.Ok? ==> forall id :: id in r.value.ids ==>
      id in db.presidents && Matches(PresidentsFilter(q), id, db.presidents[id], PresidentView, regex)
    ensures r.Ok? ==> Sorted(r.value.ids, SortKey(db.presidents, PresidentView, q.sort.field), q.sort.desc)
    ensures r.Ok? && q.limit != 0 ==> |r.value.ids| <= Abs(q.limit)
    ensures r.Ok? ==> r.value.count == Count(db.presidents, db.next, PresidentsFilter(q), PresidentView, regex)
    ensures r.Ok? ==> IsWindow(Ranked(db.presidents, db.next, PresidentsFilter(q), PresidentView, regex, q.sort), Min(Skip(q.page, q.limit), r.value.count), r.value.ids)
    ensures r.Ok? ==> |r.value.ids| == PageSize(r.value.count, q.page, q.limit)
  {
    FindListing(db.presidents, db.next, PresidentsFilter(q), PresidentView, regex, q.sort, q.page, q.limit)
  }

  /** `getPresident`: the first president matching the query, deleted or not. */
  function GetPresident(db: Db, query: Filter, regex: Regex): (r: Option<Id>)
    ensures r.Some? ==> r.value in db.presidents && Matches(query, r.value, db.presidents[r.value], PresidentView, regex)
    ensures r.None? ==> forall id :: id in db.presidents && id < db.next ==>
                          !Matches(query, id, db.presidents[id], PresidentView, regex)
  {
    First(db.presidents, db.next, query, PresidentView, regex)
  }

  /** The fields a caller hands to `updatePresident`. */
  datatype PresidentPatch = PresidentPatch(
    name: Option<string>,
    bio: Option<string>,
    image: Option<string>,
    url: Option<string>,
    duration: Option<string>,
    country: Option<string>)

  /** `details.x || president.x` for the four fields the update copies; the image and
      the url are never copied. */
  function ApplyPresidentPatch(p: President, patch: PresidentPatch): (r: President)
    ensures r.image == p.image && r.url == p.url && r.isDeleted == p.isDeleted
    ensures r.name == (if Truthy(patch.name) then patch.name else p.name)
    ensures r.bio == (if Truthy(patch.bio) then patch.bio else p.bio)
    ensures r.duration == (if Truthy(patch.duration) then patch.duration else p.duration)
    ensures r.country == (if Truthy(patch.country) then patch.country else p.country)
  {
    p.(name := if Truthy(patch.name) then patch.name else p.name,
       country := if Truthy(patch.country) then patch.country else p.country,
       bio := if Truthy(patch.bio) then patch.bio else p.bio,
       duration := if Truthy(patch.duration) then patch.duration else p.duration)
  }

  /** A patch of only empty or absent values leaves a president as it was. */
  lemma EmptyPatchChangesNothing(p: President, patch: PresidentPatch)
    requires !Truthy(patch.name) && !Truthy(patch.bio) && !Truthy(patch.duration) && !Truthy(patch.country)
    ensures ApplyPresidentPatch(p, patch) == p
  {
  }

  /** Applying the same patch twice is applying it once. */
  lemma PatchIdempotent(p: President, patch: PresidentPatch)
    ensures ApplyPresidentPatch(ApplyPresidentPatch(p, patch), patch) == ApplyPresidentPatch(p, patch)
  {
  }

  const NoPresident := "No president with that id exists."

  /** `updatePresident`: "not found" when no president matches; otherwise the first
      match gets the truthy supplied values and nothing else changes. */
  function UpdatePresident(db: Db, query: Filter, patch: PresidentPatch, regex: Regex): (r: Result<(Db, Id)>)
    ensures GetPresident(db, query, regex).None? <==> r.Err?
    ensures r.Err? ==> r.error == NotFound(NoPresident) && r.error.Status() == 404
    ensures r.Ok? ==> GetPresident(db, query, regex) == Some(r.value.1)
    ensures r.Ok? ==> r.value.0 == db.(presidents := db.presidents[r.value.1 := ApplyPresidentPatch(db.presidents[r.value.1], patch)])
  {
    match GetPresident(db, query, regex)
    case None => Err(NotFound(NoPresident))
    case Some(id) => Ok((db.(presidents := db.presidents[id := ApplyPresidentPatch(db.presidents[id], patch)]), id))
  }

  /** `deletePresidents`: the listed presidents are flagged deleted and nothing else
      changes. */
  function DeletePresidents(db: Db, ids: seq<Id>): (r: Db)
    ensures r == db.(presidents := r.presidents)
    ensures r.presidents.Keys == db.presidents.Keys
    ensures forall id :: id in db.presidents && id in ids ==> r.presidents[id] == db.presidents[id].(isDeleted := true)
    ensures forall id :: id in db.presidents && id !in ids ==> r.presidents[id] == db.presidents[id]
  {
    IdInSelectsListed(db.presidents, ids, PresidentView, NoRegex());
    db.(presidents := UpdateWhere(db.presidents, IdIn(ids), PresidentView, NoRegex(), (p: President) => p.(isDeleted := true)))
  }

  /** `countPresidents`: how many presidents match, deleted or not. */
  function CountPresidents(db: Db, query: Filter, regex: Regex): (c: nat)
    ensures c <= db.next
    ensures c == 0 <==> GetPresident(db, query, regex).None?
    ensures c == |Matching(db.presidents, db.next, query, PresidentView, regex)|
  {
    CountIsMatching(db.presidents, db.next, query, PresidentView, regex);
    var all := Select(db.presidents, db.next, query, PresidentView, regex);
    assert all != [] ==> all[0] in all;
    Count(db.presidents, db.next, query, PresidentView, regex)
  }

  /** Deletion does not hide a president: it is still found by id and still counted. */
  lemma DeletedPresidentStillFound(db: Db, id: Id)
    requires id in db.presidents && id < db.next
    ensures GetPresident(DeletePresidents(db, [id]), IdIs(id), NoRegex()) == Some(id)
    ensures CountPresidents(DeletePresidents(db, [id]), IdIs(id), NoRegex()) > 0
  {
    var db2 := DeletePresidents(db, [id]);
    PresidentViewFields(id, db2.presidents[id]);
    IdIsMatches(id, id, db2.presidents[id], PresidentView, NoRegex());
    var r := GetPresident(db2, IdIs(id), NoRegex());
    PresidentViewFields(r.value, db2.presidents[r.value]);
    IdIsMatches(id, r.value, db2.presidents[r.value], PresidentView, NoRegex());
  }
}

=== FILE: prompts.dfy ===
/**
 * The prompt the activity generator sends for one post: the post's title and content,
 * the category options as a bulleted list, and the reply format the parser expects.
 */
module Prompts {
  import opened JsString

  const Instruction := "You are a political commentator or analyst, summarize the post and select only 3 categorize from the following options the post rightly belongs to: "
  const OtherOption := ", - Other (Please specify);"
  const FormatLine := "The output should be in this form: |Summary: string|Categories: string[]|"

  /** `- name` for each category, in order. */
  function Bullets(categories: seq<string>): (r: seq<string>)
    ensures |r| == |categories|
    ensures forall k :: 0 <= k < |r| ==> r[k] == "- " + categories[k]
  {
    if categories == [] then [] else ["- " + categories[0]] + Bullets(categories[1..])
  }

  /** The header: the title and the content, inserted verbatim. */
  function Header(title: string, content: string): string {
    "Title: " + title + "\nContent: " + content
  }

  /** The instruction leading up to the options, after a blank line. */
  function Lead(): string {
    "\n\n" + Instruction
  }

  /** What separates the catch-all option from the format line: a line of four spaces. */
  const Gap := "\n    \n"

  /** `r` is exactly `h`, then `l`, `x`, `o`, `g` and `f`, each where the previous ends,
      and nothing else. */
  predicate Laid(r: string, h: string, l: string, x: string, o: string, g: string, f: string) {
    var a, b, c, d := |h|, |h| + |l|, |h| + |l| + |x|, |h| + |l| + |x| + |o|;
    && |r| == d + |g| + |f|
    && r[..a] == h
    && r[a..b] == l
    && r[b..c] == x
    && r[c..d] == o
    && r[d..d + |g|] == g
    && r[d + |g|..] == f
  }

  /** `generateActivitiesPrompt`: the title and content header, the instruction, the
      options, the catch-all option right after them, a line of four spaces, and the
      format line last. */
  function ActivitiesPrompt(title: string, content: string, categories: seq<string>): (r: string)
    ensures Laid(r, Header(title, content), Lead(), OptionList(categories), OtherOption, Gap, FormatLine)
  {
    Compose(Header(title, content), Lead(), OptionList(categories), OtherOption, Gap, FormatLine)
  }

  /** Six pieces, one after another. */
  function Compose(h: string, l: string, x: string, o: string, g: string, f: string): (r: string)
    ensures Laid(r, h, l, x, o, g, f)
  {
    Placed(h, l, x, o, g, f);
    h + l + x + o + g + f
  }

  /** The category options as the prompt lists them. */
  function OptionList(categories: seq<string>): string {
    Join(Bullets(categories), ",")
  }

  /** Each piece of `h + l + x + o + g + f` sits where the pieces before it end. */
  lemma Placed(h: string, l: string, x: string, o: string, g: string, f: string)
    ensures Laid(h + l + x + o + g + f, h, l, x, o, g, f)
  {
    var r := h + l + x + o + g + f;
    var d := |h| + |l| + |x| + |o|;
    assert r[d + |g|..] == f;
    assert r[d..d + |g|] == g;
    assert r[|h| + |l| + |x|..d] == o;
    assert r[|h| + |l|..|h| + |l| + |x|] == x;
    assert r[|h|..|h| + |l|] == l;
  }

  /** Categories without commas can be read back from the option list: splitting it on
      commas gives one bullet per category, in order. */
  lemma OptionListReadsBack(categories: seq<string>)
    requires |categories| >= 1
    requires forall k :: 0 <= k < |categories| ==> ',' !in categories[k]
    ensures Split(OptionList(categories), ",") == Bullets(categories)
  {
    var bs := Bullets(categories);
    forall k | 0 <= k < |bs|
      ensures ","[0] !in bs[k]
    {
      assert bs[k] == "- " + categories[k];
    }
    SplitJoin(bs, ",");
  }
}

=== FILE: scraper.dfy ===
/**
 * The per-publisher parts of the scraper service: which registry entry each adapter
 * scrapes, the search query it appends to the publisher's search URL, the predicate
 * that filters its articles, and the parsing of one line of the Wikipedia list of
 * state leaders.
 */
module Scraper {
  import opened Wrappers
  import opened JsString
  import opened Misc
  import opened Constants

  /** The twenty publisher adapters, grouped by country. */
  datatype Adapter =
    | Arise | ThePunch | TheGuardian | Vanguard | SaharaReporters | StateHouse | BusinessDay
    | Standard | ThePoint
    | CitiNewsroom | GhanaOnline
    | KenyaOOTP | TheStar | NairobiLeo | Kenyans
    | LiberianObserver | ExecutiveMansion
    | AwokoNewspaper | SLStateHouse | SierraLeoneTelegraph

  /** Where each adapter's publisher sits: its country and its position in that
      country's registry. */
  function Entry(a: Adapter): (Country, nat) {
    match a
    case Arise => (Nigeria, 0)                 // "Arise News"
    case ThePunch => (Nigeria, 1)              // "The Punch"
    case TheGuardian => (Nigeria, 2)           // "The Guardian Nigeria"
    case Vanguard => (Nigeria, 3)              // "Vanguard"
    case SaharaReporters => (Nigeria, 4)       // "Sahara Reporters"
    case StateHouse => (Nigeria, 5)            // "State House"
    case BusinessDay => (Nigeria, 6)           // "Business Day"
    case Standard => (Gambia, 0)               // "The Standard"
    case ThePoint => (Gambia, 1)               // "The Point"
    case CitiNewsroom => (Ghana, 0)            // "Citi Newsroom"
    case GhanaOnline => (Ghana, 1)             // "Ghana Online"
    case TheStar => (Kenya, 0)                 // "The Star"
    case NairobiLeo => (Kenya, 1)              // "Nairobileo"
    case KenyaOOTP => (Kenya, 2)               // "Office of the president"
    case Kenyans => (Kenya, 3)                 // "Kenyans"
    case LiberianObserver => (Liberia, 0)      // "Liberian Observer"
    case ExecutiveMansion => (Liberia, 1)      // "Executive Mansion"
    case AwokoNewspaper => (SierraLeone, 0)    // "Awoko Newspaper"
    case SLStateHouse => (SierraLeone, 1)      // "Sierria Leone State House"
    case SierraLeoneTelegraph => (SierraLeone, 2)  // "The Sierra Leone Telegraph"
  }

  /** The registry entry of an adapter's publisher. */
  function PublisherOf(a: Adapter): Publisher {
    var (c, i) := Entry(a);
    var r := RegistryFor(c.code);
    if i < |r| then r[i] else Publisher("", "", "")
  }

  /** The news source each adapter hands to the wrapper: its country's name and its
      publisher's key. */
  function SourceOf(a: Adapter): NewsSource {
    NewsSource(Entry(a).0.name, PublisherOf(a).key)
  }

  /** The adapters that render the listing in a browser (`jsScraperWrapper`). */
  predicate UsesBrowser(a: Adapter) {
    a == ThePoint || a == TheStar || a == SierraLeoneTelegraph
  }

  /** The prefix put in front of every listed link: the publisher's home URL for the
      two adapters whose listings give relative links. */
  function UrlPrefix(a: Adapter): (r: Option<string>)
    ensures r.Some? <==> a == Kenyans || a == LiberianObserver
  {
    if a == Kenyans || a == LiberianObserver then Some(PublisherOf(a).url) else None
  }

  /** In a registry with distinct keys, looking up an entry's key finds that entry. */
  lemma LookupAt(r: Registry, i: nat)
    requires i < |r| && DistinctKeys(r)
    ensures Lookup(r, r[i].key) == Some(r[i])
  {
    var p := Lookup(r, r[i].key);
    assert p.Some?;
    var j :| 0 <= j < |r| && r[j] == p.value;
    assert j == i;
  }

  predicate IsCountry(c: Country) {
    c == Nigeria || c == Gambia || c == Ghana || c == Kenya || c == Liberia || c == SierraLeone
  }

  /** Each of the six countries is the one its name selects. */
  lemma CountryByName(c: Country)
    requires IsCountry(c)
    ensures CountryOf(c.name) == Some(c)
  {
    if c == SierraLeone {
      assert |c.name| == 12;
    } else if c == Liberia {
      assert |c.name| == 7 && c.name[0] == 'L';
    } else if c == Kenya {
      assert |c.name| == 5 && c.name[0] == 'K';
    } else if c == Ghana {
      assert |c.name| == 5 && c.name[0] == 'G';
    } else if c == Gambia {
      assert |c.name| == 6;
    }
  }

  /** Each adapter's position lies inside its country's registry. */
  lemma EntryInRange(a: Adapter)
    ensures IsCountry(Entry(a).0) && Entry(a).1 < |RegistryFor(Entry(a).0.code)|
  {
    var (c, i) := Entry(a);
    assert i < Size(c) by {
      SizeBound(a);
    }
    RegistrySize(c);
  }

  /** The number of publishers in a country's registry, as the registries list them. */
  function Size(c: Country): nat {
    if c == Nigeria then 7
    else if c == Gambia || c == Liberia then 2
    else if c == Kenya then 4
    else 3
  }

  /** Each adapter's position is below the size of its country's registry. */
  lemma SizeBound(a: Adapter)
    ensures IsCountry(Entry(a).0) && Entry(a).1 < Size(Entry(a).0)
  {
  }

  /** Each country's registry holds `Size(c)` publishers. */
  lemma RegistrySize(c: Country)
    requires IsCountry(c)
    ensures |RegistryFor(c.code)| == Size(c)
  {
    RegistrySizes();
  }

  /** How many publishers each country's registry holds. */
  lemma RegistrySizes()
    ensures |RegistryFor(Nigeria.code)| == 7 && |RegistryFor(Gambia.code)| == 2
    ensures |RegistryFor(Ghana.code)| == 3 && |RegistryFor(Kenya.code)| == 4
    ensures |RegistryFor(Liberia.code)| == 2 && |RegistryFor(SierraLeone.code)| == 3
  {
    NigeriaSize();
    GambiaSize();
    GhanaSize();
    KenyaSize();
    LiberiaSize();
    SierraLeoneSize();
  }

  lemma NigeriaSize()
    ensures |RegistryFor(Nigeria.code)| == 7
  {
  }

  lemma GambiaSize()
    ensures |RegistryFor(Gambia.code)| == 2
  {
    assert Gambia.code[0] != Nigeria.code[0];
  }

  lemma GhanaSize()
    ensures |RegistryFor(Ghana.code)| == 3
  {
    assert Ghana.code[1] != Nigeria.code[1] && Ghana.code[1] != Gambia.code[1];
  }

  lemma KenyaSize()
    ensures |RegistryFor(Kenya.code)| == 4
  {
    assert Kenya.code[0] != Nigeria.code[0] && Kenya.code[0] != Gambia.code[0] && Kenya.code[0] != Ghana.code[0];
  }

  lemma LiberiaSize()
    ensures |RegistryFor(Liberia.code)| == 2
  {
    assert Liberia.code[0] != Nigeria.code[0] && Liberia.code[0] != Gambia.code[0];
    assert Liberia.code[0] != Ghana.code[0] && Liberia.code[0] != Kenya.code[0];
  }

  lemma SierraLeoneSize()
    ensures |RegistryFor(SierraLeone.code)| == 3
  {
    assert SierraLeone.code[0] != Nigeria.code[0] && SierraLeone.code[0] != Gambia.code[0];
    assert SierraLeone.code[0] != Ghana.code[0] && SierraLeone.code[0] != Kenya.code[0];
    assert SierraLeone.code[0] != Liberia.code[0];
  }

  /** The entry at a position of a country's registry is a news source of that country,
      and looking its key up finds the entry. */
  lemma RegisteredAt(c: Country, i: nat)
    requires IsCountry(c) && i < |RegistryFor(c.code)|
    ensures var p := RegistryFor(c.code)[i];
            IsNewsSource(NewsSource(c.name, p.key)) && Lookup(RegistryOf(c.name).value, p.key) == Some(p)
  {
    CountryByName(c);
    RegistryKeysDistinct(c.code);
    LookupAt(RegistryFor(c.code), i);
  }

  /** Every adapter names a publisher of its own country's registry, and looking that
      publisher up finds its entry (so the link prefix is the URL the registry holds). */
  lemma AdapterRegistered(a: Adapter)
    ensures IsNewsSource(SourceOf(a))
    ensures var ns := SourceOf(a);
            Lookup(RegistryOf(ns.country).value, ns.sourceName) == Some(PublisherOf(a))
  {
    var (c, i) := Entry(a);
    EntryInRange(a);
    RegisteredAt(c, i);
    assert PublisherOf(a) == RegistryFor(c.code)[i];
  }

  // ---------------------------------------------------------------------------
  // Search queries
  // ---------------------------------------------------------------------------

  /** `${page ? `<prefix>${page}` : ''}`: the page segment, present only for a page
      JavaScript treats as true. */
  function PageSegment(prefix: string, page: Option<string>): string {
    if Truthy(page) then prefix + page.value else ""
  }

  /** What a space in the search term becomes: `%20` for the Sierra Leone Telegraph,
      `+` everywhere else. */
  function SpaceCode(a: Adapter): string {
    if a == SierraLeoneTelegraph then "%20" else "+"
  }

  /** The text of a query template on either side of the search term. */
  datatype Template = Template(before: string, after: string)

  /** The page prefix of the adapters whose query takes a page. */
  function PagePrefix(a: Adapter): Option<string> {
    match a
    case Arise => Some("/page/")
    case StateHouse => Some("/page/")
    case BusinessDay => Some("/page/")
    case CitiNewsroom => Some("/page/")
    case GhanaOnline => Some("/page/")
    case KenyaOOTP => Some("/page/")
    case AwokoNewspaper => Some("/page=")
    case SLStateHouse => Some("/page=")
    case TheGuardian => Some("&page=")
    case Kenyans => Some("&page=")
    case LiberianObserver => Some("&page=")
    case ExecutiveMansion => Some("&page=")
    case _ => None
  }

  /** The page segment of an adapter's query: empty for the adapters that take no page. */
  function SegmentOf(a: Adapter, page: Option<string>): string {
    if PagePrefix(a).Some? then PageSegment(PagePrefix(a).value, page) else ""
  }

  /** Each adapter's query template around the search term, for a given page segment. */
  function TemplateOf(a: Adapter, page: Option<string>): Template {
    TemplateAt(a, SegmentOf(a, page))
  }

  function TemplateAt(a: Adapter, seg: string): Template {
    match a
    case Arise => Template(seg + "/?s=", "")
    case ThePunch => Template("/?s=", "")
    case TheGuardian => Template("/?s=", seg)
    case Vanguard => Template("?s=", "&custom_search=1")
    case SaharaReporters => Template("/search?search_api_fulltext=", "")
    case StateHouse => Template(seg + "?s=", "")
    case BusinessDay => Template(seg + "/?s=", "")
    case Standard => Template("?s=", "")
    case ThePoint => Template("/search?q=", "")
    case CitiNewsroom => Template(seg + "/?s=", "")
    case GhanaOnline => Template(seg + "/?s=", "")
    case KenyaOOTP => Template(seg + "?s=", "")
    case TheStar => Template("/search/?query=", "")
    case NairobiLeo => Template("/search?query=", "")
    case Kenyans => Template("/search?search=", "&sort_by=date&sort_order=DESC" + seg)
    case LiberianObserver => Template("/search?sort_by=published_at&search_api_fulltext=", seg + "}")
    case ExecutiveMansion => Template("/search/node?keys=", seg + "}")
    case AwokoNewspaper => Template(seg + "/?s=", "")
    case SLStateHouse => Template(seg + "/?s=", "")
    case SierraLeoneTelegraph =>
      // the template literal closes on the next line, so a line break and four spaces end it
      Template("/?s=", "&year_post_date=2023-01-01%2000%3A00%3A00&post_types=post&sort=newest\n    ")
  }

  /** The query each adapter appends to its source's search URL: the template with
      every space of the search term replaced by the adapter's code for it. */
  function SearchQuery(a: Adapter, search: string, page: Option<string>): (q: string)
    ensures q == TemplateOf(a, page).before + SubstChar(search, ' ', SpaceCode(a)) + TemplateOf(a, page).after
  {
    ReplaceCharIsSubst(search, ' ', SpaceCode(a));
    TemplateOf(a, page).before + ReplaceAll(search, " ", SpaceCode(a)) + TemplateOf(a, page).after
  }

  /** The search term as it stands in the query has no space left in it, and each of
      its other characters is kept. */
  lemma EncodedTermHasNoSpace(a: Adapter, search: string)
    ensures ' ' !in SubstChar(search, ' ', SpaceCode(a))
    ensures ' ' !in search ==> SubstChar(search, ' ', SpaceCode(a)) == search
  {
    SubstCharRemoves(search, ' ', SpaceCode(a));
  }

  /** Substituting `c` by a text without `c` leaves no `c`. */
  lemma {:induction false} SubstCharRemoves(s: string, c: char, rep: string)
    requires c !in rep
    ensures c !in SubstChar(s, c, rep)
  {
    if s != [] {
      SubstCharRemoves(s[1..], c, rep);
    }
  }

  /** The page-less template of an adapter, and the page segment it gains with a page. */
  lemma TemplateWithPage(a: Adapter, page: Option<string>)
    ensures var t, t0 := TemplateOf(a, page), TemplateOf(a, None);
            var seg := SegmentOf(a, page);
            |t.before| + |t.after| == |t0.before| + |t0.after| + |seg|
            && (seg == "" ==> t == t0)
  {
    SegmentLength(a, SegmentOf(a, page));
  }

  /** A segment adds its own length to the template, wherever the template puts it. */
  lemma SegmentLength(a: Adapter, seg: string)
    requires PagePrefix(a).Some? || seg == ""
    ensures |TemplateAt(a, seg).before| + |TemplateAt(a, seg).after|
            == |TemplateAt(a, "").before| + |TemplateAt(a, "").after| + |seg|
  {
    if seg != "" {
      match a
      case Arise =>
      case TheGuardian =>
      case StateHouse =>
      case BusinessDay =>
      case CitiNewsroom =>
      case GhanaOnline =>
      case KenyaOOTP =>
      case Kenyans =>
      case LiberianObserver =>
      case ExecutiveMansion =>
      case AwokoNewspaper =>
      case SLStateHouse =>
      case _ =>
        assert false;
    }
  }

  /** A page changes the query only for the adapters that take one, and only when the
      page is truthy; it then adds exactly its prefix and the page text. */
  lemma PageOnlyWhenGiven(a: Adapter, search: string, page: Option<string>)
    ensures !Truthy(page) || PagePrefix(a).None? ==> SearchQuery(a, search, page) == SearchQuery(a, search, None)
    ensures Truthy(page) && PagePrefix(a).Some? ==>
      |SearchQuery(a, search, page)| == |SearchQuery(a, search, None)| + |PagePrefix(a).value| + |page.value|
  {
    TemplateWithPage(a, page);
  }

  /** The Liberian Observer and Executive Mansion queries end in a stray `}`. */
  lemma TrailingBrace(a: Adapter, search: string, page: Option<string>)
    requires a == LiberianObserver || a == ExecutiveMansion
    ensures var q := SearchQuery(a, search, page); |q| > 0 && q[|q| - 1] == '}'
  {
    var seg := SegmentOf(a, page);
    assert TemplateOf(a, page).after == seg + "}";
    EndsInBrace(TemplateOf(a, page).before, SubstChar(search, ' ', SpaceCode(a)), seg);
  }

  lemma EndsInBrace(b: string, m: string, seg: string)
    ensures var q := b + m + (seg + "}"); |q| > 0 && q[|q| - 1] == '}'
  {
  }

  // ---------------------------------------------------------------------------
  // Pass predicates
  // ---------------------------------------------------------------------------

  /** One scraped article as the adapter's `postCreator` hands it over: the sanitised
      title and content, the publish instant (`None` when the date did not parse) and
      the country code. */
  datatype Article = Article(title: string, content: Option<string>, instant: Option<int>, country: string)

  /** The test an adapter puts on its articles. */
  datatype Check =
    | Always                               // no `pass` given
    | TitleMentions(words: seq<string>)    // the lower-cased title includes one of the words
    | TitleAndContent                      // `!isEmpty(title) && !isEmpty(content)`

  /** The Liberian Observer keywords as written: the third is a misspelling of "george". */
  function LiberianKeywordsAsWritten(): seq<string> {
    ["president", "weah", "goeroge"]
  }

  /** The Liberian Observer keywords with the misspelling corrected. */
  function LiberianKeywords(): seq<string> {
    ["president", "weah", "george"]
  }

  /** Each adapter's test; the Liberian Observer's uses the keywords as written. */
  function CheckOf(a: Adapter): Check {
    match a
    case TheGuardian => TitleMentions(["president", "tinubu"])
    case BusinessDay => TitleMentions(["president", "tinubu"])
    case NairobiLeo => TitleMentions(["president", "william", "ruto"])
    case LiberianObserver => TitleMentions(LiberianKeywordsAsWritten())
    case ThePoint => TitleAndContent
    case KenyaOOTP => TitleAndContent
    case _ => Always
  }

  /** Whether an article passes a test.  An absent content counts as empty. */
  predicate Passes(c: Check, art: Article) {
    match c
    case Always => true
    case TitleMentions(words) => exists k :: 0 <= k < |words| && Contains(ToLower(art.title), words[k])
    case TitleAndContent => !IsBlank(art.title) && art.content.Some? && !IsBlank(art.content.value)
  }

  /** A text without ASCII capitals is its own lower-case form. */
  lemma LowerOfLower(s: string)
    requires forall k :: 0 <= k < |s| ==> !('A' <= s[k] <= 'Z')
    ensures ToLower(s) == s
  {
  }

  /** Every keyword is already lower case, so each can match the lower-cased title. */
  lemma KeywordsLowerCase(a: Adapter)
    requires CheckOf(a).TitleMentions?
    ensures forall k :: 0 <= k < |CheckOf(a).words| ==> ToLower(CheckOf(a).words[k]) == CheckOf(a).words[k]
  {
    var ws := CheckOf(a).words;
    forall k | 0 <= k < |ws|
      ensures ToLower(ws[k]) == ws[k]
    {
      LowerOfLower(ws[k]);
    }
  }

  /** A title that holds a keyword in any mix of cases passes the adapter's test. */
  lemma MentionPasses(a: Adapter, art: Article, k: nat, i: nat)
    requires CheckOf(a).TitleMentions? && k < |CheckOf(a).words|
    requires OccursAt(ToLower(art.title), CheckOf(a).words[k], i)
    ensures Passes(CheckOf(a), art)
  {
    ContainsAt(ToLower(art.title), CheckOf(a).words[k], i);
  }

  /** A pattern longer than the text does not occur in it. */
  lemma TooLongAbsent(s: string, pat: string)
    requires |pat| > |s|
    ensures !Contains(s, pat)
  {
  }

  /** A pattern whose first character the text lacks does not occur in it. */
  lemma FirstCharAbsent(s: string, pat: string)
    requires |pat| > 0 && pat[0] !in s
    ensures !Contains(s, pat)
  {
  }

  /** A text holds itself. */
  lemma ContainsItself(s: string)
    ensures Contains(s, s)
  {
    assert OccursAt(s, s, 0);
    ContainsAt(s, s, 0);
  }

  /** The Liberian Observer test as written turns away a title naming only George,
      which the corrected keywords accept. */
  lemma MisspeltKeywordMissesGeorge()
    ensures var art := Article("George", None, None, "LR");
            !Passes(CheckOf(LiberianObserver), art) && Passes(TitleMentions(LiberianKeywords()), art)
  {
    var art := Article("George", None, None, "LR");
    var t := ToLower(art.title);
    assert t == "george";
    var ws := LiberianKeywordsAsWritten();
    forall k | 0 <= k < |ws|
      ensures !Contains(t, ws[k])
    {
      if k == 1 {
        FirstCharAbsent(t, ws[k]);
      } else {
        TooLongAbsent(t, ws[k]);
      }
    }
    var fixed := LiberianKeywords();
    assert fixed[2] == t;
    ContainsItself(t);
  }

  /** With the corrected keywords, a title that holds "president", "weah" or "george"
      in any mix of cases passes the Liberian Observer test. */
  lemma CorrectedKeywordsPass(art: Article, k: nat, i: nat)
    requires k < |LiberianKeywords()|
    requires OccursAt(ToLower(art.title), LiberianKeywords()[k], i)
    ensures Passes(TitleMentions(LiberianKeywords()), art)
  {
    ContainsAt(ToLower(art.title), LiberianKeywords()[k], i);
  }

  // ---------------------------------------------------------------------------
  // The Wikipedia list of state leaders
  // ---------------------------------------------------------------------------

  /** What the list puts between a leader's title and name: a no-break space, then an
      en dash. */
  const LeaderSeparator: string := "\U{A0}\U{2013}"

  /** One scraped leader. */
  datatype Leader = Leader(country: string, duration: string, name: string)

  /** `(x || '').replaceAll('(', '').replaceAll(')', '')`. */
  function WithoutParens(s: string): (r: string)
    ensures '(' !in r && ')' !in r
    ensures r == SubstChar(SubstChar(s, '(', ""), ')', "")
  {
    var a := ReplaceAll(s, "(", "");
    ReplaceCharIsSubst(s, '(', "");
    ReplaceCharIsSubst(a, ')', "");
    SubstCharRemoves(s, '(', "");
    SubstCharKeepsAbsent(a, ')', "", '(');
    SubstCharRemoves(a, ')', "");
    ReplaceAll(a, ")", "")
  }

  /** Substituting `c` by a text without `d` adds no `d`. */
  lemma {:induction false} SubstCharKeepsAbsent(s: string, c: char, rep: string, d: char)
    requires d !in s && d !in rep
    ensures d !in SubstChar(s, c, rep)
  {
    if s != [] {
      SubstCharKeepsAbsent(s[1..], c, rep, d);
    }
  }

  /** `s.split(' ').pop()`: the text after the last space. */
  function LastWord(s: string): (r: string)
    ensures ' ' !in r
  {
    var words := Split(s, " ");
    NoSpaceInPiece(words, |words| - 1);
    words[|words| - 1]
  }

  /** The duration: the last space-separated word after the first comma of the title,
      without parentheses; empty when the title has no comma. */
  function DurationOf(parts: seq<string>): (r: string)
    requires |parts| >= 1
    ensures ' ' !in r && '(' !in r && ')' !in r
    ensures |parts| < 2 ==> r == ""
  {
    if |parts| < 2 then ""
    else
      var last := LastWord(parts[1]);
      SubstCharKeepsAbsent(last, '(', "", ' ');
      SubstCharKeepsAbsent(SubstChar(last, '(', ""), ')', "", ' ');
      WithoutParens(last)
  }

  lemma NoSpaceInPiece(words: seq<string>, k: nat)
    requires k < |words| && !Contains(words[k], " ")
    ensures ' ' !in words[k]
  {
    if ' ' in words[k] {
      var i :| 0 <= i < |words[k]| && words[k][i] == ' ';
      assert OccursAt(words[k], " ", i);
      ContainsAt(words[k], " ", i);
    }
  }

  /** The parse of one leader line of a country: the text after the first separator,
      trimmed, is the title; the name is the sanitised text before its first comma and
      the duration the last word after that comma, without parentheses.  A line
      without the separator gives an empty name and duration. */
  function ParseLeaderLine(country: string, line: string): (r: Leader)
    ensures r.country == country
    ensures Trimmed(r.name) && forall k :: 0 <= k < |r.name| ==> !IsLineBreak(r.name[k])
    ensures ' ' !in r.duration && '(' !in r.duration && ')' !in r.duration
    ensures !Contains(line, LeaderSeparator) ==> r.name == "" && r.duration == ""
  {
    var pieces := Split(line, LeaderSeparator);
    if |pieces| < 2 then
      Leader(country, "", SanitizeText(""))
    else
      var parts := Split(Trim(pieces[1]), ",");
      Leader(country, DurationOf(parts), SanitizeText(parts[0]))
  }

  /** A sanitised text is its own sanitisation when it has no line breaks and is trimmed. */
  lemma SanitizeClean(s: string)
    requires Trimmed(s) && forall k :: 0 <= k < |s| ==> !IsLineBreak(s[k])
    ensures SanitizeText(s) == s
  {
    StripIsFilter(s);
    FilterOfClean(s);
    TrimOfTrimmed(s);
  }

  /** Trimming a trimmed text behind one space gives the text. */
  lemma TrimAfterSpace(x: string)
    requires Trimmed(x)
    ensures Trim(" " + x) == x
  {
    assert (" " + x)[1..] == x;
    assert TrimStart(" " + x) == x;
  }

  /** The pieces end with `b`. */
  predicate EndsWith(w: seq<string>, b: string) {
    |w| > 0 && w[|w| - 1] == b
  }

  /** The first space of a text that has one. */
  lemma FirstSpace(a: string) returns (i: nat)
    requires ' ' in a
    ensures i < |a| && a == a[..i] + [' '] + a[i + 1..] && ' ' !in a[..i]
  {
    match IndexOf(a, " ")
    case None =>
      CharNotFound(a, ' ');
      assert false;
    case Some(k) =>
      SplitFirstChar(a, ' ', k);
      i := k;
  }

  /** The last piece of splitting `a + " " + b` on spaces, for a `b` without spaces,
      is `b`. */
  lemma {:induction false} LastWordAfterSpace(a: string, b: string)
    requires ' ' !in b
    ensures EndsWith(Split(a + " " + b, " "), b)
    decreases |a|
  {
    if ' ' !in a {
      OneSpace(a, b);
    } else {
      var i := FirstSpace(a);
      LastWordAfterSpace(a[i + 1..], b);
      Regroup(a, b, i);
      PrefixKeepsLastWord(a + " " + b, a[..i], a[i + 1..] + " " + b, b);
    }
  }

  /** Splitting `a + " " + b` on spaces, neither part holding one, gives the two parts. */
  lemma OneSpace(a: string, b: string)
    requires ' ' !in a && ' ' !in b
    ensures Split(a + " " + b, " ") == [a, b]
  {
    FirstCharAbsent(b, " ");
    SplitWithout(b, " ");
    SplitAfterChar(a, ' ', b);
  }

  /** Putting a space-free text and a space in front keeps the last piece of a split
      on spaces. */
  lemma PrefixKeepsLastWord(s: string, p: string, z: string, b: string)
    requires s == p + [' '] + z && ' ' !in p && EndsWith(Split(z, " "), b)
    ensures EndsWith(Split(s, " "), b)
  {
    SplitAfterChar(p, ' ', z);
    ConsKeepsLast(p, Split(z, " "), b);
  }

  lemma Regroup(a: string, b: string, i: nat)
    requires i < |a| && a == a[..i] + [' '] + a[i + 1..]
    ensures a + " " + b == a[..i] + [' '] + (a[i + 1..] + " " + b)
  {
  }

  lemma ConsKeepsLast(p: string, w: seq<string>, b: string)
    requires EndsWith(w, b)
    ensures EndsWith([p] + w, b)
  {
    assert ([p] + w)[|w|] == w[|w| - 1];
  }

  /** Dropping every `c` from `[c] + s + [d]`, for `c` and `d` absent from `s`, gives
      `s + [d]`. */
  lemma DropOpening(s: string, c: char, d: char)
    requires c !in s && c != d
    ensures SubstChar([c] + (s + [d]), c, "") == s + [d]
  {
    var t := s + [d];
    assert c !in t;
    assert ([c] + t)[0] == c && ([c] + t)[1..] == t;
  }

  /** Dropping every `d` from `s + [d]`, for `d` absent from `s`, gives `s`. */
  lemma DropClosing(s: string, d: char)
    requires d !in s
    ensures SubstChar(s + [d], d, "") == s
  {
    SubstCharAppend(s, [d], d, "");
    assert SubstChar([d], d, "") == "";
  }

  /** Removing the parentheses around a text free of them gives the text. */
  lemma UnwrapParens(years: string)
    requires '(' !in years && ')' !in years
    ensures WithoutParens("(" + years + ")") == years
  {
    assert "(" + years + ")" == ['('] + (years + [')']);
    DropOpening(years, '(', ')');
    DropClosing(years, ')');
  }

  /** Splitting on the separator a line with exactly one separator gives the text on
      either side. */
  lemma PiecesOfLine(line: string, head: string, body: string)
    requires line == head + LeaderSeparator + body
    requires '\U{A0}' !in head && '\U{A0}' !in body
    ensures Split(line, LeaderSeparator) == [head, body]
  {
    assert line == Join([head, body], LeaderSeparator);
    SplitJoin([head, body], LeaderSeparator);
  }

  /** Splitting on commas a text with exactly one comma gives the text on either side. */
  lemma PartsOfTitle(title: string, name: string, tail: string)
    requires title == name + [','] + tail && ',' !in name && ',' !in tail
    ensures Split(title, ",") == [name, tail]
  {
    SplitAfterChar(name, ',', tail);
    FirstCharAbsent(tail, ",");
    SplitWithout(tail, ",");
  }

  /** The duration read from a title part is its last word without parentheses. */
  lemma DurationOfTail(name: string, tail: string, w: string)
    requires EndsWith(Split(tail, " "), w)
    ensures DurationOf([name, tail]) == WithoutParens(w)
  {
    assert LastWord(tail) == w;
  }

  /** The shape of a well-formed leader line, regrouped. */
  lemma LineShape(head: string, name: string, rest: string, years: string)
    requires '\U{A0}' !in name && '\U{A0}' !in rest && '\U{A0}' !in years
    requires ',' !in name && ',' !in rest && ',' !in years && Trimmed(name)
    ensures var tail := rest + " " + ("(" + years + ")");
            var title := name + [','] + tail;
            && head + LeaderSeparator + " " + name + "," + rest + " (" + years + ")" == head + LeaderSeparator + (" " + title)
            && '\U{A0}' !in " " + title && ',' !in tail && Trimmed(title)
  {
  }

  /** The parse of a line, given how it splits at each step. */
  lemma ParseFromParts(country: string, line: string, head: string, body: string, title: string, name: string, tail: string)
    requires Split(line, LeaderSeparator) == [head, body]
    requires Trim(body) == title && Split(title, ",") == [name, tail]
    ensures ParseLeaderLine(country, line) == Leader(country, DurationOf([name, tail]), SanitizeText(name))
  {
  }

  /** The parse of a line made of anything, the separator, a space and a trimmed title
      with one comma. */
  lemma ParseShaped(country: string, line: string, head: string, name: string, tail: string)
    requires line == head + LeaderSeparator + (" " + (name + [','] + tail))
    requires '\U{A0}' !in head && '\U{A0}' !in " " + (name + [','] + tail)
    requires ',' !in name && ',' !in tail && Trimmed(name + [','] + tail)
    ensures ParseLeaderLine(country, line) == Leader(country, DurationOf([name, tail]), SanitizeText(name))
  {
    var title := name + [','] + tail;
    PiecesOfLine(line, head, " " + title);
    TrimAfterSpace(title);
    PartsOfTitle(title, name, tail);
    ParseFromParts(country, line, head, " " + title, title, name, tail);
  }

  /** The duration read from a title part ending in a space and a parenthesised term. */
  lemma TermOfTail(name: string, rest: string, years: string)
    requires ' ' !in years && '(' !in years && ')' !in years
    ensures DurationOf([name, rest + " " + ("(" + years + ")")]) == years
  {
    var term := "(" + years + ")";
    LastWordAfterSpace(rest, term);
    DurationOfTail(name, rest + " " + term, term);
    UnwrapParens(years);
  }

  /** A well-formed leader line parses back to the name and term it was built from:
      anything, the separator, a space, the name, a comma, anything without a comma,
      then the term in parentheses after a space. */
  lemma ParseLeaderRoundTrip(country: string, head: string, name: string, rest: string, years: string)
    requires '\U{A0}' !in head && '\U{A0}' !in name && '\U{A0}' !in rest && '\U{A0}' !in years
    requires ',' !in name && ',' !in rest && ',' !in years
    requires Trimmed(name) && forall k :: 0 <= k < |name| ==> !IsLineBreak(name[k])
    requires ' ' !in years && '(' !in years && ')' !in years
    ensures ParseLeaderLine(country, head + LeaderSeparator + " " + name + "," + rest + " (" + years + ")")
            == Leader(country, years, name)
  {
    var line := head + LeaderSeparator + " " + name + "," + rest + " (" + years + ")";
    LineShape(head, name, rest, years);
    ParseShaped(country, line, head, name, rest + " " + ("(" + years + ")"));
    TermOfTail(name, rest, years);
    SanitizeClean(name);
  }
}

=== FILE: search.dfy ===
/**
 * The `$regex` filter the list services build from a free-text search term, and the
 * part of the store's regular-expression language such a filter uses: literal
 * characters, `.` (any character but a line feed) and a postfix `*`, matched
 * case-insensitively (option `i`) anywhere in the field.
 */
module Search {
  import opened JsString

  /** The characters that have a meaning of their own in a pattern. */
  predicate IsRegexMeta(c: char) {
    c in {'.', '*', '+', '?', '(', ')', '[', ']', '{', '}', '|', '^', '$', '\\'}
  }

  /** A search term that reads as plain text inside a pattern. */
  predicate NoMeta(s: string) {
    forall k :: 0 <= k < |s| ==> !IsRegexMeta(s[k])
  }

  // ---------------------------------------------------------------------------
  // Patterns built from `.`, `*` and literal characters
  // ---------------------------------------------------------------------------

  datatype Atom = Any | Lit(c: char)

  /** One atom, possibly repeated by a `*`. */
  datatype Piece = Piece(atom: Atom, star: bool)

  /** The pieces of a pattern whose only metacharacters are `.` and a `*` after an atom. */
  function Compile(p: string): (r: seq<Piece>)
    ensures |r| <= |p|
  {
    if p == [] then []
    else
      var a := if p[0] == '.' then Any else Lit(p[0]);
      if |p| >= 2 && p[1] == '*' then [Piece(a, true)] + Compile(p[2..])
      else [Piece(a, false)] + Compile(p[1..])
  }

  /** Option `i`: letters compare without regard to case. */
  predicate AtomMatches(a: Atom, c: char) {
    match a
    case Any => c != '\n'
    case Lit(x) => LowerChar(x) == LowerChar(c)
  }

  /** The pieces match a prefix of `t`. */
  predicate MatchHere(ps: seq<Piece>, t: string)
    decreases |t|, |ps|
  {
    if ps == [] then true
    else if !ps[0].star then t != [] && AtomMatches(ps[0].atom, t[0]) && MatchHere(ps[1..], t[1..])
    else MatchHere(ps[1..], t) || (t != [] && AtomMatches(ps[0].atom, t[0]) && MatchHere(ps, t[1..]))
  }

  /** The pieces match somewhere in `t`: what `{$regex: p}` asks of a field. */
  predicate SearchFrom(ps: seq<Piece>, t: string) {
    MatchHere(ps, t) || (t != [] && SearchFrom(ps, t[1..]))
  }

  /** `t` starts with `s`, ignoring case. */
  predicate PrefixCI(t: string, s: string) {
    |s| <= |t| && forall k :: 0 <= k < |s| ==> LowerChar(t[k]) == LowerChar(s[k])
  }

  /** Reference definition: `s` occurs somewhere in `t`, ignoring case. */
  predicate ContainsCI(t: string, s: string) {
    PrefixCI(t, s) || (t != [] && ContainsCI(t[1..], s))
  }

  // ---------------------------------------------------------------------------
  // The services' search patterns
  // ---------------------------------------------------------------------------

  /** The pattern as the list services write it: `.*`, the term, then `*.`, so the star
      repeats the term's last character and one more character is demanded after it.
      A blank term gives the empty pattern. */
  function PatternAsWritten(search: string): (r: string)
    ensures IsBlank(search) ==> r == ""
    ensures !IsBlank(search) ==> |r| == |search| + 4 && r[|r| - 2..] == "*."
  {
    if IsBlank(search) then "" else ".*" + search + "*."
  }

  /** The pattern the list services evidently mean: the term anywhere in the field.
      A blank term gives the empty pattern, which every text matches. */
  function SearchPattern(search: string): (r: string)
    ensures IsBlank(search) ==> r == ""
    ensures !IsBlank(search) ==> |r| == |search| + 4 && r[..2] == ".*" && r[|r| - 2..] == ".*"
  {
    if IsBlank(search) then "" else ".*" + search + ".*"
  }

  const StarAny := Piece(Any, true)

  /** The pieces of a plain term: one literal per character. */
  function Lits(s: string): (r: seq<Piece>)
    ensures |r| == |s|
  {
    if s == [] then [] else [Piece(Lit(s[0]), false)] + Lits(s[1..])
  }

  /** A plain term followed by anything but a `*` compiles character by character. */
  lemma {:induction false} CompileLits(s: string, rest: string)
    requires NoMeta(s) && (rest == [] || rest[0] != '*')
    ensures Compile(s + rest) == Lits(s) + Compile(rest)
    decreases |s|
  {
    if s != [] {
      var q := s[1..] + rest;
      assert s + rest == [s[0]] + q;
      assert NoMeta(s[1..]) by {
        forall k | 0 <= k < |s| - 1 ensures !IsRegexMeta(s[1..][k]) {
          assert s[1..][k] == s[k + 1];
        }
      }
      assert q == [] || q[0] != '*' by {
        if |s| >= 2 { assert q[0] == s[1]; }
      }
      assert !IsRegexMeta(s[0]);
      CompileCons(s[0], q);
      CompileLits(s[1..], rest);
    } else {
      assert s + rest == rest;
    }
  }

  lemma CompileCons(c: char, q: string)
    requires !IsRegexMeta(c) && (q == [] || q[0] != '*')
    ensures Compile([c] + q) == [Piece(Lit(c), false)] + Compile(q)
  {
    assert ([c] + q)[1..] == q;
  }

  lemma CompileIntended(s: string)
    requires NoMeta(s)
    ensures Compile(".*" + s + ".*") == [StarAny] + Lits(s) + [StarAny]
  {
    var p := ".*" + s + ".*";
    assert p[2..] == s + ".*";
    CompileLits(s, ".*");
    assert Compile(".*") == [StarAny];
  }

  /** A literal run matches exactly the texts that start with it, ignoring case. */
  lemma {:induction false} LitsMatch(s: string, rest: seq<Piece>, t: string)
    ensures MatchHere(Lits(s) + rest, t) <==> PrefixCI(t, s) && MatchHere(rest, t[|s|..])
    decreases |s|
  {
    if s != [] {
      var ps := Lits(s) + rest;
      assert ps[0] == Piece(Lit(s[0]), false);
      assert ps[1..] == Lits(s[1..]) + rest;
      assert MatchHere(ps, t) <==> t != [] && LowerChar(s[0]) == LowerChar(t[0]) && MatchHere(ps[1..], t[1..]);
      if t != [] {
        LitsMatch(s[1..], rest, t[1..]);
        PrefixStep(t, s);
        if |s| <= |t| {
          assert t[1..][|s| - 1..] == t[|s|..];
        }
      }
    } else {
      assert Lits(s) + rest == rest && t[|s|..] == t;
    }
  }

  lemma PrefixStep(t: string, s: string)
    requires s != [] && t != []
    ensures PrefixCI(t, s) <==> LowerChar(s[0]) == LowerChar(t[0]) && PrefixCI(t[1..], s[1..])
  {
    if PrefixCI(t[1..], s[1..]) && LowerChar(s[0]) == LowerChar(t[0]) {
      forall k | 0 <= k < |s| ensures LowerChar(t[k]) == LowerChar(s[k]) {
        if k > 0 { assert t[k] == t[1..][k - 1] && s[k] == s[1..][k - 1]; }
      }
    }
    if PrefixCI(t, s) {
      forall k | 0 <= k < |s| - 1 ensures LowerChar(t[1..][k]) == LowerChar(s[1..][k]) {
        assert t[1..][k] == t[k + 1] && s[1..][k] == s[k + 1];
      }
    }
  }

  /** A leading `.*` matched at a position leaves the rest matched at a later one. */
  lemma {:induction false} StarAnyThenSearch(ps: seq<Piece>, t: string)
    requires MatchHere([StarAny] + ps, t)
    ensures SearchFrom(ps, t)
    decreases |t|
  {
    assert ([StarAny] + ps)[1..] == ps;
    if !MatchHere(ps, t) {
      StarAnyThenSearch(ps, t[1..]);
    }
  }

  /** Searching for `.*` followed by more pieces is searching for those pieces. */
  lemma {:induction false} SearchStarAny(ps: seq<Piece>, t: string)
    ensures SearchFrom([StarAny] + ps, t) <==> SearchFrom(ps, t)
    decreases |t|
  {
    assert ([StarAny] + ps)[1..] == ps;
    if MatchHere([StarAny] + ps, t) {
      StarAnyThenSearch(ps, t);
    }
    if t != [] {
      SearchStarAny(ps, t[1..]);
    }
  }

  /** Searching for a literal run followed by `.*` is the case-insensitive substring test. */
  lemma {:induction false} SearchLits(s: string, t: string)
    ensures SearchFrom(Lits(s) + [StarAny], t) <==> ContainsCI(t, s)
    decreases |t|
  {
    LitsMatch(s, [StarAny], t);
    if |s| <= |t| {
      assert MatchHere([StarAny], t[|s|..]) by {
        assert [StarAny][1..] == [];
      }
    }
    if t != [] {
      SearchLits(s, t[1..]);
    }
  }

  /** The intended pattern of a plain, non-blank term matches a field exactly when the
      term occurs in it, ignoring case; a blank term matches every field. */
  lemma IntendedIsSubstring(search: string, t: string)
    requires NoMeta(search)
    ensures !IsBlank(search) ==> (SearchFrom(Compile(SearchPattern(search)), t) <==> ContainsCI(t, search))
    ensures IsBlank(search) ==> SearchFrom(Compile(SearchPattern(search)), t)
  {
    if !IsBlank(search) {
      CompileIntended(search);
      assert [StarAny] + Lits(search) + [StarAny] == [StarAny] + (Lits(search) + [StarAny]);
      SearchStarAny(Lits(search) + [StarAny], t);
      SearchLits(search, t);
    }
  }

  /** As written, a term matches every field that has the term with its last character
      replaced by any other character but a line feed: "bola" matches "bolt". */
  lemma AsWrittenDropsLastChar(p: string, c: char, x: char)
    requires NoMeta(p + [c]) && !IsBlank(p + [c]) && x != '\n'
    ensures SearchFrom(Compile(PatternAsWritten(p + [c])), p + [x])
  {
    var pat := PatternAsWritten(p + [c]);
    assert pat == ".*" + (p + ([c] + "*."));
    assert pat[2..] == p + ([c] + "*.");
    assert NoMeta(p) by {
      forall k | 0 <= k < |p| ensures !IsRegexMeta(p[k]) {
        assert p[k] == (p + [c])[k];
      }
    }
    assert !IsRegexMeta(c) by {
      assert c == (p + [c])[|p|];
    }
    CompileLits(p, [c] + "*.");
    var tail := [c] + "*.";
    assert tail[2..] == ".";
    assert Compile(tail) == [Piece(Lit(c), true), Piece(Any, false)];
    var ps := Lits(p) + [Piece(Lit(c), true), Piece(Any, false)];
    assert Compile(pat) == [StarAny] + ps;
    var t := p + [x];
    assert PrefixCI(t, p);
    assert t[|p|..] == [x];
    assert MatchHere([Piece(Any, false)], [x]) by {
      assert [Piece(Any, false)][1..] == [];
    }
    assert MatchHere([Piece(Lit(c), true), Piece(Any, false)], [x]) by {
      assert [Piece(Lit(c), true), Piece(Any, false)][1..] == [Piece(Any, false)];
    }
    LitsMatch(p, [Piece(Lit(c), true), Piece(Any, false)], t);
    SearchStarAny(ps, t);
  }

  /** The input that shows the difference: "bolt" does not contain "bola", yet the
      pattern written for "bola" matches it. */
  lemma AsWrittenOverMatches()
    ensures SearchFrom(Compile(PatternAsWritten("bola")), "bolt")
    ensures !ContainsCI("bolt", "bola")
  {
    assert "bola" == "bol" + ['a'];
    assert "bolt" == "bol" + ['t'];
    assert !IsBlank("bola") by { assert !IsSpace("bola"[0]); }
    AsWrittenDropsLastChar("bol", 'a', 't');
    assert !PrefixCI("bolt", "bola") by { assert LowerChar("bolt"[3]) != LowerChar("bola"[3]); }
    assert !ContainsCI("bolt"[1..], "bola");
  }
}

=== FILE: source_service.dfy ===
/**
 * The source service: listing and lookup of publishers, creation with a duplicate
 * check on (name, country), field updates, soft deletion, and re-pointing posts that
 * still carry a publisher name in their legacy `source` field.  Unlike the other
 * services, none of its reads filters on `isDeleted`.
 */
module SourceService {
  import opened Wrappers
  import opened Ordering
  import opened Store
  import opened Models
  import opened Constants
  import opened Search

  /** The options of `getSources`; an empty string stands for an absent option. */
  datatype SourcesQuery = SourcesQuery(
    limit: int,
    page: int,
    query: Filter,
    search: string,
    country: string,
    sort: SortSpec)

  /** The default sort: by name, ascending. */
  const NameAscending := SortSpec("name", false)

  /** The options when the caller gives none: page 1 of 10, by name. */
  function DefaultSourcesQuery(): (q: SourcesQuery)
    ensures q.page == 1 && q.limit == 10 && q.sort == NameAscending
    ensures q.query == map[] && q.search == "" && q.country == ""
  {
    SourcesQuery(10, 1, map[], "", "", NameAscending)
  }

  /** The filter `getSources` runs: the search and country conditions, then the
      caller's query over them.  Nothing excludes deleted sources. */
  function SourcesFilter(q: SourcesQuery): (f: Filter)
    ensures forall k :: k in f <==> k in q.query || (k == "name" && q.search != "") || (k == "country" && q.country != "")
    ensures forall k :: k in q.query ==> f[k] == q.query[k]
    ensures "name" !in q.query && q.search != "" ==> f["name"] == Like(PatternAsWritten(q.search))
    ensures "country" !in q.query && q.country != "" ==> f["country"] == Eq(Str(q.country))
  {
    PutIf(PutIf(map[], q.search != "", "name", Like(PatternAsWritten(q.search))),
          q.country != "", "country", Eq(Str(q.country))) + q.query
  }

  /** `getSources`: a page of matching sources in the requested order, and how many
      match in all. */
  function GetSources(db: Db, q: SourcesQuery, regex: Regex): (r: Result<Listing>)
    ensures r.Err? <==> Skip(q.page, q.limit) < 0
    ensures r.Ok? ==> forall id :: id in r.value.ids ==>
      id in db.sources && Matches(SourcesFilter(q), id, db.sources[id], SourceView, regex)
    ensures r.Ok? ==> Sorted(r.value.ids, SortKey(db.sources, SourceView, q.sort.field), q.sort.desc)
    ensures r.Ok? && q.limit != 0 ==> |r.value.ids| <= Abs(q.limit)
    ensures r.Ok? ==> r.value.count == Count(db.sources, db.next, SourcesFilter(q), SourceView, regex)
    ensures r.Ok? ==> IsWindow(Ranked(db.sources, db.next, SourcesFilter(q), SourceView, regex, q.sort), Min(Skip(q.page, q.limit), r.value.count), r.value.ids)
    ensures r.Ok? ==> |r.value.ids| == PageSize(r.value.count, q.page, q.limit)
  {
    FindListing(db.sources, db.next, SourcesFilter(q), SourceView, regex, q.sort, q.page, q.limit)
  }

  /** `getSource`: the first source matching the query, deleted or not. */
  function GetSource(db: Db, query: Filter, regex: Regex): (r: Option<Id>)
    ensures r.Some? ==> r.value in db.sources && Matches(query, r.value, db.sources[r.value], SourceView, regex)
    ensures r.None? ==> forall id :: id in db.sources && id < db.next ==>
                          !Matches(query, id, db.sources[id], SourceView, regex)
  {
    First(db.sources, db.next, query, SourceView, regex)
  }

  /** The duplicate check of `createSource`: `{name, country}`, where an absent country
      drops out of the filter. */
  function SourceKey(name: string, country: Option<string>): (f: Filter)
    ensures "name" in f && f["name"] == Eq(Str(name))
    ensures "country" in f <==> country.Some?
    ensures country.Some? ==> f["country"] == Eq(Str(country.value))
    ensures forall k :: k in f ==> k == "name" || k == "country"
  {
    PutIf(map["name" := Eq(Str(name))], country.Some?, "country", Eq(Str(country.GetOr(""))))
  }

  /** A stored source, deleted or not, has this name and, when one is given, this country. */
  predicate NameTaken(db: Db, name: string, country: Option<string>) {
    exists id :: id in db.sources && db.sources[id].name == Some(name)
                 && (country.Some? ==> db.sources[id].country == country.value)
  }

  lemma SourceKeyMatches(name: string, country: Option<string>, id: Id, s: Source)
    ensures Matches(SourceKey(name, country), id, s, SourceView, NoRegex())
            <==> s.name == Some(name) && (country.Some? ==> s.country == country.value)
  {
    SourceViewFields(id, s);
    var f := SourceKey(name, country);
    assert CondHolds("name", f["name"], id, s, SourceView, NoRegex()) <==> s.name == Some(name);
    if country.Some? {
      assert CondHolds("country", f["country"], id, s, SourceView, NoRegex()) <==> s.country == country.value;
    }
  }

  lemma SourceKeyFinds(db: Db, name: string, country: Option<string>)
    requires Below(db.sources, db.next)
    ensures GetSource(db, SourceKey(name, country), NoRegex()).Some? <==> NameTaken(db, name, country)
  {
    var r := GetSource(db, SourceKey(name, country), NoRegex());
    if r.Some? {
      SourceKeyMatches(name, country, r.value, db.sources[r.value]);
    }
    if NameTaken(db, name, country) {
      var id :| id in db.sources && db.sources[id].name == Some(name)
                && (country.Some? ==> db.sources[id].country == country.value);
      SourceKeyMatches(name, country, id, db.sources[id]);
    }
  }

  /** `{source: name}` on posts: the posts whose legacy publisher name is `name`. */
  function LegacySource(name: string): Filter {
    map["source" := Eq(Str(name))]
  }

  lemma LegacySourceMatches(name: string, id: Id, p: Post)
    ensures Matches(LegacySource(name), id, p, PostView, NoRegex()) <==> p.source == Some(name)
  {
    PostViewFields(id, p);
    assert "source" in LegacySource(name);
  }

  /** `replaceSource`: exactly the posts whose legacy `source` is `name` now reference
      `newId`, deleted or not; nothing else changes. */
  function ReplaceSource(db: Db, name: string, newId: Id): (r: Db)
    ensures r == db.(posts := r.posts)
    ensures r.posts.Keys == db.posts.Keys
    ensures forall id :: id in db.posts && db.posts[id].source == Some(name) ==>
      r.posts[id] == db.posts[id].(src := Some(newId))
    ensures forall id :: id in db.posts && db.posts[id].source != Some(name) ==> r.posts[id] == db.posts[id]
  {
    var posts := UpdateWhere(db.posts, LegacySource(name), PostView, NoRegex(), (p: Post) => p.(src := Some(newId)));
    forall id | id in db.posts
      ensures Matches(LegacySource(name), id, db.posts[id], PostView, NoRegex()) <==> db.posts[id].source == Some(name)
    {
      LegacySourceMatches(name, id, db.posts[id]);
    }
    db.(posts := posts)
  }

  /** The message of the duplicate check. */
  const SourceExists := "Source with that name already exists."

  /** `createSource`: rejected with 400 when a source with this name (and country, when
      given) exists; otherwise the source is stored under the next id with the country
      defaulting to "NG", and the posts that name it in their legacy field are pointed
      at it. */
  function CreateSource(db: Db, name: string, searchUrl: string, image: Option<string>,
                        country: Option<string>): (r: Result<(Db, Id)>)
    requires Valid(db)
    ensures r.Err? <==> NameTaken(db, name, country)
    ensures r.Err? ==> r.error == BadRequest(SourceExists) && r.error.Status() == 400
    ensures r.Ok? ==> r.value.1 == db.next && Valid(r.value.0)
    ensures r.Ok? ==> r.value.0.sources == db.sources[db.next := Source(Some(name), Some(searchUrl), image,
                                                                       country.GetOr(DefaultCountryCode), false)]
    ensures r.Ok? ==> r.value.0 == ReplaceSource(db, name, db.next).(sources := r.value.0.sources, next := db.next + 1)
  {
    SourceKeyFinds(db, name, country);
    if GetSource(db, SourceKey(name, country), NoRegex()).Some? then Err(BadRequest(SourceExists))
    else
      var s := Source(Some(name), Some(searchUrl), image, country.GetOr(DefaultCountryCode), false);
      var db1 := db.(sources := db.sources[db.next := s], next := db.next + 1);
      Ok((ReplaceSource(db1, name, db.next), db.next))
  }

  /** Once a source is created, creating it again with the same name and country is
      rejected. */
  lemma CreateSourceTwiceRejected(db: Db, name: string, searchUrl: string, image: Option<string>,
                                  country: Option<string>)
    requires Valid(db) && CreateSource(db, name, searchUrl, image, country).Ok?
    ensures CreateSource(CreateSource(db, name, searchUrl, image, country).value.0, name, searchUrl, image, country).Err?
  {
    var db2 := CreateSource(db, name, searchUrl, image, country).value.0;
    assert db.next in db2.sources && db2.sources[db.next].name == Some(name);
    assert country.Some? ==> db2.sources[db.next].country == country.value;
  }

  /** The fields `updateSource` may set; an absent field is left alone. */
  datatype SourcePatch = SourcePatch(
    name: Option<string>,
    searchUrl: Option<string>,
    image: Option<string>,
    country: Option<string>)

  function ApplySourcePatch(s: Source, patch: SourcePatch): (r: Source)
    ensures r.isDeleted == s.isDeleted
    ensures r.name == (if patch.name.Some? then patch.name else s.name)
    ensures r.searchUrl == (if patch.searchUrl.Some? then patch.searchUrl else s.searchUrl)
    ensures r.image == (if patch.image.Some? then patch.image else s.image)
    ensures r.country == patch.country.GetOr(s.country)
  {
    s.(name := if patch.name.Some? then patch.name else s.name,
       searchUrl := if patch.searchUrl.Some? then patch.searchUrl else s.searchUrl,
       image := if patch.image.Some? then patch.image else s.image,
       country := patch.country.GetOr(s.country))
  }

  /** `updateSource`: "not found" when no source matches; otherwise the supplied fields
      of the first match are set and nothing else changes. */
  function UpdateSource(db: Db, query: Filter, patch: SourcePatch, regex: Regex): (r: Result<(Db, Id)>)
    ensures GetSource(db, query, regex).None? <==> r.Err?
    ensures r.Err? ==> r.error == NotFound("No source with that id exists.") && r.error.Status() == 404
    ensures r.Ok? ==> GetSource(db, query, regex) == Some(r.value.1)
    ensures r.Ok? ==> r.value.0 == db.(sources := db.sources[r.value.1 := ApplySourcePatch(db.sources[r.value.1], patch)])
  {
    match GetSource(db, query, regex)
    case None => Err(NotFound("No source with that id exists."))
    case Some(id) => Ok((db.(sources := db.sources[id := ApplySourcePatch(db.sources[id], patch)]), id))
  }

  /** `deleteSources`: the listed sources are flagged deleted and nothing else changes. */
  function DeleteSources(db: Db, ids: seq<Id>): (r: Db)
    ensures r == db.(sources := r.sources)
    ensures r.sources.Keys == db.sources.Keys
    ensures forall id :: id in db.sources && id in ids ==> r.sources[id] == db.sources[id].(isDeleted := true)
    ensures forall id :: id in db.sources && id !in ids ==> r.sources[id] == db.sources[id]
  {
    IdInSelectsListed(db.sources, ids, SourceView, NoRegex());
    db.(sources := UpdateWhere(db.sources, IdIn(ids), SourceView, NoRegex(), (s: Source) => s.(isDeleted := true)))
  }

  /** `countSources`: how many sources match, deleted or not. */
  function CountSources(db: Db, query: Filter, regex: Regex): (c: nat)
    ensures c <= db.next
    ensures c == 0 <==> GetSource(db, query, regex).None?
    ensures c == |Matching(db.sources, db.next, query, SourceView, regex)|
  {
    CountIsMatching(db.sources, db.next, query, SourceView, regex);
    var all := Select(db.sources, db.next, query, SourceView, regex);
    assert all != [] ==> all[0] in all;
    Count(db.sources, db.next, query, SourceView, regex)
  }

  /** Deletion does not hide a source: it is still found by id and still counted. */
  lemma DeletedSourceStillFound(db: Db, id: Id)
    requires id in db.sources && id < db.next
    ensures GetSource(DeleteSources(db, [id]), IdIs(id), NoRegex()) == Some(id)
    ensures CountSources(DeleteSources(db, [id]), IdIs(id), NoRegex()) > 0
  {
    var db2 := DeleteSources(db, [id]);
    SourceViewFields(id, db2.sources[id]);
    IdIsMatches(id, id, db2.sources[id], SourceView, NoRegex());
    var r := GetSource(db2, IdIs(id), NoRegex());
    SourceViewFields(r.value, db2.sources[r.value]);
    IdIsMatches(id, r.value, db2.sources[r.value], SourceView, NoRegex());
  }
}

=== FILE: store.dfy ===
/**
 * The document store the services talk to, reduced to what they use: collections of
 * records keyed by id in insertion order, filter documents built by object spread,
 * `find`/`findOne`/`count` over a filter, `.sort`, `.skip`/`.limit` pagination, and
 * `updateMany`.  A collection's natural order is ascending id.
 */
module Store {
  import opened Wrappers
  import opened Ordering

  /** A document id.  Ids are handed out in increasing order, so ascending id is
      insertion order (and the order of `createdAt`). */
  type Id = nat

  /** A field value as a filter or sort sees it. */
  datatype Value =
    | Null                    // a field the document does not have
    | Str(s: string)
    | Int(i: int)             // numbers and dates (epoch milliseconds)
    | Bool(b: bool)
    | Ref(id: Id)             // an ObjectId
    | Refs(ids: seq<Id>)      // an array of ObjectIds

  /** One condition of a filter document. */
  datatype Cond =
    | Eq(v: Value)                                  // `{field: v}`
    | In(vs: seq<Value>)                            // `{field: {$in: vs}}`
    | Like(pattern: string)                         // `{field: {$regex: pattern, $options: 'i'}}`
    | Within(from: Option<int>, to: Option<int>)    // `{field: {$gte: from, $lte: to}}`
    | OrLike(fields: seq<string>, pattern: string)  // `{$or: [{f: {$regex: pattern}} ...]}`

  /** A filter document: field name to condition.  Object spread `{...a, ...b}` is the
      map union `a + b`, in which `b` wins on a shared field. */
  type Filter = map<string, Cond>

  /** The regular-expression test the store applies for `$regex` with option `i`:
      `regex(pattern, text)`.  The pattern language is not modelled. */
  type Regex = (string, string) -> bool

  /** How a collection's records expose their fields to filters and sorts. */
  type View<!T> = (Id, T, string) -> Value

  /** `{field: v}`: equality, or membership when the field holds an array of ids. */
  predicate EqMatch(w: Value, v: Value) {
    w == v || (w.Refs? && v.Ref? && v.id in w.ids)
  }

  predicate CondHolds<T>(key: string, c: Cond, id: Id, t: T, view: View<T>, regex: Regex) {
    var w := view(id, t, key);
    match c
    case Eq(v) => EqMatch(w, v)
    case In(vs) => exists i :: 0 <= i < |vs| && EqMatch(w, vs[i])
    case Like(p) => w.Str? && regex(p, w.s)
    case Within(from, to) =>
      w.Int? && (from.Some? ==> from.value <= w.i) && (to.Some? ==> w.i <= to.value)
    case OrLike(fields, p) =>
      exists i :: 0 <= i < |fields| && view(id, t, fields[i]).Str? && regex(p, view(id, t, fields[i]).s)
  }

  /** A record matches a filter when every condition holds. */
  predicate Matches<T>(f: Filter, id: Id, t: T, view: View<T>, regex: Regex) {
    forall key :: key in f ==> CondHolds(key, f[key], id, t, view, regex)
  }

  /** The regular-expression test for filters that hold no `$regex` condition, where
      it is never consulted. */
  function NoRegex(): Regex {
    (p, t) => false
  }

  /** In a spread `{...f, ...g}` every condition of `f` that `g` does not override still
      has to hold. */
  lemma SpreadKeeps<T>(f: Filter, g: Filter, id: Id, t: T, view: View<T>, regex: Regex)
    requires Matches(f + g, id, t, view, regex)
    ensures forall key :: key in f && key !in g ==> CondHolds(key, f[key], id, t, view, regex)
  {
    forall key | key in f && key !in g
      ensures CondHolds(key, f[key], id, t, view, regex)
    {
      assert key in f + g && (f + g)[key] == f[key];
    }
  }

  /** The condition a filter ends with after `{...f, field: c}`: the forced field wins
      whatever `f` said about it. */
  lemma ForcedLast<T>(f: Filter, field: string, c: Cond, id: Id, t: T, view: View<T>, regex: Regex)
    requires Matches(f + map[field := c], id, t, view, regex)
    ensures CondHolds(field, c, id, t, view, regex)
  {
    assert field in f + map[field := c];
  }

  predicate Increasing(s: seq<Id>) {
    forall i, j :: 0 <= i < j < |s| ==> s[i] < s[j]
  }

  /** `find(f)` in natural order: the ids below `n` of the records that match. */
  function Select<T>(rows: map<Id, T>, n: nat, f: Filter, view: View<T>, regex: Regex): (r: seq<Id>)
    ensures Increasing(r)
    ensures forall id :: id in r <==> id < n && id in rows && Matches(f, id, rows[id], view, regex)
  {
    if n == 0 then []
    else
      var prev := Select(rows, n - 1, f, view, regex);
      var k := n - 1;
      if k in rows && Matches(f, k, rows[k], view, regex) then
        AppendIncreasing(prev, k);
        prev + [k]
      else prev
  }

  lemma AppendIncreasing(s: seq<Id>, k: Id)
    requires Increasing(s) && forall x :: x in s ==> x < k
    ensures Increasing(s + [k])
  {
    forall i, j | 0 <= i < j < |s| + 1
      ensures (s + [k])[i] < (s + [k])[j]
    {
      if j == |s| {
        assert s[i] in s;
      }
    }
  }

  /** `findOne(f)`: the first matching record in natural order, if any. */
  function First<T>(rows: map<Id, T>, n: nat, f: Filter, view: View<T>, regex: Regex): (r: Option<Id>)
    ensures r.Some? ==> r.value < n && r.value in rows && Matches(f, r.value, rows[r.value], view, regex)
    ensures r.Some? ==> forall id :: id < r.value && id in rows ==> !Matches(f, id, rows[id], view, regex)
    ensures r.None? ==> forall id :: id < n && id in rows ==> !Matches(f, id, rows[id], view, regex)
  {
    var all := Select(rows, n, f, view, regex);
    if all == [] then None
    else
      assert all[0] in all;
      assert forall id :: id in all ==> all[0] <= id by {
        forall id | id in all ensures all[0] <= id {
          var j :| 0 <= j < |all| && all[j] == id;
        }
      }
      Some(all[0])
  }

  /** When exactly one record matches, `findOne` finds it. */
  lemma FirstUnique<T>(rows: map<Id, T>, n: nat, f: Filter, view: View<T>, regex: Regex, k: Id)
    requires k < n && k in rows && Matches(f, k, rows[k], view, regex)
    requires forall id :: id in rows && id < n && Matches(f, id, rows[id], view, regex) ==> id == k
    ensures First(rows, n, f, view, regex) == Some(k)
  {
  }

  /** The number of documents `.skip((page - 1) * limit)` passes over. */
  function Skip(page: int, limit: int): int {
    (page - 1) * limit
  }

  /** `w` is the run of `items` that starts at position `from`. */
  ghost predicate IsWindow<T>(items: seq<T>, from: int, w: seq<T>) {
    0 <= from && from + |w| <= |items| && w == items[from..from + |w|]
  }

  /** `.skip((page - 1) * limit).limit(limit)`: a negative skip is rejected by the store;
      a zero limit means no limit, a negative one the same as its absolute value. */
  function Page<T>(items: seq<T>, page: int, limit: int): (r: Result<seq<T>>)
    ensures r.Err? <==> Skip(page, limit) < 0
    ensures r.Ok? ==> IsWindow(items, Min(Skip(page, limit), |items|), r.value)
    ensures r.Ok? ==> |r.value| == PageSize(|items|, page, limit)
  {
    var skip := Skip(page, limit);
    if skip < 0 then Err(StoreError("BadValue: skip value must be non-negative"))
    else
      var rest := if skip >= |items| then [] else items[skip..];
      var lim := Abs(limit);
      Ok(if lim == 0 || lim >= |rest| then rest else rest[..lim])
  }

  /** How many of `total` items page `page` holds: the rest after the skip, cut to the
      limit unless the limit is zero. */
  function PageSize(total: nat, page: int, limit: int): int {
    var rest := total - Min(Skip(page, limit), total);
    if limit == 0 then rest else Min(Abs(limit), rest)
  }

  function Abs(x: int): nat {
    if x < 0 then -x else x
  }

  function Min(a: int, b: int): int {
    if a <= b then a else b
  }

  /** Consecutive pages of a positive size follow one another without gap or overlap:
      together they are the run of the input that starts where the first one does. */
  lemma PagesAdjacent<T>(items: seq<T>, page: int, limit: int)
    requires page >= 1 && limit > 0 && Skip(page + 1, limit) <= |items|
    ensures Page(items, page, limit).Ok? && Page(items, page + 1, limit).Ok?
    ensures IsWindow(items, Skip(page, limit), Page(items, page, limit).value + Page(items, page + 1, limit).value)
  {
    var s := Skip(page, limit);
    assert Skip(page + 1, limit) == s + limit;
    var a := Page(items, page, limit).value;
    var b := Page(items, page + 1, limit).value;
    assert |a| == limit;
    WindowsJoin(items, s, a, b);
  }

  lemma WindowsJoin<T>(items: seq<T>, from: int, a: seq<T>, b: seq<T>)
    requires IsWindow(items, from, a) && IsWindow(items, from + |a|, b)
    ensures IsWindow(items, from, a + b)
  {
    forall k | 0 <= k < |a + b|
      ensures (a + b)[k] == items[from..from + |a + b|][k]
    {
      if k >= |a| {
        assert (a + b)[k] == b[k - |a|];
      }
    }
  }

  /** A `.sort({field: dir})` specification. */
  datatype SortSpec = SortSpec(field: string, desc: bool)

  function KeyOf(v: Value): Key {
    match v
    case Null => Missing
    case Str(s) => Text(s)
    case Int(i) => Num(i)
    case Bool(b) => Num(if b then 1 else 0)
    case Ref(id) => Num(id)
    case Refs(_) => Missing
  }

  /** The sort key of a record id; ids outside the collection sort as missing. */
  function SortKey<T>(rows: map<Id, T>, view: View<T>, field: string): Id -> Key {
    id => if id in rows then KeyOf(view(id, rows[id], field)) else Missing
  }

  /** All matching records in the order of `spec` (records with equal keys in the order
      the model's sort leaves them). */
  function Ranked<T>(rows: map<Id, T>, n: nat, f: Filter, view: View<T>, regex: Regex, sort: SortSpec): seq<Id> {
    SortBy(Select(rows, n, f, view, regex), SortKey(rows, view, sort.field), sort.desc)
  }

  /** `find(f).sort(spec).skip(...).limit(...)`: the store sorts the whole result before
      skipping, so pages are windows of the sorted sequence. */
  function FindPage<T>(rows: map<Id, T>, n: nat, f: Filter, view: View<T>, regex: Regex,
                       sort: SortSpec, page: int, limit: int): (r: Result<seq<Id>>)
    ensures r.Ok? ==> forall id :: id in r.value ==>
      id < n && id in rows && Matches(f, id, rows[id], view, regex)
    ensures r.Ok? ==> Sorted(r.value, SortKey(rows, view, sort.field), sort.desc)
    ensures r.Ok? && limit != 0 ==> |r.value| <= Abs(limit)
    ensures r.Err? <==> Skip(page, limit) < 0
    ensures r.Ok? ==> IsWindow(Ranked(rows, n, f, view, regex, sort), Min(Skip(page, limit), Count(rows, n, f, view, regex)), r.value)
    ensures r.Ok? ==> |r.value| == PageSize(Count(rows, n, f, view, regex), page, limit)
  {
    var sorted := Ranked(rows, n, f, view, regex, sort);
    var r := Page(sorted, page, limit);
    if r.Ok? then
      FindPageOk(rows, n, f, view, regex, sort, sorted, Min(Skip(page, limit), |sorted|), r.value);
      r
    else r
  }

  lemma FindPageOk<T>(rows: map<Id, T>, n: nat, f: Filter, view: View<T>, regex: Regex,
                      sort: SortSpec, sorted: seq<Id>, from: int, w: seq<Id>)
    requires sorted == SortBy(Select(rows, n, f, view, regex), SortKey(rows, view, sort.field), sort.desc)
    requires IsWindow(sorted, from, w)
    ensures forall id :: id in w ==> id < n && id in rows && Matches(f, id, rows[id], view, regex)
    ensures Sorted(w, SortKey(rows, view, sort.field), sort.desc)
  {
    var all := Select(rows, n, f, view, regex);
    forall id | id in w
      ensures id in all
    {
      assert id in sorted;
      assert id in multiset(sorted);
    }
    SliceSorted(sorted, SortKey(rows, view, sort.field), sort.desc, from, w);
  }

  lemma SliceSorted<T>(s: seq<T>, key: T -> Key, desc: bool, a: int, w: seq<T>)
    requires Sorted(s, key, desc) && IsWindow(s, a, w)
    ensures Sorted(w, key, desc)
  {
    forall i | 0 <= i < |w| - 1
      ensures InOrder(key(w[i]), key(w[i + 1]), desc)
    {
      assert w[i] == s[a + i] && w[i + 1] == s[a + i + 1];
    }
  }

  /** The first page without a limit holds every matching record. */
  lemma FindPageAll<T>(rows: map<Id, T>, n: nat, f: Filter, view: View<T>, regex: Regex, sort: SortSpec)
    ensures FindPage(rows, n, f, view, regex, sort, 1, 0).Ok?
    ensures |FindPage(rows, n, f, view, regex, sort, 1, 0).value| == Count(rows, n, f, view, regex)
  {
  }

  /** A sort on a field no record has imposes no order: every arrangement of the ids
      counts as sorted, so the store may hand the matches back in any order. */
  lemma MissingFieldImposesNoOrder<T>(rows: map<Id, T>, view: View<T>, sort: SortSpec, s: seq<Id>)
    requires forall id, t :: view(id, t, sort.field) == Null
    ensures Sorted(s, SortKey(rows, view, sort.field), sort.desc)
  {
    var key := SortKey(rows, view, sort.field);
    forall i | 0 <= i < |s| - 1
      ensures InOrder(key(s[i]), key(s[i + 1]), sort.desc)
    {
      assert key(s[i]) == Missing && key(s[i + 1]) == Missing;
    }
  }

  /** `count(f)`: the number of matching records. */
  function Count<T>(rows: map<Id, T>, n: nat, f: Filter, view: View<T>, regex: Regex): (c: nat)
    ensures c == |Select(rows, n, f, view, regex)|
    ensures c <= n
  {
    SelectBelow(rows, n, f, view, regex);
    |Select(rows, n, f, view, regex)|
  }

  /** The records below `n` that match `f`, as a set. */
  function Matching<T>(rows: map<Id, T>, n: nat, f: Filter, view: View<T>, regex: Regex): set<Id> {
    set id | id in rows && id < n && Matches(f, id, rows[id], view, regex)
  }

  /** `count(f)` is the number of matching records. */
  lemma CountIsMatching<T>(rows: map<Id, T>, n: nat, f: Filter, view: View<T>, regex: Regex)
    ensures Count(rows, n, f, view, regex) == |Matching(rows, n, f, view, regex)|
  {
    var all := Select(rows, n, f, view, regex);
    ElemsOf(all);
    assert Matching(rows, n, f, view, regex) == Elems(all);
    IncreasingCard(all);
  }

  /** The elements of a sequence, as a set. */
  function Elems(s: seq<Id>): set<Id> {
    if s == [] then {} else {s[0]} + Elems(s[1..])
  }

  lemma {:induction false} ElemsOf(s: seq<Id>)
    ensures forall id :: id in Elems(s) <==> id in s
  {
    if s != [] {
      ElemsOf(s[1..]);
      assert forall id :: id in s <==> id == s[0] || id in s[1..];
    }
  }

  /** A strictly increasing sequence has as many elements as it has distinct ones. */
  lemma {:induction false} IncreasingCard(s: seq<Id>)
    requires Increasing(s)
    ensures |Elems(s)| == |s|
  {
    if s != [] {
      var t := s[1..];
      assert Increasing(t) by {
        forall i, j | 0 <= i < j < |t| ensures t[i] < t[j] {
          assert t[i] == s[i + 1] && t[j] == s[j + 1];
        }
      }
      IncreasingCard(t);
      ElemsOf(t);
      assert s[0] !in t by {
        forall j | 0 <= j < |t| ensures t[j] != s[0] {
          assert t[j] == s[j + 1];
        }
      }
    }
  }

  /** A page of results with the number of all matching records. */
  datatype Listing = Listing(ids: seq<Id>, count: nat)

  /** What the list services return: `count(f)` next to `find(f).sort(...).skip(...).limit(...)`. */
  function FindListing<T>(rows: map<Id, T>, n: nat, f: Filter, view: View<T>, regex: Regex,
                          sort: SortSpec, page: int, limit: int): (r: Result<Listing>)
    ensures r.Err? <==> Skip(page, limit) < 0
    ensures r.Ok? ==> forall id :: id in r.value.ids ==>
      id < n && id in rows && Matches(f, id, rows[id], view, regex)
    ensures r.Ok? ==> Sorted(r.value.ids, SortKey(rows, view, sort.field), sort.desc)
    ensures r.Ok? && limit != 0 ==> |r.value.ids| <= Abs(limit)
    ensures r.Ok? ==> r.value.count == Count(rows, n, f, view, regex) && |r.value.ids| <= r.value.count
    ensures r.Ok? ==> IsWindow(Ranked(rows, n, f, view, regex, sort), Min(Skip(page, limit), r.value.count), r.value.ids)
    ensures r.Ok? ==> |r.value.ids| == PageSize(r.value.count, page, limit)
  {
    match FindPage(rows, n, f, view, regex, sort, page, limit)
    case Err(e) => Err(e)
    case Ok(ids) =>
      FindPageShorter(rows, n, f, view, regex, sort, page, limit);
      Ok(Listing(ids, Count(rows, n, f, view, regex)))
  }

  /** A page holds no more records than match. */
  lemma FindPageShorter<T>(rows: map<Id, T>, n: nat, f: Filter, view: View<T>, regex: Regex,
                           sort: SortSpec, page: int, limit: int)
    ensures FindPage(rows, n, f, view, regex, sort, page, limit).Ok? ==>
            |FindPage(rows, n, f, view, regex, sort, page, limit).value| <= Count(rows, n, f, view, regex)
  {
  }

  /** `f` with `key` set to `c` when `present` holds: the conditional spread
      `...(present ? {key: c} : {})`. */
  function PutIf(f: Filter, present: bool, key: string, c: Cond): (r: Filter)
    ensures forall k :: k in r <==> k in f || (present && k == key)
    ensures present ==> r[key] == c
    ensures forall k :: k in f && (!present || k != key) ==> r[k] == f[k]
  {
    if present then f[key := c] else f
  }

  /** What record `k` adds to a count: 1 when it is stored below `n` and matches. */
  function Hit<T>(rows: map<Id, T>, n: nat, f: Filter, view: View<T>, regex: Regex, k: Id): nat {
    if k < n && k in rows && Matches(f, k, rows[k], view, regex) then 1 else 0
  }

  /** Adding, removing or replacing the one record `k` changes a count by what that
      record contributed before and after, and by nothing else. */
  lemma {:induction false} CountOneChange<T>(rows: map<Id, T>, rows2: map<Id, T>, n: nat, f: Filter,
                                             view: View<T>, regex: Regex, k: Id)
    requires forall id :: id != k ==> (id in rows <==> id in rows2)
    requires forall id :: id != k && id in rows ==> rows[id] == rows2[id]
    ensures Count(rows2, n, f, view, regex) + Hit(rows, n, f, view, regex, k)
            == Count(rows, n, f, view, regex) + Hit(rows2, n, f, view, regex, k)
    decreases n
  {
    if n > 0 {
      CountOneChange(rows, rows2, n - 1, f, view, regex, k);
    }
  }

  /** Counting one id further adds what that id contributes. */
  lemma CountExtend<T>(rows: map<Id, T>, n: nat, f: Filter, view: View<T>, regex: Regex)
    ensures Count(rows, n + 1, f, view, regex) == Count(rows, n, f, view, regex) + Hit(rows, n + 1, f, view, regex, n)
  {
  }

  /** A strictly increasing sequence of ids below `n` has at most `n` elements. */
  lemma SelectBelow<T>(rows: map<Id, T>, n: nat, f: Filter, view: View<T>, regex: Regex)
    ensures |Select(rows, n, f, view, regex)| <= n
  {
    if n > 0 {
      SelectBelow(rows, n - 1, f, view, regex);
    }
  }

  /** `updateMany(f, change)`: every matching record is changed, every other record
      and the set of ids are left alone. */
  function UpdateWhere<T>(rows: map<Id, T>, f: Filter, view: View<T>, regex: Regex, change: T -> T): (r: map<Id, T>)
    ensures r.Keys == rows.Keys
    ensures forall id :: id in rows && Matches(f, id, rows[id], view, regex) ==> r[id] == change(rows[id])
    ensures forall id :: id in rows && !Matches(f, id, rows[id], view, regex) ==> r[id] == rows[id]
  {
    map id | id in rows :: if Matches(f, id, rows[id], view, regex) then change(rows[id]) else rows[id]
  }

  /** `insertMany(items)` once every item has passed validation: the items get the next
      ids in order, and every record already stored is kept as it was. */
  function InsertAll<T>(rows: map<Id, T>, next: Id, items: seq<T>): (r: map<Id, T>)
    requires Below(rows, next)
    ensures forall id :: id in r <==> id in rows || next <= id < next + |items|
    ensures forall id :: id in rows ==> r[id] == rows[id]
    ensures forall k :: 0 <= k < |items| ==> r[next + k] == items[k]
    ensures Below(r, next + |items|)
    decreases |items|
  {
    if items == [] then rows
    else
      var r := InsertAll(rows[next := items[0]], next + 1, items[1..]);
      assert forall k :: 1 <= k < |items| ==> items[k] == items[1..][k - 1];
      r
  }

  /** Every key of a collection lies below the next id to be handed out. */
  predicate Below<T>(rows: map<Id, T>, n: nat) {
    forall id :: id in rows ==> id < n
  }
}

=== FILE: users.dfy ===
/**
 * Looking a user up by e-mail, as both the vote and the login controllers do with
 * `getUser({email})`: the first stored user carrying that address.
 */
module UserService {
  import opened Wrappers
  import opened Store
  import opened Models

  /** `{email}` on users. */
  function EmailIs(email: string): Filter {
    map["email" := Eq(Str(email))]
  }

  lemma EmailIsMatches(email: string, id: Id, u: User, regex: Regex)
    ensures Matches(EmailIs(email), id, u, UserView, regex) <==> u.email == email
  {
    assert EmailIs(email).Keys == {"email"};
    UserViewFields(id, u);
  }

  /** `getUser({email})`: the first user with the e-mail. */
  function FindUser(db: Db, email: string): (r: Option<Id>)
    ensures r.Some? ==> r.value in db.users && r.value < db.next && db.users[r.value].email == email
    ensures r.None? ==> forall id :: id in db.users && id < db.next ==> db.users[id].email != email
  {
    var r := First(db.users, db.next, EmailIs(email), UserView, NoRegex());
    if r.Some? then
      EmailIsMatches(email, r.value, db.users[r.value], NoRegex());
      r
    else
      forall id | id in db.users && id < db.next
        ensures db.users[id].email != email
      {
        EmailIsMatches(email, id, db.users[id], NoRegex());
      }
      r
  }

  /** In a valid store the e-mail index is unique, so a stored user is exactly what
      looking up its e-mail finds. */
  lemma FindUserByEmail(db: Db, k: Id)
    requires Valid(db) && k in db.users
    ensures FindUser(db, db.users[k].email) == Some(k)
  {
    var email := db.users[k].email;
    EmailIsMatches(email, k, db.users[k], NoRegex());
    forall id | id in db.users && id < db.next && Matches(EmailIs(email), id, db.users[id], UserView, NoRegex())
      ensures id == k
    {
      EmailIsMatches(email, id, db.users[id], NoRegex());
    }
    FirstUnique(db.users, db.next, EmailIs(email), UserView, NoRegex(), k);
  }
}

=== FILE: vote_controller.dfy ===
/**
 * The decision logic of voting on an activity: a user's vote is created, removed
 * (the same type again) or switched (the other type), and the reply carries the
 * activity's aggregate, upvotes minus downvotes, with a message naming what happened.
 */
module VoteController {
  import opened Wrappers
  import opened Store
  import opened Models
  import opened VoteService
  import opened UserService

  /** The reply: the activity's aggregate after the action, and the message. */
  datatype VoteOutcome = VoteOutcome(aggregate: int, message: string)

  /** `{activity, createdBy}` on votes. */
  function UserVote(activity: Id, user: Id): Filter {
    map["activity" := Eq(Ref(activity)), "createdBy" := Eq(Ref(user))]
  }

  lemma UserVoteMatches(activity: Id, user: Id, id: Id, v: Vote)
    ensures Matches(UserVote(activity, user), id, v, VoteView, NoRegex())
            <==> v.activity == Some(activity) && v.createdBy == Some(user)
  {
    var f := UserVote(activity, user);
    assert f.Keys == {"activity", "createdBy"};
    VoteViewFields(id, v);
  }

  /** `{activity, type}` on votes. */
  function TypeVotes(activity: Id, t: VoteType): Filter {
    map["activity" := Eq(Ref(activity)), "type" := Eq(Str(VoteTypeName(t)))]
  }

  lemma TypeVotesMatches(activity: Id, t: VoteType, id: Id, v: Vote)
    ensures Matches(TypeVotes(activity, t), id, v, VoteView, NoRegex())
            <==> v.activity == Some(activity) && v.vtype == t
  {
    var f := TypeVotes(activity, t);
    assert f.Keys == {"activity", "type"};
    VoteViewFields(id, v);
    assert VoteTypeName(v.vtype) == VoteTypeName(t) ==> ParseVoteType(VoteTypeName(v.vtype)) == ParseVoteType(VoteTypeName(t));
  }

  /** Upvotes minus downvotes on an activity. */
  function Aggregate(db: Db, activity: Id): int {
    CountVotes(db, TypeVotes(activity, Upvote), NoRegex()) - CountVotes(db, TypeVotes(activity, Downvote), NoRegex())
  }

  /** What a vote of type `t` adds to an aggregate. */
  function Weight(t: VoteType): int {
    if t == Upvote then 1 else -1
  }

  /** The user's earlier vote on the activity, if any. */
  function PriorVote(db: Db, user: Id, activity: Id): (r: Option<Id>)
    ensures r.Some? ==> r.value in db.votes && r.value < db.next
                        && db.votes[r.value].activity == Some(activity) && db.votes[r.value].createdBy == Some(user)
    ensures r.None? ==> forall id :: id in db.votes && id < db.next ==>
                          !(db.votes[id].activity == Some(activity) && db.votes[id].createdBy == Some(user))
  {
    var r := GetVote(db, UserVote(activity, user), NoRegex());
    if r.Some? then
      UserVoteMatches(activity, user, r.value, db.votes[r.value]);
      r
    else
      forall id | id in db.votes && id < db.next
        ensures !(db.votes[id].activity == Some(activity) && db.votes[id].createdBy == Some(user))
      {
        UserVoteMatches(activity, user, id, db.votes[id]);
      }
      r
  }

  /** The toggle stated directly on the vote collection: a new vote with the user's
      country when the user has none on the activity, removal when the earlier vote has
      the requested type, otherwise that vote with its type switched. */
  function Toggled(db: Db, user: Id, activity: Id, t: VoteType): Db
    requires user in db.users
  {
    match PriorVote(db, user, activity)
    case None => db.(votes := db.votes[db.next := Vote(t, Some(activity), Some(user), db.users[user].country)],
                     next := db.next + 1)
    case Some(k) =>
      if db.votes[k].vtype == t then db.(votes := db.votes - {k})
      else db.(votes := db.votes[k := db.votes[k].(vtype := t)])
  }

  /** The store action as the controller performs it, through the vote service: it is
      the toggle. */
  function ToggleVote(db: Db, user: Id, activity: Id, t: VoteType): (r: Db)
    requires Valid(db) && user in db.users
    ensures r == Toggled(db, user, activity, t)
  {
    match PriorVote(db, user, activity)
    case None =>
      CreateVote(db, VoteTypeName(t), activity, user, Some(db.users[user].country)).value.0
    case Some(k) =>
      GetVoteById(db, k, NoRegex());
      if db.votes[k].vtype == t then
        DeleteVote(db, IdIs(k), NoRegex()).value.0
      else
        SwitchVote(db, k, t);
        UpdateVote(db, IdIs(k), VotePatch(Some(VoteTypeName(t)), None, None, None), NoRegex()).value.0
  }

  lemma SwitchVote(db: Db, k: Id, t: VoteType)
    requires k in db.votes && k < db.next
    ensures UpdateVote(db, IdIs(k), VotePatch(Some(VoteTypeName(t)), None, None, None), NoRegex()).Ok?
    ensures UpdateVote(db, IdIs(k), VotePatch(Some(VoteTypeName(t)), None, None, None), NoRegex()).value.0
            == db.(votes := db.votes[k := db.votes[k].(vtype := t)])
  {
    GetVoteById(db, k, NoRegex());
    var patch := VotePatch(Some(VoteTypeName(t)), None, None, None);
    var v := PatchVote(db.votes[k], patch).value;
    assert v.vtype == t by {
      assert ParseVoteType(VoteTypeName(v.vtype)) == ParseVoteType(VoteTypeName(t));
    }
  }

  /** The toggle keeps the store's ids below the next one and its unique indexes. */
  lemma ToggledValid(db: Db, user: Id, activity: Id, t: VoteType)
    requires Valid(db) && user in db.users
    ensures Valid(Toggled(db, user, activity, t))
  {
    match PriorVote(db, user, activity)
    case None =>
      var v := Vote(t, Some(activity), Some(user), db.users[user].country);
      ValidWithVotes(db, db.votes[db.next := v], db.next + 1);
    case Some(k) =>
      if db.votes[k].vtype == t {
        ValidWithVotes(db, db.votes - {k}, db.next);
      } else {
        ValidWithVotes(db, db.votes[k := db.votes[k].(vtype := t)], db.next);
      }
  }

  /** The reply message. */
  function Message(prior: Option<VoteType>, t: VoteType): (m: string)
    ensures prior == Some(t) ==> m == "Vote removed successfully"
    ensures prior != Some(t) && t == Upvote ==> m == "Successfully upvoted activity"
    ensures prior != Some(t) && t == Downvote ==> m == "Successfully downvoted activity"
  {
    if prior == Some(t) then "Vote removed successfully"
    else match t
      case Upvote => "Successfully upvoted activity"
      case Downvote => "Successfully downvoted activity"
  }

  /** `handleVoteActivity`: "User not found" when no user has the e-mail, and nothing
      changes; otherwise the toggle, then the aggregate and the message. */
  function HandleVoteActivity(db: Db, email: string, activity: Id, t: VoteType): (r: Result<(Db, VoteOutcome)>)
    requires Valid(db)
    ensures r.Err? <==> FindUser(db, email).None?
    ensures r.Err? ==> r.error == NotFound("User not found") && r.error.Status() == 404
    ensures r.Ok? ==> r.value.0 == Toggled(db, FindUser(db, email).value, activity, t)
    ensures r.Ok? ==> r.value.1.aggregate == Aggregate(r.value.0, activity)
    ensures r.Ok? ==> r.value.1.message == Message(PriorType(db, FindUser(db, email).value, activity), t)
  {
    match FindUser(db, email)
    case None => Err(NotFound("User not found"))
    case Some(u) =>
      var db2 := ToggleVote(db, u, activity, t);
      Ok((db2, VoteOutcome(Aggregate(db2, activity), Message(PriorType(db, u, activity), t))))
  }

  /** At most one vote per (activity, user) pair. */
  predicate OneVoteEach(db: Db) {
    forall a, b :: a in db.votes && b in db.votes && db.votes[a].activity.Some? && db.votes[a].createdBy.Some?
                   && db.votes[a].activity == db.votes[b].activity && db.votes[a].createdBy == db.votes[b].createdBy
                   ==> a == b
  }

  /** Voting, repeated in sequence, never gives a user two votes on one activity. */
  lemma ToggleKeepsOneVoteEach(db: Db, user: Id, activity: Id, t: VoteType)
    requires Valid(db) && user in db.users && OneVoteEach(db)
    ensures OneVoteEach(Toggled(db, user, activity, t))
  {
    match PriorVote(db, user, activity)
    case None =>
      NewVoteKeepsOneEach(db, Vote(t, Some(activity), Some(user), db.users[user].country));
    case Some(k) =>
      if db.votes[k].vtype == t {
        RemoveKeepsOneEach(db, k);
      } else {
        SwitchKeepsOneEach(db, k, t);
      }
  }

  /** Adding a vote for a pair that has none keeps one vote per pair. */
  lemma NewVoteKeepsOneEach(db: Db, v: Vote)
    requires OneVoteEach(db) && Below(db.votes, db.next)
    requires forall id :: id in db.votes && id < db.next ==> !(db.votes[id].activity == v.activity && db.votes[id].createdBy == v.createdBy)
    ensures OneVoteEach(db.(votes := db.votes[db.next := v], next := db.next + 1))
  {
    var vs := db.votes[db.next := v];
    forall a, b | a in vs && b in vs && vs[a].activity.Some? && vs[a].createdBy.Some?
                  && vs[a].activity == vs[b].activity && vs[a].createdBy == vs[b].createdBy
      ensures a == b
    {
      if a != db.next && b != db.next {
        assert vs[a] == db.votes[a] && vs[b] == db.votes[b];
      }
    }
  }

  lemma RemoveKeepsOneEach(db: Db, k: Id)
    requires OneVoteEach(db)
    ensures OneVoteEach(db.(votes := db.votes - {k}))
  {
  }

  lemma SwitchKeepsOneEach(db: Db, k: Id, t: VoteType)
    requires OneVoteEach(db) && k in db.votes
    ensures OneVoteEach(db.(votes := db.votes[k := db.votes[k].(vtype := t)]))
  {
    var vs := db.votes[k := db.votes[k].(vtype := t)];
    forall a, b | a in vs && b in vs && vs[a].activity.Some? && vs[a].createdBy.Some?
                  && vs[a].activity == vs[b].activity && vs[a].createdBy == vs[b].createdBy
      ensures a == b
    {
      assert vs[a].activity == db.votes[a].activity && vs[a].createdBy == db.votes[a].createdBy;
      assert vs[b].activity == db.votes[b].activity && vs[b].createdBy == db.votes[b].createdBy;
    }
  }

  /** The type of the user's earlier vote on the activity, if any. */
  function PriorType(db: Db, user: Id, activity: Id): Option<VoteType> {
    var prior := PriorVote(db, user, activity);
    if prior.Some? then Some(db.votes[prior.value].vtype) else None
  }

  /** How a vote of type `t` moves the aggregate, given the type of the earlier vote. */
  function Shift(prior: Option<VoteType>, t: VoteType): int {
    if prior.None? then Weight(t) else if prior == Some(t) then -Weight(t) else 2 * Weight(t)
  }

  /** How the aggregate moves: a new vote adds its weight, removing a vote takes it
      away, and switching a vote moves the aggregate by twice the new weight. */
  lemma AggregateDelta(db: Db, user: Id, activity: Id, t: VoteType)
    requires Valid(db) && user in db.users
    ensures Aggregate(Toggled(db, user, activity, t), activity) == Aggregate(db, activity) + Shift(PriorType(db, user, activity), t)
  {
    assert Below(db.votes, db.next);
    var after := Toggled(db, user, activity, t);
    match PriorVote(db, user, activity)
    case None =>
      var v := Vote(t, Some(activity), Some(user), db.users[user].country);
      assert after == db.(votes := db.votes[db.next := v], next := db.next + 1);
      AggregateAfterCreate(db, v, activity);
    case Some(k) =>
      if db.votes[k].vtype == t {
        assert after == db.(votes := db.votes - {k});
        AggregateAfterRemove(db, k, activity);
      } else {
        assert after == db.(votes := db.votes[k := db.votes[k].(vtype := t)]);
        AggregateAfterSwitch(db, k, activity, t);
      }
  }

  lemma AggregateAfterCreate(db: Db, v: Vote, activity: Id)
    requires Below(db.votes, db.next) && v.activity == Some(activity)
    ensures Aggregate(db.(votes := db.votes[db.next := v], next := db.next + 1), activity)
            == Aggregate(db, activity) + Weight(v.vtype)
  {
    var r := db.(votes := db.votes[db.next := v], next := db.next + 1);
    TypeCountDelta(db, r, activity, Upvote, db.next);
    TypeCountDelta(db, r, activity, Downvote, db.next);
    TypeVotesMatches(activity, Upvote, db.next, v);
    TypeVotesMatches(activity, Downvote, db.next, v);
  }

  lemma AggregateAfterRemove(db: Db, k: Id, activity: Id)
    requires Below(db.votes, db.next) && k in db.votes && db.votes[k].activity == Some(activity)
    ensures Aggregate(db.(votes := db.votes - {k}), activity) == Aggregate(db, activity) - Weight(db.votes[k].vtype)
  {
    var r := db.(votes := db.votes - {k});
    TypeCountDelta(db, r, activity, Upvote, k);
    TypeCountDelta(db, r, activity, Downvote, k);
    TypeVotesMatches(activity, Upvote, k, db.votes[k]);
    TypeVotesMatches(activity, Downvote, k, db.votes[k]);
  }

  lemma AggregateAfterSwitch(db: Db, k: Id, activity: Id, t: VoteType)
    requires Below(db.votes, db.next) && k in db.votes && db.votes[k].activity == Some(activity)
    ensures Aggregate(db.(votes := db.votes[k := db.votes[k].(vtype := t)]), activity)
            == Aggregate(db, activity) - Weight(db.votes[k].vtype) + Weight(t)
  {
    var r := db.(votes := db.votes[k := db.votes[k].(vtype := t)]);
    TypeCountDelta(db, r, activity, Upvote, k);
    TypeCountDelta(db, r, activity, Downvote, k);
    TypeVotesMatches(activity, Upvote, k, db.votes[k]);
    TypeVotesMatches(activity, Downvote, k, db.votes[k]);
    TypeVotesMatches(activity, Upvote, k, r.votes[k]);
    TypeVotesMatches(activity, Downvote, k, r.votes[k]);
  }

  /** The count of one type of vote on an activity changes only by what the one
      changed vote `k` contributes before and after. */
  lemma TypeCountDelta(db: Db, r: Db, activity: Id, t: VoteType, k: Id)
    requires Below(db.votes, db.next) && k <= db.next && (r.next == db.next || r.next == db.next + 1) && k < r.next
    requires forall id :: id != k ==> (id in db.votes <==> id in r.votes)
    requires forall id :: id != k && id in db.votes ==> db.votes[id] == r.votes[id]
    ensures CountVotes(r, TypeVotes(activity, t), NoRegex()) + Hit(db.votes, r.next, TypeVotes(activity, t), VoteView, NoRegex(), k)
            == CountVotes(db, TypeVotes(activity, t), NoRegex()) + Hit(r.votes, r.next, TypeVotes(activity, t), VoteView, NoRegex(), k)
  {
    var f := TypeVotes(activity, t);
    CountOneChange(db.votes, r.votes, r.next, f, VoteView, NoRegex(), k);
    if r.next == db.next + 1 {
      CountExtend(db.votes, db.next, f, VoteView, NoRegex());
    }
  }
}

=== FILE: vote_service.dfy ===
/**
 * The vote service: lookup, creation, counting, field updates and hard deletion of
 * votes.  Votes have no soft-delete flag; a removed vote is gone.
 */
module VoteService {
  import opened Wrappers
  import opened Store
  import opened Models
  import opened Constants

  /** `getVote`: the first vote matching the query. */
  function GetVote(db: Db, query: Filter, regex: Regex): (r: Option<Id>)
    ensures r.Some? ==> r.value in db.votes && r.value < db.next
                        && Matches(query, r.value, db.votes[r.value], VoteView, regex)
    ensures r.None? ==> forall id :: id in db.votes && id < db.next ==>
                          !Matches(query, id, db.votes[id], VoteView, regex)
  {
    First(db.votes, db.next, query, VoteView, regex)
  }

  /** `createVote`: the type must be one of the enumeration's names; the vote is stored
      under the next id with exactly the given activity, creator and country (the
      country defaulting to "NG"). */
  function CreateVote(db: Db, vtype: string, activity: Id, createdBy: Id, country: Option<string>): (r: Result<(Db, Id)>)
    requires Valid(db)
    ensures r.Ok? <==> ParseVoteType(vtype).Ok?
    ensures r.Ok? ==> && r.value.1 == db.next && Valid(r.value.0)
                      && r.value.0 == db.(votes := db.votes[db.next := Vote(ParseVoteType(vtype).value, Some(activity),
                                                                           Some(createdBy), country.GetOr(DefaultCountryCode))],
                                          next := db.next + 1)
                      && VoteTypeName(r.value.0.votes[db.next].vtype) == vtype
  {
    match ParseVoteType(vtype)
    case Err(e) => Err(e)
    case Ok(t) =>
      var v := Vote(t, Some(activity), Some(createdBy), country.GetOr(DefaultCountryCode));
      Ok((db.(votes := db.votes[db.next := v], next := db.next + 1), db.next))
  }

  /** `countVotes`: how many votes match; nothing is excluded. */
  function CountVotes(db: Db, query: Filter, regex: Regex): (c: nat)
    ensures c <= db.next
    ensures c == 0 <==> GetVote(db, query, regex).None?
    ensures c == |Matching(db.votes, db.next, query, VoteView, regex)|
  {
    CountIsMatching(db.votes, db.next, query, VoteView, regex);
    var all := Select(db.votes, db.next, query, VoteView, regex);
    assert all != [] ==> all[0] in all;
    Count(db.votes, db.next, query, VoteView, regex)
  }

  /** The fields `updateVote` may set; an absent field is left alone. */
  datatype VotePatch = VotePatch(vtype: Option<string>, activity: Option<Id>, createdBy: Option<Id>, country: Option<string>)

  const NoVote := "No vote with that id exists."

  /** The vote with the supplied fields set; a type outside the enumeration fails
      validation. */
  function PatchVote(v: Vote, patch: VotePatch): (r: Result<Vote>)
    ensures r.Ok? <==> patch.vtype.None? || ParseVoteType(patch.vtype.value).Ok?
    ensures r.Ok? ==> && VoteTypeName(r.value.vtype) == patch.vtype.GetOr(VoteTypeName(v.vtype))
                      && r.value.activity == (if patch.activity.Some? then patch.activity else v.activity)
                      && r.value.createdBy == (if patch.createdBy.Some? then patch.createdBy else v.createdBy)
                      && r.value.country == patch.country.GetOr(v.country)
  {
    var t := if patch.vtype.Some? then ParseVoteType(patch.vtype.value) else Ok(v.vtype);
    match t
    case Err(e) => Err(e)
    case Ok(vt) =>
      Ok(Vote(vt, if patch.activity.Some? then patch.activity else v.activity,
              if patch.createdBy.Some? then patch.createdBy else v.createdBy,
              patch.country.GetOr(v.country)))
  }

  /** `updateVote`: "not found" when no vote matches; otherwise the supplied fields of
      the first match are set, and a type outside the enumeration fails on save. */
  function UpdateVote(db: Db, query: Filter, patch: VotePatch, regex: Regex): (r: Result<(Db, Id)>)
    ensures GetVote(db, query, regex).None? ==> r == Err(NotFound(NoVote))
    ensures GetVote(db, query, regex).Some? ==> (r.Ok? <==> PatchVote(db.votes[GetVote(db, query, regex).value], patch).Ok?)
    ensures r.Ok? ==> GetVote(db, query, regex) == Some(r.value.1)
    ensures r.Ok? ==> r.value.0 == db.(votes := db.votes[r.value.1 := PatchVote(db.votes[r.value.1], patch).value])
  {
    match GetVote(db, query, regex)
    case None => Err(NotFound(NoVote))
    case Some(id) =>
      match PatchVote(db.votes[id], patch)
      case Err(e) => Err(e)
      case Ok(v) => Ok((db.(votes := db.votes[id := v]), id))
  }

  /** `deleteVote`: "not found" when no vote matches; otherwise the first match is
      removed and nothing else changes. */
  function DeleteVote(db: Db, query: Filter, regex: Regex): (r: Result<(Db, Id)>)
    ensures GetVote(db, query, regex).None? <==> r.Err?
    ensures r.Err? ==> r.error == NotFound(NoVote) && r.error.Status() == 404
    ensures r.Ok? ==> GetVote(db, query, regex) == Some(r.value.1)
    ensures r.Ok? ==> r.value.0 == db.(votes := db.votes - {r.value.1})
  {
    match GetVote(db, query, regex)
    case None => Err(NotFound(NoVote))
    case Some(id) => Ok((db.(votes := db.votes - {id}), id))
  }

  /** Deleting a vote by id leaves nothing for that id to find. */
  lemma DeletedVoteGone(db: Db, id: Id)
    requires id in db.votes && id < db.next
    ensures DeleteVote(db, IdIs(id), NoRegex()).Ok?
    ensures GetVote(DeleteVote(db, IdIs(id), NoRegex()).value.0, IdIs(id), NoRegex()).None?
  {
    VoteViewFields(id, db.votes[id]);
    IdIsMatches(id, id, db.votes[id], VoteView, NoRegex());
    var r := GetVote(db, IdIs(id), NoRegex());
    VoteViewFields(r.value, db.votes[r.value]);
    IdIsMatches(id, r.value, db.votes[r.value], VoteView, NoRegex());
    var db2 := DeleteVote(db, IdIs(id), NoRegex()).value.0;
    var r2 := GetVote(db2, IdIs(id), NoRegex());
    if r2.Some? {
      VoteViewFields(r2.value, db2.votes[r2.value]);
      IdIsMatches(id, r2.value, db2.votes[r2.value], VoteView, NoRegex());
    }
  }

  /** A stored vote is what `getVote({_id})` finds. */
  lemma GetVoteById(db: Db, k: Id, regex: Regex)
    requires k in db.votes && k < db.next
    ensures GetVote(db, IdIs(k), regex) == Some(k)
  {
    VoteViewFields(k, db.votes[k]);
    IdIsMatches(k, k, db.votes[k], VoteView, regex);
    forall id | id in db.votes && id < db.next && Matches(IdIs(k), id, db.votes[id], VoteView, regex)
      ensures id == k
    {
      VoteViewFields(id, db.votes[id]);
      IdIsMatches(k, id, db.votes[id], VoteView, regex);
    }
    FirstUnique(db.votes, db.next, IdIs(k), VoteView, regex, k);
  }
}

=== FILE: wrappers.dfy ===
/** Optional values, results, and the error classification the services raise. */
module Wrappers {

  datatype Option<+T> = None | Some(value: T) {
    function GetOr(default: T): T {
      match this
      case Some(v) => v
      case None => default
    }
  }

  /** The errors the services and controllers raise, with the HTTP status each one is translated to. */
  datatype Error =
    | NotFound(message: string)      // an `ootpError(..., 404)`
    | BadRequest(message: string)    // an `ootpError(..., 400)`
    | StoreError(message: string)    // a validation, index or driver failure (no status of its own: 500)
  {
    function Status(): int {
      match this
      case NotFound(_) => 404
      case BadRequest(_) => 400
      case StoreError(_) => 500
    }
  }

  datatype Result<+T> = Ok(value: T) | Err(error: Error) {
    predicate IsFailure() {
      Err?
    }

    function PropagateFailure<U>(): Result<U>
      requires Err?
    {
      Err(error)
    }

    function Extract(): T
      requires Ok?
    {
      value
    }
  }
}
